=== FILE: README.md ===
# Role-based task dashboard: a Dafny model

The dashboard is a React client over a FastAPI backend. Admins, managers and developers
(shown as "Employees") share one board of tasks. Each task moves through four statuses:
TO_DO, IN_PROGRESS, REVIEW and DONE. This project models the parts of the system that
make decisions, as pure functions over immutable data, and proves what those functions
promise.

- **Status transitions.** The Kanban drag guard and drop handler on the client. On the
  backend, the task service's status patch and update, and the role guards of the task
  router. Three declarative tables of allowed moves (`Transitions`) are the reference
  both sides are checked against. The `Agreement` module proves where the two sides
  agree (developer moves) and where they differ (manager moves).
- **Wire normalisers.** Role names sent to the backend. Status names sent to the
  backend and read back. Each of the task list, the reports page and the home page has
  its own, slightly different, status normaliser, and the model relates all three.
- **Client list transforms.** Applying a status update, the search, priority and
  assignee filter, the column layout, per-status and per-priority tallies, and
  completion rates.
- **Role-derived access.** Navigation filtering, the "view as" role menu, and the
  session: login, role switch, logout and start-up hydration.
- **Forms.** The create-task, create-employee, edit-employee and edit-user dialogs:
  ordered validation that sends nothing on failure, request construction, fallback
  records and resets. Also the collapse of a server error `detail` into one message.
- **Admin screens.** The employee and user lists: load, prepend, replace by id, delete
  by id. Badges, initials and the profile page.
- **Backend services.** The task service, the user service (`_ensure_roles_list`,
  default password, update rules) and the remark service (authorship check, empty
  update, file replacement). Each store is a sequence of rows or a map.

Modules follow the source files. `Text`, `Seqs`, `Optional` and `Tally` hold the string,
list and counting helpers. `TaskModel` and `ServerModel` hold the client and backend
vocabularies.

The task list's status normaliser returns unrecognised text upper-cased rather than
one of the four statuses (`TasksPage.NormalizeCanonical`, `TasksPage.NormalizedIsUpper`).

## Model

| member | source | states |
|---|---|---|
| TaskModel.ColumnIndex | role-based-dashboard-main/src/components/dashboard/TaskKanbanBoard.tsx:24 | every status has a column, and the column at that index shows that status |
| TaskModel.ParseStatusName | role-based-dashboard-main/src/types/task.ts:1 | exactly the four canonical spellings are recognised, each as its own status |
| TaskModel.StatusConfigTotal | role-based-dashboard-main/src/types/task.ts:29-57 | each status is a board column exactly once, and no two statuses share a name or a label |
| TaskModel.PriorityConfigTotal | role-based-dashboard-main/src/types/task.ts:59-66 | each priority is listed once, and no two priorities share a wire name or a label |
| Transitions.TablesShape | role-based-dashboard-main/src/components/dashboard/TaskKanbanBoard.tsx:65-91 | no move of any table leaves DONE or keeps the status unchanged |
| Transitions.ManagerTablesMeet | backend/app/crud/task_crud.py:153-159 | the board's and the backend's manager tables share only REVIEW to DONE; REVIEW to TO_DO is board-only and REVIEW to IN_PROGRESS backend-only |
| Transitions.AssigneeMovesAre | role-based-dashboard-main/src/components/dashboard/TaskKanbanBoard.tsx:65-72 | an assignee may move a task only from TO_DO to IN_PROGRESS or from IN_PROGRESS to REVIEW |
| Transitions.BoardManagerMovesAre | role-based-dashboard-main/src/components/dashboard/TaskKanbanBoard.tsx:81-84 | on the board a manager may move a task only from REVIEW, to TO_DO or DONE |
| Transitions.ServerManagerMovesAre | backend/app/crud/task_crud.py:153-159 | a reviewing manager may move a task only from REVIEW, to IN_PROGRESS or DONE |
| Kanban.CanMoveToStatus | role-based-dashboard-main/src/components/dashboard/TaskKanbanBoard.tsx:41-94 | a drag is allowed exactly when a developer moves their own task along the assignee table or a manager makes a board-manager move; a missing user gets "Not authenticated"; every refusal carries a reason |
| Kanban.DeveloperVerdict | role-based-dashboard-main/src/components/dashboard/TaskKanbanBoard.tsx:57-76 | a developer's drag is allowed exactly for their own task and a move of the assignee table; refusals carry a reason |
| Kanban.ManagerVerdict | role-based-dashboard-main/src/components/dashboard/TaskKanbanBoard.tsx:79-90 | a manager's drag is allowed exactly for a move of the board's manager table; refusals carry a reason |
| Kanban.AdminNeverMoves | role-based-dashboard-main/src/components/dashboard/TaskKanbanBoard.tsx:49-54 | an admin is refused every move with the admin message |
| Kanban.DeveloperOwnershipFirst | role-based-dashboard-main/src/components/dashboard/TaskKanbanBoard.tsx:57-64 | a developer dragging someone else's task gets the ownership message, whatever the move |
| Kanban.ManagerIgnoresOwnership | role-based-dashboard-main/src/components/dashboard/TaskKanbanBoard.tsx:80-91 | a manager's verdict is the same for any two tasks |
| Kanban.DoneIsFinal | role-based-dashboard-main/src/components/dashboard/TaskKanbanBoard.tsx:57-93 | no user may move a task out of DONE |
| Kanban.UnknownRoleRefused | role-based-dashboard-main/src/components/dashboard/TaskKanbanBoard.tsx:93 | a role other than admin, developer and manager is refused with "Permission denied" |
| Kanban.FindTask | role-based-dashboard-main/src/components/dashboard/TaskKanbanBoard.tsx:104 | absent exactly when no task has the id; otherwise the first task with that id |
| Kanban.HandleDragEnd | role-based-dashboard-main/src/components/dashboard/TaskKanbanBoard.tsx:96-127 | an update is issued only for a drop on a column, of a known task, into a different status, that the guard allows; an update comes with a success notice and a refusal with at most one error notice |
| Kanban.RefusedDragShowsReason | role-based-dashboard-main/src/components/dashboard/TaskKanbanBoard.tsx:109-114 | a refused drag issues no update and shows exactly the guard's reason |
| Kanban.DragFollowsTables | role-based-dashboard-main/src/components/dashboard/TaskKanbanBoard.tsx:109-123 | every update the board issues is a move of the assignee or board-manager table |
| Kanban.RemarkNoticeUnreachable | role-based-dashboard-main/src/components/dashboard/TaskKanbanBoard.tsx:116-121 | when a card leaves the column of its own status, the REVIEW-to-IN_PROGRESS remark notice never shows |
| Kanban.TasksByStatus | role-based-dashboard-main/src/components/dashboard/TaskKanbanBoard.tsx:36-38 | an order-preserving sublist holding exactly the tasks with that status, each as many times as in the input |
| Kanban.Board | role-based-dashboard-main/src/components/dashboard/TaskKanbanBoard.tsx:24-38 | one column per status, each an order-preserving sublist holding exactly the tasks whose status spells that column's status, each as many times as in the input |
| Kanban.ColumnsPartitionTasks | role-based-dashboard-main/src/components/dashboard/TaskKanbanBoard.tsx:24-38 | a task shows in a column exactly when its status spells that column's status, so in at most one column |
| TasksPage.MapRoleToBackend | role-based-dashboard-main/src/pages/dashboard/TasksPage.tsx:107-112 | admin, manager and developer map to their capitalised backend names and anything else to Developer |
| TasksPage.MapStatusToBackend | role-based-dashboard-main/src/pages/dashboard/TasksPage.tsx:142-155 | a canonical status name is sent as its backend spelling, and any other text lower-cased |
| TasksPage.NormalizeStatusFromBackend | role-based-dashboard-main/src/pages/dashboard/TasksPage.tsx:200-208 | absent or empty text reads as TO_DO; the backend spellings, and "todo", read case-insensitively as their status; any other text comes back upper-cased |
| TasksPage.PatchRequestFor | role-based-dashboard-main/src/pages/dashboard/TasksPage.tsx:117-121 | the patch carries the task id, a status name the backend parses back to the dropped status, and the mapped role |
| TasksPage.MapStatusToBackendIsLower | role-based-dashboard-main/src/pages/dashboard/TasksPage.tsx:142-155 | the wire status sent for a canonical status is its name lower-cased |
| TasksPage.NormalizeWire | role-based-dashboard-main/src/pages/dashboard/TasksPage.tsx:200-208 | every spelling the backend may send for a status (any case, with or without the underscore for to do and in progress) normalizes to the canonical name |
| TasksPage.StatusRoundTrip | role-based-dashboard-main/src/pages/dashboard/TasksPage.tsx:142-208 | sending a status to the backend and reading it back gives the same status |
| TasksPage.NormalizeCanonical | role-based-dashboard-main/src/pages/dashboard/TasksPage.tsx:200-208 | a canonical name is left as it is |
| TasksPage.NormalizedIsUpper | role-based-dashboard-main/src/pages/dashboard/TasksPage.tsx:200-208 | whatever comes in, the normalized status has no lower-case letter |
| TasksPage.NormalizeIdempotent | role-based-dashboard-main/src/pages/dashboard/TasksPage.tsx:200-208 | normalizing a normalized status changes nothing |
| TasksPage.ApplyStatusUpdate | role-based-dashboard-main/src/pages/dashboard/TasksPage.tsx:114-136 | after a failed patch the list is unchanged; after a successful one exactly the tasks with that id take the new status and time, the rest are kept, and the length is kept |
| TasksPage.UpdatedTaskInNewColumn | role-based-dashboard-main/src/pages/dashboard/TasksPage.tsx:122-132 | after a successful update a task with that id reads back as the new status, and only tasks with that id changed status |
| TasksPage.AcceptedDropLands | role-based-dashboard-main/src/pages/dashboard/TasksPage.tsx:114-136 | a drag the board accepts, followed by a successful patch, leaves the task findable and shown in the column it was dropped on |
| TasksPage.NormalizeTask | role-based-dashboard-main/src/pages/dashboard/TasksPage.tsx:210-235 | the id falls back from t_id to id to empty, priority defaults to medium, and the status is normalized |
| TasksPage.FetchTasks | role-based-dashboard-main/src/pages/dashboard/TasksPage.tsx:192-244 | without a user or on failure the list stays; a non-array body empties it; an array replaces it record by record, every status upper case |
| TasksPage.NormalizeAll | role-based-dashboard-main/src/pages/dashboard/TasksPage.tsx:210-235 | one normalized record per fetched record, in order, each status upper case |
| TasksPage.FilteredTasks | role-based-dashboard-main/src/pages/dashboard/TasksPage.tsx:252-276 | an order-preserving sublist holding exactly the tasks that match the search, the priority filter and the assignee scope, each as many times as in the input |
| TasksPage.UnfilteredForManagers | role-based-dashboard-main/src/pages/dashboard/TasksPage.tsx:252-276 | with no query, all priorities and no assignee parameter, an admin or a manager sees every task in order |
| TasksPage.CanCreate | role-based-dashboard-main/src/pages/dashboard/TasksPage.tsx:104 | the create button shows exactly for a present user whose active role is admin or manager; `Agreement.CreateButtonMatchesRoute` ties this to the backend |
| Session.MapBackendRoleToFrontend | role-based-dashboard-main/src/contexts/AuthContext.tsx:14-15 | a present non-empty role is lower-cased; an absent or empty one reads as developer; the result is never empty |
| Session.MapLoginRoles | role-based-dashboard-main/src/contexts/AuthContext.tsx:46-48 | an array of roles is lower-cased entry by entry, null as empty; anything else becomes the single role developer |
| Session.Login | role-based-dashboard-main/src/contexts/AuthContext.tsx:42-61 | the user holds the response's id, token and mapped roles, the first role (or developer) is active, and the stored copy is the same user |
| Session.AttachName | role-based-dashboard-main/src/contexts/AuthContext.tsx:63-73 | a non-empty name, else full name, is added to the user and the stored copy; without one nothing changes |
| Session.SwitchRole | role-based-dashboard-main/src/contexts/AuthContext.tsx:76-81 | only the active role changes, to the new role, and it is stored; without a user nothing happens |
| Session.Logout | role-based-dashboard-main/src/contexts/AuthContext.tsx:83-86 | no user and no stored copy remain |
| Session.Hydrate | role-based-dashboard-main/src/contexts/AuthContext.tsx:22-31 | a parsable stored user is restored; text parsing to `null` is kept and leaves the session without a user; unparsable text is removed; an absent or empty entry leaves the session empty |
| Session.HydrateConsistent | role-based-dashboard-main/src/contexts/AuthContext.tsx:22-31 | after start-up, a user in memory always has a stored copy equal to it |
| Session.HydrateTwice | role-based-dashboard-main/src/contexts/AuthContext.tsx:22-31 | starting up again from what a start-up left stored gives the same session |
| Session.SwitchRoleBack | role-based-dashboard-main/src/contexts/AuthContext.tsx:76-81 | switching to a role and back restores the session |
| ServerModel.Surface | backend/app/routers/task_router.py:17-20 | an HTTP error passes through unchanged and any other failure becomes a 500 |
| TaskCrud.Lookup | backend/app/crud/task_crud.py:107 | absent exactly when no row has the key; otherwise a stored row with that key |
| TaskCrud.Put | backend/app/crud/task_crud.py:133-137 | the written row replaces the rows with its key; every other row and the length are kept |
| TaskCrud.AddTask | backend/app/crud/task_crud.py:9-36 | a role other than Admin or Manager gets 400 "Not Authorized", and Admin or Manager always succeeds; a created row is appended, keyed by the new id, created by the caller whatever the payload says, stamped with `assigned_at` exactly when an assignee is named, and otherwise equal to the payload |
| TaskCrud.GetAllTasks | backend/app/crud/task_crud.py:45-67 | a role the caller does not hold gets 403; a held Manager or Admin role sees every row; any other held role sees exactly the rows assigned to the caller, in order and with their multiplicity |
| TaskCrud.GetTaskByStatus | backend/app/crud/task_crud.py:92-96 | fails exactly when the caller's list does; otherwise exactly the rows of that list with the given status, in order and with their multiplicity |
| TaskCrud.UpdateTask | backend/app/crud/task_crud.py:100-139 | roles outside Admin and Manager get 403 and a missing row 404; a Manager closing a task they do not review gets 403 "Only the reviewer…"; past that, a status change on an IN_PROGRESS row gets 403 "Only assigned employee…"; it succeeds exactly when none of these apply; a success writes the requested keys over the row (a requested `assigned_at` or `actual_closure` wins), refreshes `updated_at`, and otherwise sets `assigned_at` only when it was unset and an assignee is given and `actual_closure` on a move to DONE |
| TaskCrud.PatchStatus | backend/app/crud/task_crud.py:148-173 | a missing row crashes; a Manager who is not the reviewer gets 403 "Not Reviewer for the task" and anyone else who is not the assignee 403 "Not assigned for the task"; past that check, a Manager's move that is not to IN_PROGRESS or DONE from REVIEW gets 409, and so does an assignee's move that is not TO_DO to IN_PROGRESS or IN_PROGRESS to REVIEW (a null stored status that the test reads crashes instead); a success stores the status as sent in the found row and nothing else |
| TaskCrud.PatchStatusFollowsTables | backend/app/crud/task_crud.py:153-169 | the patch succeeds exactly when the caller is the reviewer (Manager) or assignee (anyone else) and the upper-cased move is in the backend manager table or the assignee table respectively |
| TaskCrud.ManagerPatchAsText | backend/app/crud/task_crud.py:153-159 | a Manager's patch succeeds exactly for the reviewer, from REVIEW, to IN_PROGRESS or DONE, compared upper-cased |
| TaskCrud.AssigneePatchAsText | backend/app/crud/task_crud.py:160-169 | any other role's patch succeeds exactly for the assignee, from TO_DO to IN_PROGRESS or from IN_PROGRESS to REVIEW, compared upper-cased |
| TaskCrud.TablesAsText | backend/app/crud/task_crud.py:156-167 | the two backend tables, read through status names, are exactly the text comparisons the code makes |
| TaskCrud.StatusNameUpper | backend/app/crud/task_crud.py:156-167 | text parses as a status exactly when it is one of the four upper-case names, and each name parses as its own status |
| TaskCrud.DeleteTaskAsWritten | backend/app/crud/task_crud.py:183-194 | a role outside Admin and Manager gets 403; for Admin and Manager the query through the unset session crashes |
| TaskCrud.DeleteAsWrittenNeverSucceeds | backend/app/crud/task_crud.py:188-190 | no call of the delete as written succeeds |
| TaskCrud.DeleteTask | backend/app/crud/task_crud.py:186-197 | a role outside Admin and Manager gets 403 and a missing row 404; a delete succeeds exactly for the creator, and removes exactly the rows with that key, keeping the others in order and with their multiplicity |
| TaskCrud.CreatedTaskIsListed | backend/app/crud/task_crud.py:27-67 | a task an Admin or Manager creates appears in their own task list |
| TaskCrud.CreatorCanDelete | backend/app/crud/task_crud.py:27-197 | the creator can delete a task they just created under its fresh key, and no row with that key remains |
| TaskRouter.Respond | backend/app/routers/task_router.py:17-20 | a success passes through; an HTTP error passes through; any other failure becomes an HTTP error |
| TaskRouter.GetAll | backend/app/routers/task_router.py:10-20 | an empty list becomes 404 "No tasks found"; a non-empty list is the service's answer |
| TaskRouter.GetByStatus | backend/app/routers/task_router.py:22-27 | a role the caller does not hold gets 409 exactly; a held role gets the service's answer |
| TaskRouter.AddNewTask | backend/app/routers/task_router.py:33-39 | a role outside Manager and Admin gets 409 exactly; those two roles always create |
| TaskRouter.UpdateTaskDataAsWritten | backend/app/routers/task_router.py:57-69 | a role not held gets 409; an Admin request without a status key fails with a 500 |
| TaskRouter.AdminTitleEditFails | backend/app/routers/task_router.py:62 | an Admin who holds the role cannot edit only a title |
| TaskRouter.UpdateTaskData | backend/app/routers/task_router.py:57-69 | a role not held gets 409; an Admin changing the status gets 409; everything else is the service's answer |
| TaskRouter.UpdateCorrectionIsLocal | backend/app/routers/task_router.py:60-64 | with a status key present, or for any role but Admin, the corrected route answers as the written one |
| TaskRouter.AdminTitleEditReachesService | backend/app/routers/task_router.py:60-64 | with the correction an Admin's title-only edit reaches the service |
| TaskRouter.PatchStat | backend/app/routers/task_router.py:71-81 | the guard refuses exactly a role that is neither held nor Admin in any case; past it the answer is the service's |
| TaskRouter.AdminPatchesAsAssignee | backend/app/routers/task_router.py:74-76 | Admin passes the guard without holding the role, and then succeeds only as the task's assignee |
| TaskRouter.DeleteTaskById | backend/app/routers/task_router.py:84-90 | the guard refuses exactly a role that is neither Admin in any case nor held; past it the answer is that of the corrected `TaskCrud.DeleteTask` |
| Agreement.SentStatusParses | backend/app/crud/task_crud.py:156-167 | the status name the client sends reads back on the backend as the same status |
| Agreement.CreateButtonMatchesRoute | role-based-dashboard-main/src/pages/dashboard/TasksPage.tsx:104 | the tasks page shows its create button exactly when the role it sends is a creator role, that is, exactly when the `/create` route would create the task |
| Agreement.DeveloperSidesAgree | backend/app/crud/task_crud.py:160-169 | when ownership means the same on both sides, the board allows a developer's drag exactly when the backend accepts the patch it sends |
| Agreement.ManagerSidesMeetOnlyAtDone | backend/app/crud/task_crud.py:153-159 | for a reviewing manager, the board and the backend both accept a move only when it is REVIEW to DONE |
| Agreement.ManagerBoardTable | role-based-dashboard-main/src/components/dashboard/TaskKanbanBoard.tsx:80-91 | the board allows a manager exactly REVIEW to TO_DO and REVIEW to DONE |
| Agreement.ManagerServerTable | backend/app/crud/task_crud.py:153-159 | the backend accepts a reviewing manager's patch exactly for a backend manager move |
| Agreement.BoardOnlyManagerMove | role-based-dashboard-main/src/components/dashboard/TaskKanbanBoard.tsx:80-86 | the board allows REVIEW to TO_DO, which the backend refuses |
| Agreement.ServerOnlyManagerMove | backend/app/crud/task_crud.py:156 | the backend accepts REVIEW to IN_PROGRESS, which the board refuses |
| ErrorDetail.Get | role-based-dashboard-main/src/components/dashboard/CreateTaskModal.tsx:200 | an optional-chaining read gives undefined on anything but an object holding the key, and otherwise the value of the first field with that key |
| ErrorDetail.PickDetail | role-based-dashboard-main/src/components/dashboard/CreateTaskModal.tsx:200 | `data.detail` when truthy, else `data` when truthy, else `message` when truthy, else the error itself; a non-object error is returned as is |
| ErrorDetail.EntryText | role-based-dashboard-main/src/components/dashboard/CreateTaskModal.tsx:203-205 | an entry shows its truthy `msg`, else the string itself, else its serialization |
| ErrorDetail.EntryTexts | role-based-dashboard-main/src/components/dashboard/CreateTaskModal.tsx:202-206 | one text per entry, in order |
| ErrorDetail.Collapse | role-based-dashboard-main/src/components/dashboard/CreateTaskModal.tsx:201-215 | an array joins its entries' texts with "; " and throws exactly when an entry is null or undefined; an object or null is serialized; a string is shown as it is |
| ErrorDetail.EveryEntryShown | role-based-dashboard-main/src/pages/dashboard/EmployeesPage.tsx:97-105 | every entry of a validation error list appears in the message shown |
| ErrorDetail.ServerTextShown | role-based-dashboard-main/src/pages/dashboard/EmployeesPage.tsx:97-114 | a non-empty text detail from the server is shown unchanged |
| ErrorDetail.MessageOr | role-based-dashboard-main/src/pages/dashboard/UsersPage.tsx:31 | the error's own truthy text message, else the fallback |
| Navigation.SectionFor | role-based-dashboard-main/src/config/navigation.ts:98-100 | a section keeps its title and exactly the items that list the role, in order |
| Navigation.SectionsFor | role-based-dashboard-main/src/config/navigation.ts:97-101 | every section is cut down for the role, in order |
| Navigation.NavItemsForRole | role-based-dashboard-main/src/config/navigation.ts:96-103 | the sections that keep an item, in order and with their multiplicity; no section returned is empty, and every item returned lists the role |
| Navigation.MenuMatchesReference | role-based-dashboard-main/src/config/navigation.ts:96-103 | the menu lists exactly the titles a walk over the configuration finds for the role, in order |
| Navigation.ConfigWalk | role-based-dashboard-main/src/config/navigation.ts:26-94 | the walk over the configuration is Dashboard, Employees, Users, All Tasks, Reports and Profile, each shown to the roles it lists |
| Navigation.MenuForRole | role-based-dashboard-main/src/config/navigation.ts:26-103 | the menu a role gets is what the configuration grants it, item by item |
| Navigation.DeveloperNavigation | role-based-dashboard-main/src/config/navigation.ts:34-89 | a developer is shown Dashboard, All Tasks and Profile, in that order |
| Navigation.StaffOnlyPages | role-based-dashboard-main/src/config/navigation.ts:46-77 | Users is shown to admins only; Employees and Reports exactly to admins and managers |
| Navbar.RoleSet | role-based-dashboard-main/src/components/dashboard/DashboardNavbar.tsx:91-102 | holds every granted role lower-cased, adds manager when admin is there, nothing else; with no granted roles only the non-empty active role |
| Navbar.AvailableRoles | role-based-dashboard-main/src/components/dashboard/DashboardNavbar.tsx:104 | an order-preserving sublist of admin, manager, employee holding exactly the entries whose role is in the set, with no role twice |
| Navbar.DistinctSubsequence | role-based-dashboard-main/src/components/dashboard/DashboardNavbar.tsx:36-45 | deleting entries from a list without repeated roles leaves none repeated |
| Navbar.AdminViewsManager | role-based-dashboard-main/src/components/dashboard/DashboardNavbar.tsx:97-98 | an admin may always view as manager |
| Navbar.AdminNeverDeveloper | role-based-dashboard-main/src/components/dashboard/DashboardNavbar.tsx:96-100 | an admin not granted developer never gets the employee entry |
| Navbar.HandleRoleClick | role-based-dashboard-main/src/components/dashboard/DashboardNavbar.tsx:109-113 | a click on the active role changes nothing and shows nothing; any other click switches to that role, changes nothing else, and shows "Now viewing as " followed by the role |
| Navbar.RoleLabelMatchesMenu | role-based-dashboard-main/src/components/dashboard/DashboardNavbar.tsx:257-259 | the capitalised label under the avatar is the caption of the menu entry for that role, so developer shows as Employee |
| Text.ToLower | role-based-dashboard-main/src/pages/dashboard/ReportsPage.tsx:36 | same length, each character lower-cased |
| Text.ToUpper | role-based-dashboard-main/src/pages/dashboard/ReportsPage.tsx:43 | same length, each character upper-cased |
| Text.LowerOfUpper | role-based-dashboard-main/src/pages/dashboard/TasksPage.tsx:200-208 | lower-casing forgets an earlier upper-casing |
| Text.UpperIdempotent | role-based-dashboard-main/src/pages/dashboard/TasksPage.tsx:207 | upper-casing twice is upper-casing once |
| Text.LowerIdempotent | role-based-dashboard-main/src/pages/dashboard/ReportsPage.tsx:46-49 | lower-casing twice is lower-casing once |
| Text.Capitalize | role-based-dashboard-main/src/components/dashboard/CreateTaskModal.tsx:184-185 | the same length, the first character upper-cased and the rest kept; the empty text stays empty |
| Text.TrimStart | role-based-dashboard-main/src/components/dashboard/CreateTaskModal.tsx:114 | drops a whitespace prefix and what is left does not start with whitespace |
| Text.TrimEnd | role-based-dashboard-main/src/components/dashboard/CreateTaskModal.tsx:114 | drops a whitespace suffix and what is left does not end with whitespace |
| Text.TrimEmptyIff | role-based-dashboard-main/src/components/dashboard/CreateTaskModal.tsx:114 | text trims to nothing exactly when every character is whitespace |
| Text.TrimIdempotent | backend/app/crud/users_crud.py:24 | trimming twice is trimming once |
| Text.Split | backend/app/crud/users_crud.py:24 | at least one piece, none holding the separator |
| Text.JoinSplit | backend/app/crud/users_crud.py:24 | joining the pieces of a split with the separator gives back the text |
| Text.SplitJoin | backend/app/crud/users_crud.py:24 | splitting a join of separator-free pieces gives back the pieces |
| Text.JoinContainsParts | role-based-dashboard-main/src/components/dashboard/CreateTaskModal.tsx:202-206 | every piece occurs in the joined text |
| CreateTaskModal.Validate | role-based-dashboard-main/src/components/dashboard/CreateTaskModal.tsx:114-158 | the first failing check in the order blank title, blank description, missing due date (none picked, or cleared to ""), title over 100, description over 250, each exactly when the earlier ones pass; none when all pass |
| CreateTaskModal.SpacesAreBlank | role-based-dashboard-main/src/components/dashboard/CreateTaskModal.tsx:114 | a title of only spaces is reported missing, however long |
| CreateTaskModal.PaddingCountsTowardsLimit | role-based-dashboard-main/src/components/dashboard/CreateTaskModal.tsx:141 | the length limit counts the untrimmed title, so padding can push it over |
| CreateTaskModal.CapitalizeMatchesBackendRole | role-based-dashboard-main/src/components/dashboard/CreateTaskModal.tsx:184-187 | for the three client roles the capitalized role query is the backend role name the tasks page sends |
| CreateTaskModal.RoleQuery | role-based-dashboard-main/src/components/dashboard/CreateTaskModal.tsx:186-188 | the encoded capitalized active role when there is one, else nothing |
| CreateTaskModal.BuildRequest | role-based-dashboard-main/src/components/dashboard/CreateTaskModal.tsx:159-190 | title and description as typed; priority lower-cased with medium as default; an assignee exactly when one is chosen, assigned-by exactly when also the user has an id and then equal to created-by; created-by exactly the user's id; the expected closure is the picked date in ISO form; the path carries the role query |
| CreateTaskModal.Submit | role-based-dashboard-main/src/components/dashboard/CreateTaskModal.tsx:110-190 | a form failing validation, a cleared due date included, sends nothing and shows the first failure's message; otherwise the built request is sent |
| CreateTaskModal.ClearedDateRejected | role-based-dashboard-main/src/components/dashboard/CreateTaskModal.tsx:132-140 | a form whose date picker was cleared back to "" is refused with "Due date is required" |
| CreateTaskModal.AfterResponse | role-based-dashboard-main/src/components/dashboard/CreateTaskModal.tsx:192-215 | a success shows "Created" / "Task created successfully", resets every field to its default and closes; a failure keeps the fields, stays open and shows "Create Failed" with the formatted error, and shows nothing when formatting the error throws |
| CreateTaskModal.EmptyFormRejected | role-based-dashboard-main/src/components/dashboard/CreateTaskModal.tsx:101-121 | a reset form is refused with "Title is required" |
| Tally.Keys | role-based-dashboard-main/src/pages/dashboard/ReportsPage.tsx:69 | one key per entry, in entry order |
| Tally.Bump | role-based-dashboard-main/src/pages/dashboard/ReportsPage.tsx:64 | the keys stay in place and a new key goes last |
| Tally.BumpDistinct | role-based-dashboard-main/src/pages/dashboard/ReportsPage.tsx:64 | an increment keeps the keys distinct |
| Tally.BumpLookup | role-based-dashboard-main/src/pages/dashboard/ReportsPage.tsx:64 | an increment adds one to its key's count and leaves every other count alone |
| Tally.BumpTotal | role-based-dashboard-main/src/pages/dashboard/ReportsPage.tsx:64 | an increment adds one to the total |
| Tally.BumpPositive | role-based-dashboard-main/src/pages/dashboard/ReportsPage.tsx:64 | an increment keeps every count positive |
| Tally.LookupAbsent | role-based-dashboard-main/src/pages/dashboard/ReportsPage.tsx:85 | a key that is not there counts zero |
| Tally.CountKeys | role-based-dashboard-main/src/pages/dashboard/ReportsPage.tsx:60-67 | distinct keys, exactly the counted ones, first-seen key first; each count is the key's number of occurrences and positive; the counts sum to the list length |
| Reports.NormalizeStatus | role-based-dashboard-main/src/pages/dashboard/ReportsPage.tsx:34-44 | absent or empty is TO_DO; present text is read by the substring tests |
| Reports.StatusFromText | role-based-dashboard-main/src/pages/dashboard/ReportsPage.tsx:36-43 | the first substring test that holds, in the order to do, in progress, review, done, decides; otherwise the text upper-cased |
| Reports.NormalizePriority | role-based-dashboard-main/src/pages/dashboard/ReportsPage.tsx:46-49 | absent or empty is medium; present text lower-cased |
| Reports.PriorityIsLower | role-based-dashboard-main/src/pages/dashboard/ReportsPage.tsx:46-49 | a normalized priority is its own lower-casing |
| Reports.StatusKeys | role-based-dashboard-main/src/pages/dashboard/ReportsPage.tsx:63 | one normalized status per task, in order |
| Reports.PriorityKeys | role-based-dashboard-main/src/pages/dashboard/ReportsPage.tsx:65 | one normalized priority per task, in order |
| Reports.StatusCounts | role-based-dashboard-main/src/pages/dashboard/ReportsPage.tsx:60-67 | the status counts sum to the number of tasks and count each normalized status's occurrences, under distinct keys |
| Reports.PriorityCounts | role-based-dashboard-main/src/pages/dashboard/ReportsPage.tsx:60-67 | the priority counts sum to the number of tasks and count each normalized priority's occurrences, under distinct keys |
| Reports.ChartLabel | role-based-dashboard-main/src/pages/dashboard/ReportsPage.tsx:70-77 | TO_DO, IN_PROGRESS and REVIEW get their own labels, and every other key, canonical or not, is labelled Done |
| Reports.StatusArray | role-based-dashboard-main/src/pages/dashboard/ReportsPage.tsx:69-80 | one chart entry per counted key, in key order, with the key's label and count |
| Reports.PriorityArray | role-based-dashboard-main/src/pages/dashboard/ReportsPage.tsx:82-92 | exactly three bars, for high, medium and low in that order, each with its capitalized name and its count or 0 |
| Reports.Bars | role-based-dashboard-main/src/pages/dashboard/ReportsPage.tsx:83-86 | one bar per listed priority, with its capitalized name and its count or 0 |
| Reports.CapitalizedLabel | role-based-dashboard-main/src/types/task.ts:59-66 | the capitalized wire name of a priority is its configured label |
| Reports.PriorityBarsCount | role-based-dashboard-main/src/pages/dashboard/ReportsPage.tsx:82-92 | the priority chart shows the configured labels, each with the number of tasks of that priority |
| Reports.RoundPercent | role-based-dashboard-main/src/pages/dashboard/ReportsPage.tsx:107-113 | the percentage rounded half up, at most 100 for a part of the whole |
| Reports.RoundingUnique | role-based-dashboard-main/src/pages/dashboard/ReportsPage.tsx:107-113 | a percentage rounds to only one integer |
| Reports.FirstDone | role-based-dashboard-main/src/pages/dashboard/ReportsPage.tsx:109 | the value of the first entry labelled Done, or 0 when there is none |
| Reports.CompletionRateAsWritten | role-based-dashboard-main/src/pages/dashboard/ReportsPage.tsx:107-113 | 0 for no tasks; otherwise the first Done-labelled entry's share, rounded |
| Reports.FirstStatusDecidesRate | role-based-dashboard-main/src/pages/dashboard/ReportsPage.tsx:69-78 | when the first task's status is labelled Done, the rate as written is that status's share, canonical or not |
| Reports.CompletionRateCountsUnknownStatus | role-based-dashboard-main/src/pages/dashboard/ReportsPage.tsx:107-113 | two blocked tasks and one done one give 67 as written but 33 corrected |
| Reports.CompletionRateAsWrittenBounded | role-based-dashboard-main/src/pages/dashboard/ReportsPage.tsx:107-113 | the rate as written never exceeds 100 |
| Reports.CompletionRate | role-based-dashboard-main/src/pages/dashboard/ReportsPage.tsx:107-113 | 0 for no tasks; otherwise the DONE share rounded half up, at most 100 |
| Reports.DoneLookup | role-based-dashboard-main/src/pages/dashboard/ReportsPage.tsx:60-67 | the DONE count of the status counts is the number of tasks read as DONE |
| Reports.CanonicalKeysAgree | role-based-dashboard-main/src/pages/dashboard/ReportsPage.tsx:69-113 | when every status reads as a canonical one, the rate as written equals the corrected one |
| Reports.FirstDoneIsDone | role-based-dashboard-main/src/pages/dashboard/ReportsPage.tsx:69-109 | over canonical keys the first Done-labelled entry is the DONE count |
| Reports.ReadsKnownSpellings | role-based-dashboard-main/src/pages/dashboard/ReportsPage.tsx:34-44 | the backend spellings and the canonical names read as the status they name |
| Reports.AgreesWithTasksPage | role-based-dashboard-main/src/pages/dashboard/ReportsPage.tsx:34-44 | on the backend spellings and the canonical names the reports and tasks normalizers agree |
| Reports.SubstringReadingDiffers | role-based-dashboard-main/src/pages/dashboard/ReportsPage.tsx:37-42 | elsewhere they differ: "undone" is DONE on the reports page and UNDONE on the tasks page |
| DashboardHome.Greeting | role-based-dashboard-main/src/pages/dashboard/DashboardHome.tsx:17-22 | morning exactly before 12, afternoon exactly from 12 to before 18, evening exactly from 18 |
| DashboardHome.RoleDescription | role-based-dashboard-main/src/pages/dashboard/DashboardHome.tsx:24-35 | a non-empty sentence exactly for admin, manager and developer |
| DashboardHome.MapRoleToBackend | role-based-dashboard-main/src/pages/dashboard/DashboardHome.tsx:44-49 | admin and manager map to their backend names and everything else to Developer |
| DashboardHome.SameRoleMapping | role-based-dashboard-main/src/pages/dashboard/DashboardHome.tsx:44-49 | the home page's role mapping is the tasks page's |
| DashboardHome.Normalize | role-based-dashboard-main/src/pages/dashboard/DashboardHome.tsx:66-77 | absent or empty is the empty text; present text goes through the substring tests in the reports page's order |
| DashboardHome.NormalizeMatchesReports | role-based-dashboard-main/src/pages/dashboard/DashboardHome.tsx:66-77 | on present text the home page reads a status exactly as the reports page |
| DashboardHome.AbsentIsNeverDone | role-based-dashboard-main/src/pages/dashboard/DashboardHome.tsx:67 | an absent status counts as nothing at home and as TO_DO in the reports |
| DashboardHome.CountStats | role-based-dashboard-main/src/pages/dashboard/DashboardHome.tsx:79-92 | the total is the list length and each counter the number of tasks read as that status, so the three counters never exceed the total |
| DashboardHome.CountKeysOf | role-based-dashboard-main/src/pages/dashboard/DashboardHome.tsx:82-87 | over read statuses, each counter is that status's number of occurrences and their sum is at most the total |
| DashboardHome.CompletionTrend | role-based-dashboard-main/src/pages/dashboard/DashboardHome.tsx:143-145 | 0 with no tasks; otherwise the done share rounded half up, at most 100 |
| DashboardHome.DoneCountsAgree | role-based-dashboard-main/src/pages/dashboard/DashboardHome.tsx:79-92 | the home page and the reports page count the same tasks as done |
| DashboardHome.TrendIsCompletionRate | role-based-dashboard-main/src/pages/dashboard/DashboardHome.tsx:143-145 | the trend on the Completed card equals the corrected reports completion rate |
| AdminLists.Load | role-based-dashboard-main/src/pages/dashboard/UsersPage.tsx:21-37 | an array replaces the list; a non-array body or a 404 empties it; any other failure keeps the list and shows the error toast, and nothing else does |
| AdminLists.Prepend | role-based-dashboard-main/src/pages/dashboard/EmployeesPage.tsx:59-62 | the new record goes first and the rest follow in order |
| AdminLists.ReplaceById | role-based-dashboard-main/src/pages/dashboard/EmployeesPage.tsx:72-76 | same length; records with the edited id become the edited record and the others are kept |
| AdminLists.RemoveId | role-based-dashboard-main/src/pages/dashboard/UsersPage.tsx:71 | an order-preserving sublist holding exactly the records with another id, each as many times as in the input |
| AdminLists.ReplaceIdempotent | role-based-dashboard-main/src/pages/dashboard/UsersPage.tsx:52-56 | applying the same edit twice is applying it once |
| AdminLists.ReplacedEverywhere | role-based-dashboard-main/src/pages/dashboard/UsersPage.tsx:52-56 | after an edit every record with that id is the edited record |
| AdminLists.RemoveAfterPrepend | role-based-dashboard-main/src/pages/dashboard/EmployeesPage.tsx:59-93 | removing the id of a record just added in front gives what removing that id from the old list gives |
| AdminLists.RemoveIdempotent | role-based-dashboard-main/src/pages/dashboard/EmployeesPage.tsx:93 | removing an id twice is removing it once |
| AdminLists.DeleteById | role-based-dashboard-main/src/pages/dashboard/UsersPage.tsx:58-80 | a request goes out exactly for a record with an id whose deletion is confirmed; a missing id shows the missing-id toast; the list changes only after the server agrees, and then loses exactly that id |
| AdminLists.DeletedIdGone | role-based-dashboard-main/src/pages/dashboard/EmployeesPage.tsx:91-93 | after an accepted delete no record with that id is left and every other record is still there, in order |
| AdminLists.CreateThenDelete | role-based-dashboard-main/src/pages/dashboard/EmployeesPage.tsx:59-93 | creating a record and deleting its id leaves the list as deleting that id alone would |
| EmployeesPage.FetchPath | role-based-dashboard-main/src/pages/dashboard/EmployeesPage.tsx:31-34 | the list path, extended by `?mgr_id=` and the user's id exactly for a manager |
| EmployeesPage.LoadEmployees | role-based-dashboard-main/src/pages/dashboard/EmployeesPage.tsx:27-52 | an array is shown as it is; a non-array body shows nothing; a 404 shows an empty list with no toast; any other failure keeps the current list and shows the error toast |
| EmployeesPage.HandleCreated | role-based-dashboard-main/src/pages/dashboard/EmployeesPage.tsx:59-62 | the created employee goes first and the rest follow |
| EmployeesPage.HandleUpdated | role-based-dashboard-main/src/pages/dashboard/EmployeesPage.tsx:72-76 | rows with the updated employee's id become the update, the others and the length are kept |
| EmployeesPage.DeleteFailureText | role-based-dashboard-main/src/pages/dashboard/EmployeesPage.tsx:95-114 | the collapsed error detail, or nothing exactly when the collapse throws |
| EmployeesPage.HandleDelete | role-based-dashboard-main/src/pages/dashboard/EmployeesPage.tsx:78-120 | a request exactly for a confirmed employee with an id; the list changes only after a successful request, and then loses exactly that id while the others keep their order and multiplicity; a failure shows the collapsed detail |
| EmployeesPage.DeleteShowsServerDetail | role-based-dashboard-main/src/pages/dashboard/EmployeesPage.tsx:95-120 | a server text in the error detail is what the failed delete shows, and the list stays |
| EmployeesPage.Head | role-based-dashboard-main/src/pages/dashboard/EmployeesPage.tsx:206 | the first character of a word, or nothing for an empty word |
| EmployeesPage.Heads | role-based-dashboard-main/src/pages/dashboard/EmployeesPage.tsx:205-206 | one head per word, in order |
| EmployeesPage.Firsts | role-based-dashboard-main/src/pages/dashboard/EmployeesPage.tsx:205-207 | the first characters of non-empty words, in order |
| EmployeesPage.Initials | role-based-dashboard-main/src/pages/dashboard/EmployeesPage.tsx:203-208 | the avatar text is empty for an empty name, and every character of it comes from the name |
| EmployeesPage.JoinHeads | role-based-dashboard-main/src/pages/dashboard/EmployeesPage.tsx:206-207 | joining one-character heads with no separator spells the first characters |
| EmployeesPage.InitialsOfWords | role-based-dashboard-main/src/pages/dashboard/EmployeesPage.tsx:203-208 | a name of non-empty words separated by single spaces shows one initial per word, in order |
| UsersPage.BadgeTone | role-based-dashboard-main/src/pages/dashboard/UsersPage.tsx:82-93 | danger, warning and success exactly for admin, manager and developer in any case |
| UsersPage.BadgeIgnoresCase | role-based-dashboard-main/src/pages/dashboard/UsersPage.tsx:83 | two spellings that differ only in case get the same badge |
| UsersPage.RoleCell | role-based-dashboard-main/src/pages/dashboard/UsersPage.tsx:180 | the first role, or "-" when there is none |
| UsersPage.RoleCellTone | role-based-dashboard-main/src/pages/dashboard/UsersPage.tsx:176-178 | muted without roles; otherwise the badge of the first role |
| UsersPage.StatusTone | role-based-dashboard-main/src/pages/dashboard/UsersPage.tsx:186-188 | green exactly for "active", muted otherwise |
| UsersPage.LoadUsers | role-based-dashboard-main/src/pages/dashboard/UsersPage.tsx:21-37 | an array is shown as it is; a non-array body shows nothing; a 404 shows an empty list with no toast; any other failure keeps the current list and shows the error toast |
| UsersPage.HandleUpdated | role-based-dashboard-main/src/pages/dashboard/UsersPage.tsx:52-56 | rows with the edited user's id become the edit, the others and the length are kept |
| UsersPage.HandleDelete | role-based-dashboard-main/src/pages/dashboard/UsersPage.tsx:58-80 | a request exactly for a confirmed user with an id; a missing id shows "User id missing"; the list changes only after success and then loses exactly that id while the others keep their order and multiplicity; a failure shows the error's message or the fallback |
| EmployeeForms.ValidateCreate | role-based-dashboard-main/src/components/dashboard/CreateEmployeeModal.tsx:38-54 | "All fields are required" exactly when a trimmed field is blank; then the wrong domain exactly when the untrimmed email does not end with @ust.com; otherwise valid |
| EmployeeForms.ValidateEdit | role-based-dashboard-main/src/components/dashboard/EditEmployeeModal.tsx:54-69 | a missing id first, then a blank field, and never a domain check |
| EmployeeForms.PaddedEmailFailsCreate | role-based-dashboard-main/src/components/dashboard/CreateEmployeeModal.tsx:38-54 | a valid email with a trailing space passes the blank check but fails the domain check on creation |
| EmployeeForms.PaddedEmailPassesEdit | role-based-dashboard-main/src/components/dashboard/EditEmployeeModal.tsx:62-69 | the edit dialog accepts that same form |
| EmployeeForms.MakePayload | role-based-dashboard-main/src/components/dashboard/CreateEmployeeModal.tsx:58-63 | the text fields trimmed and the manager id converted to a number |
| EmployeeForms.PayloadTrimmed | role-based-dashboard-main/src/components/dashboard/EditEmployeeModal.tsx:73-78 | a validated form's payload text is non-empty and already trimmed |
| EmployeeForms.SubmitCreate | role-based-dashboard-main/src/components/dashboard/CreateEmployeeModal.tsx:36-65 | a form failing validation sends nothing and shows the first failure; otherwise the payload goes to the create path |
| EmployeeForms.SubmitEdit | role-based-dashboard-main/src/components/dashboard/EditEmployeeModal.tsx:52-82 | a form failing validation sends nothing and shows the first failure; otherwise the payload goes to the update path of that id |
| EmployeeForms.FromPayload | role-based-dashboard-main/src/components/dashboard/EditEmployeeModal.tsx:96 | the record holds the given id and the payload's fields, and no status |
| EmployeeForms.AfterCreate | role-based-dashboard-main/src/components/dashboard/CreateEmployeeModal.tsx:65-91 | any answer hands over the returned employee, or the payload when none came back, resets the fields and closes; a failure keeps everything and shows the message or the fallback |
| EmployeeForms.Cancel | role-based-dashboard-main/src/components/dashboard/CreateEmployeeModal.tsx:146-149 | cancel clears every field and closes |
| EmployeeForms.PayloadRecordNotDeletable | role-based-dashboard-main/src/components/dashboard/CreateEmployeeModal.tsx:82 | an employee added from the payload has no id, so the screen refuses to delete it |
| EmployeeForms.Prefill | role-based-dashboard-main/src/components/dashboard/EditEmployeeModal.tsx:43-50 | without an employee the fields stay; otherwise missing text becomes "" and the manager id is "" exactly when it is missing, 0 or prints as nothing |
| EmployeeForms.ZeroManagerBlocksEdit | role-based-dashboard-main/src/components/dashboard/EditEmployeeModal.tsx:48-69 | an employee whose manager id is 0 cannot be saved without typing one in |
| EmployeeForms.AfterEdit | role-based-dashboard-main/src/components/dashboard/EditEmployeeModal.tsx:79-104 | any answer hands over the returned employee or `{e_id, ...payload}` and closes; a failure stays open and shows the message or the fallback |
| EmployeeForms.EditFallbackLands | role-based-dashboard-main/src/components/dashboard/EditEmployeeModal.tsx:91-97 | the fallback record replaces exactly the rows with the edited id on the employees screen |
| EditUserModal.Prefill | role-based-dashboard-main/src/components/dashboard/EditUserModal.tsx:58-65 | without a user the fields stay; otherwise the first non-empty role or Developer, and the status or active |
| EditUserModal.Submit | role-based-dashboard-main/src/components/dashboard/EditUserModal.tsx:67-83 | refused with "User id missing" exactly when the id is missing; otherwise the update path of that id with a single-role list and the status |
| EditUserModal.AfterUpdate | role-based-dashboard-main/src/components/dashboard/EditUserModal.tsx:83-104 | any answer closes and hands over the returned user or `{e_id, roles, status}` from the payload; a failure stays open and shows the message or the fallback |
| EditUserModal.SaveKeepsFirstRoleOnly | role-based-dashboard-main/src/components/dashboard/EditUserModal.tsx:79-96 | saving a user unchanged sends, and falls back to, only their first role |
| EditUserModal.OptionsHaveBadges | role-based-dashboard-main/src/components/dashboard/EditUserModal.tsx:36-45 | every role the dialog offers gets a coloured badge on the users screen, and of the statuses only active is green |
| Profile.ProfileInitials | role-based-dashboard-main/src/pages/dashboard/ProfilePage.tsx:28-30 | at most two characters and no lower-case letter |
| Profile.ProfileInitialsFromEmployees | role-based-dashboard-main/src/pages/dashboard/ProfilePage.tsx:28-30 | the profile initials are the employees screen's initials upper-cased and cut to two |
| Profile.InitialsOfWords | role-based-dashboard-main/src/pages/dashboard/ProfilePage.tsx:28-30 | for two or more non-empty words, the first letters of the first two, upper-cased |
| Profile.BadgeTone | role-based-dashboard-main/src/pages/dashboard/ProfilePage.tsx:32-43 | the three colours exactly for admin, manager and developer as written, case-sensitive |
| Profile.BadgeAgreesOnLowerCase | role-based-dashboard-main/src/pages/dashboard/ProfilePage.tsx:32-43 | on text without upper-case letters the profile and users screens colour a role alike |
| Profile.BadgeDiffersOnCapitalised | role-based-dashboard-main/src/pages/dashboard/ProfilePage.tsx:33-41 | "Admin" is muted here but coloured on the users screen |
| Profile.ProfileOf | role-based-dashboard-main/src/pages/dashboard/ProfilePage.tsx:46-55 | the email is the id at company.com; the manager id is absent exactly for admin; any role other than admin and manager gets the developer profile |
| Profile.BadgeText | role-based-dashboard-main/src/pages/dashboard/ProfilePage.tsx:83 | the badge shows the navbar's label of the active role, so developer shows as Employee |
| Profile.UnknownRoleProfile | role-based-dashboard-main/src/pages/dashboard/ProfilePage.tsx:46-83 | an unknown role gets the developer profile, its own text as badge, and the muted colour |
| UsersCrud.KeepStripped | backend/app/crud/users_crud.py:25 | an order-preserving selection of the stripped pieces holding exactly the non-empty ones, each as many times as it occurs |
| UsersCrud.KeptAreStripped | backend/app/crud/users_crud.py:25 | every name the comma reading keeps is non-empty and already stripped |
| UsersCrud.EnsureRolesList | backend/app/crud/users_crud.py:8-27 | nothing reads as no roles; a list and any other iterable as their items; text as the JSON list it parses to, or else as its stripped non-empty comma-separated pieces, in order and with repeats kept |
| UsersCrud.EnsureRolesIdempotent | backend/app/crud/users_crud.py:8-27 | reading an already read roles value changes nothing |
| UsersCrud.KeepStrippedAll | backend/app/crud/users_crud.py:25 | pieces that are non-empty and stripped are all kept, in order |
| UsersCrud.CommaTextRoundTrip | backend/app/crud/users_crud.py:15-25 | names stored as comma-joined text that is not a JSON list read back as the same names |
| UsersCrud.Present | backend/app/crud/users_crud.py:42-47 | the returned user keeps the key, password and status and carries the roles read as a list |
| UsersCrud.Lookup | backend/app/crud/users_crud.py:79 | absent exactly when no row has the key; otherwise a stored row with that key |
| UsersCrud.AddUser | backend/app/crud/users_crud.py:30-53 | a taken key fails with 500 and the database's message, and nothing else fails; otherwise one row is appended with the given key, roles and status, the default password exactly when none or an empty one was given (or the default itself), a given non-empty password otherwise, and the returned user presents it |
| UsersCrud.GetUser | backend/app/crud/users_crud.py:76-87 | 404 "User Not Found" exactly when no row has the key; otherwise the stored row presented |
| UsersCrud.ApplyUpdate | backend/app/crud/users_crud.py:96-100 | the key never changes; a given password or status replaces the old one; given roles replace the old ones unless they are null |
| UsersCrud.UpdateUser | backend/app/crud/users_crud.py:90-108 | 404 exactly when no row has the key; otherwise the length and every other row are kept and the result is the updated row presented |
| UsersCrud.NullRolesKeepRoles | backend/app/crud/users_crud.py:96-98 | `roles: null` in the body has the same effect as leaving roles out |
| UsersCrud.UpdateThenGet | backend/app/crud/users_crud.py:90-108 | reading the user back after an update gives what the update returned |
| UsersCrud.DeleteUser | backend/app/crud/users_crud.py:111-124 | 404 exactly when no row has the key; otherwise the rows with another key stay, in order and with their multiplicity, and none with that key is left |
| UsersCrud.DeleteThenGet | backend/app/crud/users_crud.py:111-124 | after a delete, reading or deleting that key again is a 404 |
| UsersCrud.AddKeepsKeysUnique | backend/app/crud/users_crud.py:30-53 | creating a user keeps the primary key unique |
| UsersCrud.UpdateKeepsKeysUnique | backend/app/crud/users_crud.py:90-108 | updating a user keeps the primary key unique |
| UsersCrud.DeleteKeepsKeysUnique | backend/app/crud/users_crud.py:111-124 | deleting a user keeps the primary key unique |
| UsersCrud.FilterKeepsKeysUnique | backend/app/crud/users_crud.py:117 | dropping every row with one key keeps the primary key unique |
| UsersCrud.SubsequenceKeepsKeysUnique | backend/app/crud/users_crud.py:117 | removing rows cannot make two keys equal |
| UsersCrud.GetAllUsers | backend/app/routers/user_router.py:9-19 | 404 "No users found" exactly for an empty table; otherwise every row presented, in order |
| UsersCrud.PresentAll | backend/app/crud/users_crud.py:56-68 | one presented user per row, in order |
| RemarksCrud.AddRemark | backend/app/crud/remarks_crud.py:9-29 | a file reference and name exactly when a file was given; the remark carries the task, comment, author and time and no update time; the store gains exactly that remark and the new file |
| RemarksCrud.UpdateRemark | backend/app/crud/remarks_crud.py:37-78 | 404 exactly for a missing remark; 403 exactly when the caller is neither "ADMIN" nor the author; 400 exactly when neither a non-empty comment nor a file is given; in every other case it succeeds, and only that remark changes: the comment if given, the file if given (the old one deleted), and the update time |
| RemarksCrud.RoleSpellingMatters | backend/app/crud/remarks_crud.py:50 | "Admin" may not edit another author's remark while "ADMIN" may |
| RemarksCrud.DeleteRemark | backend/app/crud/remarks_crud.py:81-96 | a missing remark raises a plain exception; otherwise exactly that remark is removed, its file deleted when it had one, and its id returned |
| RemarksCrud.DeleteRoute | backend/app/routers/remark_router.py:35-40 | a missing remark is a 404 carrying the exception's text; otherwise the service's answer |
| RemarksCrud.AddKeepsConsistent | backend/app/crud/remarks_crud.py:9-29 | adding a remark with fresh ids keeps every referenced file stored and unshared |
| RemarksCrud.UpdateKeepsConsistent | backend/app/crud/remarks_crud.py:58-65 | replacing a remark's file keeps every referenced file stored and unshared |
| RemarksCrud.DeleteKeepsConsistent | backend/app/crud/remarks_crud.py:87-91 | deleting a remark with its file keeps every referenced file stored and unshared |
| RemarksCrud.AddThenDelete | backend/app/crud/remarks_crud.py:9-96 | deleting a remark just added restores the store, file included |

## Left out

- Rendering: React markup, dialogs, toasts, icons and chart drawing. Toasts and notices are modelled as the title and text an operation shows; their styling and timing are not.
- The drag-and-drop library, apart from the drop result it reports.
- Asynchronous timing: the notification polling of the navbar and the `mounted` guards of the home and reports pages. A fetch is one response given as a parameter.
- HTTP, bearer tokens and local storage. A backend call is an abstract success or failure value. The stored user is an optional value.
- Clocks: the greeting hour and all timestamps are parameters, and timestamps are opaque text.
- Foreign parsers and printers: `JSON.parse`/`JSON.stringify`, `json.loads`, `Number`, `parseInt`, `encodeURIComponent`, `new Date(…).toISOString()` and `String` of a number are function parameters or symbolic values, not interpreted.
- Floating point. `Math.round(x / y * 100)` is modelled as exact half-up rounding of the rational, so a float error at a .5 boundary is not modelled.
- Unicode. Case mapping and whitespace are the ASCII subset of what JavaScript and Python do. `Text.IsSpace` is the ASCII whitespace both languages share, so Python's `strip` removing U+001C to U+001F is not modelled.
- Object key order. Tallies keep first-occurrence order. `Object.keys` gives that order only for keys that are not integer-like; it lists integer-like keys such as "7" first, in ascending order.
- Reports.StatusCounts: keeps first-occurrence order even for an integer-like status text, which `Reports.StatusFromText` passes through upper-cased. The page lists such a key first, so `Reports.CompletionRateAsWritten` can differ from the page: statuses ["done", "done", "7"] give 33 in the browser and 67 in the model.
- Database and file storage. SQLAlchemy sessions, MongoDB and `save_file`/`delete_file` are sequences, maps and sets. Fresh ids are parameters.
- Database failures other than a duplicate key on user creation, and malformed `ObjectId` text in the remark service.
- TaskCrud.UpdateTask: follows only the keys of a task update body. A request key `t_id`, or any other attribute name, would be written onto the row by `setattr`, and that is not modelled.
- Session.Hydrate: stored text that parses as JSON but is neither a user nor `null` (such as "42" or "{}") becomes the in-memory user as it is. The model has no such user value, so this case is not modelled.
- UsersCrud.UpdateUser: follows only the `password`, `roles` and `status` keys of an update body. Other keys would set arbitrary attributes.
- The remark listing (`get_remarks_by_task`), the single-user route, and the unused remark route stubs: plain queries with no decisions.
- The employee and attachment services and the auth, user, employee and remark routers. These are wiring without logic. The exception is the remark delete route's 404 mapping, which `RemarksCrud.DeleteRoute` models.
- The employee list endpoint's keyword mismatch between router and service, which lies outside the client's view.
- The login page's blank-credentials check, the sidebar and layout components, the task card display fallbacks, the mock attachments page and the `initialTasks` fixture.
- The text of confirmation prompts. A confirmation is a boolean parameter.
- Navbar.AvailableRoles: takes a present user. The source returns an empty list when there is none, and that case is not modelled.
- Reports.RoundPercent: requires a non-zero total. Every caller in the source guards the zero case first, and the model does the same.

## Findings

| source | as written | input that shows it | evidently intended | confidence | as-written member | corrected member |
|---|---|---|---|---|---|---|
| backend/app/crud/task_crud.py:183-194 | `session` is still `None` when the task is queried, and the creator check reads `t.created_by` before the missing-row check | any call with the role Admin or Manager: the query through `None` raises an error the service does not catch, so no task is ever deleted | open the session first, answer 404 for a missing task, then refuse anyone but the creator with 403 | high, not executed | TaskCrud.DeleteTaskAsWritten, TaskCrud.DeleteAsWrittenNeverSucceeds | TaskCrud.DeleteTask |
| backend/app/routers/task_router.py:62 | `new_data["status"]` raises `KeyError` when the body has no status key | Admin, holding the role, sends `{"title": "x"}`: the answer is a 500 "Internal Server Error: 'status'" | read the key with `.get("status")`, so a title-only edit reaches the service | high, not executed | TaskRouter.UpdateTaskDataAsWritten, TaskRouter.AdminTitleEditFails | TaskRouter.UpdateTaskData |
| role-based-dashboard-main/src/pages/dashboard/ReportsPage.tsx:69-78, 107-113 | every non-canonical status key is labelled "Done", and the rate takes the first entry labelled "Done" | statuses ["blocked", "blocked", "done"]: the rate shows 67 instead of 33 | count only tasks whose status is DONE | medium, not executed | Reports.CompletionRateAsWritten, Reports.CompletionRateCountsUnknownStatus | Reports.CompletionRate |

=== FILE: admin_lists.dfy ===
/** The list operations the employee and user screens share: loading a list,
    adding a record in front, replacing records by id, and removing records by id.
    Records are identified by an optional numeric id compared with `===`, so two
    records without an id count as having the same id. */
module AdminLists {
  import opened Optional
  import opened Seqs

  /** The id test of the delete handlers: `!x?.e_id` holds for no id and for 0. */
  predicate IdPresent(id: Option<int>) { id.Some? && id.value != 0 }

  /** What loading a list does: the new list, and whether an error toast shows. */
  datatype Loaded<T> = Loaded(items: seq<T>, errorShown: bool)

  /** A fetch: an array is taken as it is; any other body, and a 404, give the
      empty list; any other failure keeps the current list and shows an error. */
  function Load<T>(response: Fetched<T>, current: seq<T>): (r: Loaded<T>)
    ensures r.errorShown <==> response.Failed? && response.status != 404
    ensures response.Array? ==> r.items == response.items
    ensures response.NotArray? || (response.Failed? && response.status == 404) ==> r.items == []
    ensures r.errorShown ==> r.items == current
  {
    match response
    case Array(items) => Loaded(items, false)
    case NotArray => Loaded([], false)
    case Failed(status) => if status == 404 then Loaded([], false) else Loaded(current, true)
  }

  /** `[x, ...list]`. */
  function Prepend<T>(list: seq<T>, x: T): (r: seq<T>)
    ensures |r| == |list| + 1 && r[0] == x && r[1..] == list
  {
    [x] + list
  }

  /** `list.map(e => key(e) === key(x) ? x : e)`. */
  function ReplaceById<T>(list: seq<T>, x: T, key: T -> Option<int>): (r: seq<T>)
    ensures |r| == |list|
    ensures forall i :: 0 <= i < |list| ==> r[i] == if key(list[i]) == key(x) then x else list[i]
  {
    MapWhere(list, (e: T) => key(e) == key(x), (_: T) => x)
  }

  /** `list.filter(e => key(e) !== id)`. */
  function RemoveId<T(==,!new)>(list: seq<T>, id: Option<int>, key: T -> Option<int>): (r: seq<T>)
    ensures IsSubsequence(r, list)
    ensures forall e :: e in r <==> e in list && key(e) != id
    ensures forall e :: multiset(r)[e] == if key(e) != id then multiset(list)[e] else 0
  {
    Filter(list, (e: T) => key(e) != id)
  }

  /** Replacing twice with the same record is replacing once. */
  lemma ReplaceIdempotent<T>(list: seq<T>, x: T, key: T -> Option<int>)
    ensures ReplaceById(ReplaceById(list, x, key), x, key) == ReplaceById(list, x, key)
  {
  }

  /** After a replacement, every record with that id is the new record. */
  lemma ReplacedEverywhere<T>(list: seq<T>, x: T, key: T -> Option<int>)
    ensures forall e :: e in ReplaceById(list, x, key) && key(e) == key(x) ==> e == x
  {
    var r := ReplaceById(list, x, key);
    forall e | e in r && key(e) == key(x) ensures e == x {
      var i :| 0 <= i < |r| && r[i] == e;
    }
  }

  /** Removing the id of a record just added in front undoes the addition, as far
      as that id goes. */
  lemma RemoveAfterPrepend<T(!new)>(list: seq<T>, x: T, key: T -> Option<int>)
    ensures RemoveId(Prepend(list, x), key(x), key) == RemoveId(list, key(x), key)
  {
    FilterCons(x, list, (e: T) => key(e) != key(x));
  }

  /** Removing an id twice is removing it once. */
  lemma {:induction false} RemoveIdempotent<T(!new)>(list: seq<T>, id: Option<int>, key: T -> Option<int>)
    ensures RemoveId(RemoveId(list, id, key), id, key) == RemoveId(list, id, key)
  {
    var r := RemoveId(list, id, key);
    forall i | 0 <= i < |r| ensures key(r[i]) != id {
      assert r[i] in r;
    }
    FilterAll(r, (e: T) => key(e) != id);
  }

  /** A toast the screens raise. */
  datatype Toast = Toast(title: string, description: string)

  /** How the delete request ended: removed on the server, or failed; a failure
      shows the given text, or nothing when working out the text threw. */
  datatype Reply = Removed | Refused(shown: Option<string>)

  /** What a click on a row's delete button does: the list after it, the request
      sent (its path), and the toast shown. */
  datatype DeleteEffect<T> = DeleteEffect(items: seq<T>, request: Option<string>, toast: Option<Toast>)

  /** The delete handler both admin screens share: refuse a record without an id,
      ask for confirmation, send the request, and drop every record with that id
      once the server agrees. `endpoint + show(id)` is the request path; `missing`
      and `removed` are the screen's texts. */
  function DeleteById<T(==,!new)>(list: seq<T>, key: T -> Option<int>, id: Option<int>, confirmed: bool,
                                  endpoint: string, show: int -> string,
                                  missing: string, removed: string, reply: Reply): (e: DeleteEffect<T>)
    ensures e.request.Some? <==> IdPresent(id) && confirmed
    ensures e.request.Some? ==> e.request.value == endpoint + show(id.value)
    ensures !IdPresent(id) ==> e.toast == Some(Toast("Delete Failed", missing))
    ensures IdPresent(id) && !confirmed ==> e.toast.None?
    ensures e.request.None? || reply.Refused? ==> e.items == list
    ensures e.request.Some? && reply.Removed? ==>
      e.items == RemoveId(list, id, key) && e.toast == Some(Toast("Deleted", removed))
    ensures e.request.Some? && reply.Refused? ==>
      e.toast == if reply.shown.Some? then Some(Toast("Delete Failed", reply.shown.value)) else None
  {
    if !IdPresent(id) then DeleteEffect(list, None, Some(Toast("Delete Failed", missing)))
    else if !confirmed then DeleteEffect(list, None, None)
    else
      var path := endpoint + show(id.value);
      match reply
      case Removed => DeleteEffect(RemoveId(list, id, key), Some(path), Some(Toast("Deleted", removed)))
      case Refused(shown) =>
        DeleteEffect(list, Some(path), if shown.Some? then Some(Toast("Delete Failed", shown.value)) else None)
  }

  /** After a delete the server accepted, no record with that id is left and the
      others are all still there, in their order. */
  lemma DeletedIdGone<T(!new)>(list: seq<T>, key: T -> Option<int>, id: Option<int>,
                               endpoint: string, show: int -> string, missing: string, removed: string)
    requires IdPresent(id)
    ensures var e := DeleteById(list, key, id, true, endpoint, show, missing, removed, Removed);
      && IsSubsequence(e.items, list)
      && (forall x :: x in e.items ==> key(x) != id)
      && (forall x :: x in list && key(x) != id ==> x in e.items)
  {
  }

  /** Creating a record and then deleting it by its id leaves the list as deleting
      that id alone would. */
  lemma CreateThenDelete<T(!new)>(list: seq<T>, x: T, key: T -> Option<int>,
                                  endpoint: string, show: int -> string, missing: string, removed: string)
    requires IdPresent(key(x))
    ensures DeleteById(Prepend(list, x), key, key(x), true, endpoint, show, missing, removed, Removed).items
         == DeleteById(list, key, key(x), true, endpoint, show, missing, removed, Removed).items
  {
    RemoveAfterPrepend(list, x, key);
  }
}

=== FILE: agreement.dfy ===
/** How the board's drag guard and the backend's status patch compare, for the
    request the tasks page actually sends: the canonical status name and the mapped
    role. */
module Agreement {
  import opened Optional
  import opened TaskModel
  import opened Session
  import opened Transitions
  import opened ServerModel
  import opened TaskCrud
  import opened TaskRouter
  import Kanban
  import TasksPage

  /** The patch a board user's drop turns into, answered by the `/patch` route. */
  function Answer(store: seq<StoredTask>, id: int, u: ClientUser, su: ServerUser, to: Status): Result<Saved>
  {
    var req := TasksPage.PatchRequestFor(Some(u), "", to);
    PatchStat(store, id, req.status, req.role, su)
  }

  /** The tasks page shows its create button exactly when the `/create` route,
      given the role parameter the page sends, creates the task. */
  lemma CreateButtonMatchesRoute(user: Option<ClientUser>, store: seq<StoredTask>, payload: StoredTask,
                                 su: ServerUser, newId: int, now: Stamp)
    ensures TasksPage.CanCreate(user) <==> IsCreatorRole(TasksPage.UserRoleParam(user))
    ensures TasksPage.CanCreate(user) <==>
      AddNewTask(store, payload, TasksPage.UserRoleParam(user), su, newId, now).Ok?
  {
  }

  /** The canonical name of a status reads back as that status on the backend. */
  lemma SentStatusParses(to: Status)
    ensures ParseStatusName(Text.ToUpper(StatusName(to))) == Some(to)
  {
    TasksPage.CaseFixedPoints(to);
  }

  /** For a developer the two sides agree: when the board's ownership test and the
      backend's assignee test agree on the task, the board allows a drop exactly
      when the backend accepts the patch. */
  lemma DeveloperSidesAgree(store: seq<StoredTask>, id: int, task: Task, u: ClientUser, su: ServerUser,
                            from: Status, to: Status)
    requires u.role == "developer" && "Developer" in su.roles
    requires Lookup(store, id).Some? && UpperStatus(Lookup(store, id).value) == Some(from)
    requires Kanban.Owns(u, task) <==> Lookup(store, id).value.assignedTo == Some(su.eId)
    ensures Kanban.CanMoveToStatus(Some(u), task, from, to).Allowed? <==> Answer(store, id, u, su, to).Ok?
  {
    SentStatusParses(to);
    PatchStatusFollowsTables(store, id, StatusName(to), "Developer", su);
  }

  /** For a manager who is the task's reviewer, the board and the backend both
      accept a drop exactly for REVIEW to DONE. */
  lemma ManagerSidesMeetOnlyAtDone(store: seq<StoredTask>, id: int, task: Task, u: ClientUser, su: ServerUser,
                                   from: Status, to: Status)
    requires u.role == "manager" && "Manager" in su.roles
    requires Lookup(store, id).Some? && UpperStatus(Lookup(store, id).value) == Some(from)
    requires Lookup(store, id).value.reviewer == Some(su.eId)
    ensures (Kanban.CanMoveToStatus(Some(u), task, from, to).Allowed? && Answer(store, id, u, su, to).Ok?)
            <==> from == Review && to == Done
  {
    ManagerServerTable(store, id, u, su, from, to);
    ManagerBoardTable(u, task, from, to);
    ServerManagerMovesAre(from, to);
  }

  /** For a manager the board allows exactly the moves of its manager table. */
  lemma ManagerBoardTable(u: ClientUser, task: Task, from: Status, to: Status)
    requires u.role == "manager"
    ensures Kanban.CanMoveToStatus(Some(u), task, from, to).Allowed? <==> from == Review && (to == ToDo || to == Done)
  {
  }

  /** For a manager who is the task's reviewer, the backend accepts exactly the
      moves of its own manager table. */
  lemma ManagerServerTable(store: seq<StoredTask>, id: int, u: ClientUser, su: ServerUser, from: Status, to: Status)
    requires u.role == "manager" && "Manager" in su.roles
    requires Lookup(store, id).Some? && UpperStatus(Lookup(store, id).value) == Some(from)
    requires Lookup(store, id).value.reviewer == Some(su.eId)
    ensures Answer(store, id, u, su, to).Ok? <==> (from, to) in ServerManagerMoves
  {
    SentStatusParses(to);
    PatchStatusFollowsTables(store, id, StatusName(to), "Manager", su);
  }

  /** The board allows a reviewing manager REVIEW to TO_DO, which the backend
      refuses. */
  lemma BoardOnlyManagerMove(store: seq<StoredTask>, id: int, task: Task, u: ClientUser, su: ServerUser)
    requires u.role == "manager" && "Manager" in su.roles
    requires Lookup(store, id).Some? && UpperStatus(Lookup(store, id).value) == Some(Review)
    requires Lookup(store, id).value.reviewer == Some(su.eId)
    ensures Kanban.CanMoveToStatus(Some(u), task, Review, ToDo).Allowed?
    ensures Answer(store, id, u, su, ToDo).Err?
  {
    ManagerServerTable(store, id, u, su, Review, ToDo);
  }

  /** The backend would let a reviewing manager move REVIEW to IN_PROGRESS, which
      the board never sends. */
  lemma ServerOnlyManagerMove(store: seq<StoredTask>, id: int, task: Task, u: ClientUser, su: ServerUser)
    requires u.role == "manager" && "Manager" in su.roles
    requires Lookup(store, id).Some? && UpperStatus(Lookup(store, id).value) == Some(Review)
    requires Lookup(store, id).value.reviewer == Some(su.eId)
    ensures !Kanban.CanMoveToStatus(Some(u), task, Review, InProgress).Allowed?
    ensures Answer(store, id, u, su, InProgress).Ok?
  {
    ManagerServerTable(store, id, u, su, Review, InProgress);
  }
}

=== FILE: create_task_modal.dfy ===
/** The create-task dialog: ordered validation, the request it builds, and what a
    response does to the form. */
module CreateTaskModal {
  import opened Optional
  import opened Text
  import opened Session
  import opened ErrorDetail
  import TasksPage
  import opened AdminLists

  /** An id picked in a select: the text of the option, or a number. */
  datatype IdChoice = IdText(t: string) | IdNum(n: int)

  predicate ChoiceTruthy(c: Option<IdChoice>)
  {
    c.Some? && match c.value { case IdText(t) => t != [] case IdNum(n) => n != 0 }
  }

  /** The dialog's fields. */
  datatype TaskForm = TaskForm(
    title: string,
    desc: string,
    priority: string,
    assignTo: Option<IdChoice>,
    reviewer: Option<IdChoice>,
    dueDate: Option<string>)

  /** The fields after `reset`. */
  const EmptyForm := TaskForm("", "", "Medium", None, None, None)

  /** The validation failures, in the order they are checked. */
  datatype Invalid = TitleRequired | DescriptionRequired | DueDateRequired | TitleTooLong | DescriptionTooLong

  function InvalidMessage(v: Invalid): string
  {
    match v
    case TitleRequired => "Title is required"
    case DescriptionRequired => "Description is required"
    case DueDateRequired => "Due date is required"
    case TitleTooLong => "Title exceeds 100 characters"
    case DescriptionTooLong => "Description exceeds 250 characters"
  }

  /** `!dueDate`: no date was picked, or the picker was cleared back to "". */
  predicate DueDateMissing(f: TaskForm) { f.dueDate.None? || f.dueDate.value == [] }

  /** The first failing check, if any. Blank tests look at the trimmed text,
      length limits at the raw text. */
  function Validate(f: TaskForm): (r: Option<Invalid>)
    ensures r.None? <==> !IsBlank(f.title) && !IsBlank(f.desc) && !DueDateMissing(f) && |f.title| <= 100 && |f.desc| <= 250
    ensures r == Some(TitleRequired) <==> IsBlank(f.title)
    ensures r == Some(DescriptionRequired) <==> !IsBlank(f.title) && IsBlank(f.desc)
    ensures r == Some(DueDateRequired) <==> !IsBlank(f.title) && !IsBlank(f.desc) && DueDateMissing(f)
    ensures r == Some(TitleTooLong) <==> !IsBlank(f.title) && !IsBlank(f.desc) && !DueDateMissing(f) && |f.title| > 100
    ensures r == Some(DescriptionTooLong) <==>
      !IsBlank(f.title) && !IsBlank(f.desc) && !DueDateMissing(f) && |f.title| <= 100 && |f.desc| > 250
  {
    if IsBlank(f.title) then Some(TitleRequired)
    else if IsBlank(f.desc) then Some(DescriptionRequired)
    else if DueDateMissing(f) then Some(DueDateRequired)
    else if |f.title| > 100 then Some(TitleTooLong)
    else if |f.desc| > 250 then Some(DescriptionTooLong)
    else None
  }

  /** A title of nothing but spaces is missing, however long it is. */
  lemma SpacesAreBlank(f: TaskForm)
    requires forall i :: 0 <= i < |f.title| ==> f.title[i] == ' '
    ensures Validate(f) == Some(TitleRequired)
  {
    TrimEmptyIff(f.title);
  }

  /** Surrounding spaces count towards the length limit. */
  lemma PaddingCountsTowardsLimit(f: TaskForm)
    requires f.title == "x" + seq(100, i => ' ')
    requires !IsBlank(f.desc) && !DueDateMissing(f)
    ensures Validate(f) == Some(TitleTooLong)
  {
    assert f.title[0] == 'x';
    TrimEmptyIff(f.title);
  }

  /** The body of the create request. Absent fields are left out of the JSON. */
  datatype TaskPayload = TaskPayload(
    title: string,
    description: string,
    priority: string,
    expectedClosure: string,
    assignedTo: Option<int>,
    assignedBy: Option<string>,
    reviewer: Option<int>,
    createdBy: Option<string>)

  datatype CreateRequest = CreateRequest(path: string, payload: TaskPayload)

  /** For the three client roles the capitalized name is the backend role name
      the tasks page sends. */
  lemma CapitalizeMatchesBackendRole(role: string)
    requires role == "admin" || role == "manager" || role == "developer"
    ensures Capitalize(role) == TasksPage.MapRoleToBackend(Some(role))
  {
  }

  /** An id as the payload carries it: text goes through `parseInt`. */
  function PayloadId(c: IdChoice, parseInt: string -> int): int
  {
    match c
    case IdText(t) => parseInt(t)
    case IdNum(n) => n
  }

  function EmpId(user: Option<ClientUser>): Option<string>
  {
    if user.Some? && user.value.empId != [] then Some(user.value.empId) else None
  }

  /** The role query: the capitalized active role, when there is one. */
  function RoleQuery(user: Option<ClientUser>, encode: string -> string): (q: string)
    ensures user.Some? && user.value.role != [] ==> q == "?role=" + encode(Capitalize(user.value.role))
    ensures !(user.Some? && user.value.role != []) ==> q == []
  {
    if user.Some? && user.value.role != [] then "?role=" + encode(Capitalize(user.value.role)) else ""
  }

  /** The request `handleSubmit` sends for a form that passed validation.
      `parseInt`, `encodeURIComponent` and `toISOString` are parameters. */
  function BuildRequest(f: TaskForm, user: Option<ClientUser>, parseInt: string -> int,
                        encode: string -> string, iso: string -> string): (r: CreateRequest)
    requires !DueDateMissing(f)
    ensures r.payload.title == f.title && r.payload.description == f.desc
    ensures r.payload.expectedClosure == iso(f.dueDate.value)
    ensures r.payload.priority == ToLower(if f.priority == [] then "medium" else f.priority)
    ensures r.payload.assignedTo.Some? <==> ChoiceTruthy(f.assignTo)
    ensures r.payload.assignedBy.Some? <==> ChoiceTruthy(f.assignTo) && EmpId(user).Some?
    ensures r.payload.reviewer.Some? <==> ChoiceTruthy(f.reviewer)
    ensures r.payload.createdBy == EmpId(user)
    ensures r.payload.assignedBy.Some? ==> r.payload.assignedBy == r.payload.createdBy
    ensures r.path == "/Task/create" + RoleQuery(user, encode)
  {
    var p := TaskPayload(
      f.title, f.desc, ToLower(if f.priority == [] then "medium" else f.priority), iso(f.dueDate.value),
      if ChoiceTruthy(f.assignTo) then Some(PayloadId(f.assignTo.value, parseInt)) else None,
      if ChoiceTruthy(f.assignTo) then EmpId(user) else None,
      if ChoiceTruthy(f.reviewer) then Some(PayloadId(f.reviewer.value, parseInt)) else None,
      EmpId(user));
    CreateRequest("/Task/create" + RoleQuery(user, encode), p)
  }

  /** What pressing Create leads to before any response: a validation message and
      no request, or a request. */
  datatype Submission = Rejected(message: string) | Send(request: CreateRequest)

  function Submit(f: TaskForm, user: Option<ClientUser>, parseInt: string -> int,
                  encode: string -> string, iso: string -> string): (r: Submission)
    ensures r.Rejected? <==> Validate(f).Some?
    ensures r.Rejected? ==> r.message == InvalidMessage(Validate(f).value)
    ensures r.Send? ==> r.request == BuildRequest(f, user, parseInt, encode, iso)
  {
    match Validate(f)
    case Some(v) => Rejected(InvalidMessage(v))
    case None => Send(BuildRequest(f, user, parseInt, encode, iso))
  }

  /** The dialog after the response and the toast it shows: success announces the
      task, resets the fields and closes; failure keeps the fields, stays open and
      shows the collapsed error, unless collapsing it throws first. */
  datatype Dialog = Dialog(form: TaskForm, open: bool, toast: Option<Toast>)

  const CreatedToast := Toast("Created", "Task created successfully")

  function AfterResponse(f: TaskForm, succeeded: bool, err: Js,
                         stringify: Js -> string, str: Js -> string): (d: Dialog)
    ensures succeeded ==> d == Dialog(EmptyForm, false, Some(CreatedToast))
    ensures !succeeded ==> d.form == f && d.open
    ensures !succeeded ==> (d.toast.None? <==> FormatError(err, stringify, str).Throws?)
    ensures !succeeded && d.toast.Some? ==>
      d.toast.value == Toast("Create Failed", FormatError(err, stringify, str).text)
  {
    if succeeded then Dialog(EmptyForm, false, Some(CreatedToast))
    else
      match FormatError(err, stringify, str)
      case Message(t) => Dialog(f, true, Some(Toast("Create Failed", t)))
      case Throws => Dialog(f, true, None)
  }

  /** A date picker cleared back to "" is a missing date: nothing is sent. */
  lemma ClearedDateRejected(f: TaskForm, user: Option<ClientUser>, parseInt: string -> int,
                            encode: string -> string, iso: string -> string)
    requires !IsBlank(f.title) && !IsBlank(f.desc) && f.dueDate == Some("")
    ensures Submit(f, user, parseInt, encode, iso) == Rejected("Due date is required")
  {
  }

  /** A reset form is rejected as it stands: its title is blank. */
  lemma EmptyFormRejected(user: Option<ClientUser>, parseInt: string -> int,
                          encode: string -> string, iso: string -> string)
    ensures Submit(EmptyForm, user, parseInt, encode, iso) == Rejected("Title is required")
  {
  }
}

=== FILE: dashboard_home.dfy ===
/** The dashboard home page: greeting, role description, and the live task
    statistics. */
module DashboardHome {
  import opened Optional
  import opened Text
  import opened Tally
  import TasksPage
  import Reports

  /** `getGreeting` for the hour of the local clock, which is a parameter here. */
  function Greeting(hour: int): (g: string)
    ensures g == "Good morning" <==> hour < 12
    ensures g == "Good afternoon" <==> 12 <= hour < 18
    ensures g == "Good evening" <==> hour >= 18
  {
    if hour < 12 then "Good morning"
    else if hour < 18 then "Good afternoon"
    else "Good evening"
  }

  /** `getRoleDescription`: a sentence for each of the three roles and nothing for
      any other role or no user. */
  function RoleDescription(role: Option<string>): (d: string)
    ensures d != [] <==> role == Some("admin") || role == Some("manager") || role == Some("developer")
  {
    if role == Some("admin") then "You have full access to all system features."
    else if role == Some("manager") then "Manage your team and oversee task progress."
    else if role == Some("developer") then "View and update your assigned tasks."
    else ""
  }

  /** The home page's own `mapRoleToBackend`. */
  function MapRoleToBackend(role: Option<string>): (r: string)
    ensures r == "Admin" <==> role == Some("admin")
    ensures r == "Manager" <==> role == Some("manager")
    ensures r == "Admin" || r == "Manager" || r == "Developer"
  {
    if role.None? || role.value == [] then "Developer"
    else if role.value == "admin" then "Admin"
    else if role.value == "manager" then "Manager"
    else "Developer"
  }

  /** It is the tasks page's mapping: both pages ask for the same role's tasks. */
  lemma SameRoleMapping(role: Option<string>)
    ensures MapRoleToBackend(role) == TasksPage.MapRoleToBackend(role)
  {
  }

  /** The home page's `normalize`: absent is the empty text (it counts towards
      nothing); present text is tested for to_do, in_progress, review and done as
      substrings in that order, then for exactly "todo", and is otherwise
      upper-cased. */
  function Normalize(s: Option<string>): (r: string)
    ensures s.None? || s.value == [] ==> r == []
    ensures s.Some? && s.value != [] && Contains(ToLower(s.value), "to_do") ==> r == "TO_DO"
    ensures s.Some? && s.value != [] && !Contains(ToLower(s.value), "to_do") && ToLower(s.value) == "todo" ==> r == "TO_DO"
  {
    if s.None? || s.value == [] then ""
    else
      var low := ToLower(s.value);
      assert low == "todo" ==> !Contains(low, "in_progress") && !Contains(low, "review") && !Contains(low, "done") by {
        if low == "todo" {
          TodoHasNoLaterWord();
        }
      }
      if Contains(low, "to_do") then "TO_DO"
      else if Contains(low, "in_progress") then "IN_PROGRESS"
      else if Contains(low, "review") then "REVIEW"
      else if Contains(low, "done") then "DONE"
      else if low == "todo" then "TO_DO"
      else ToUpper(s.value)
  }

  /** On present text the home page reads a status exactly as the reports page
      does: "todo" contains none of the later words, so testing it last changes
      nothing. */
  lemma NormalizeMatchesReports(s: Option<string>)
    requires s.Some? && s.value != []
    ensures Normalize(s) == Reports.NormalizeStatus(s)
  {
    var low := ToLower(s.value);
    if low == "todo" {
      TodoHasNoLaterWord();
    }
  }

  lemma TodoHasNoLaterWord()
    ensures !Contains("todo", "in_progress") && !Contains("todo", "review") && !Contains("todo", "done")
  {
    MissingCharNotContained("todo", "in_progress", '_');
    MissingCharNotContained("todo", "review", 'r');
    MissingCharNotContained("todo", "done", 'n');
  }

  /** An absent status counts as nothing on the home page and as TO_DO on the
      reports page; in both it is not DONE. */
  lemma AbsentIsNeverDone(s: Option<string>)
    requires s.None? || s.value == []
    ensures Normalize(s) == [] && Reports.NormalizeStatus(s) == "TO_DO"
  {
  }

  /** The normalized statuses of a task list. */
  function Keys(statuses: seq<Option<string>>): (ks: seq<string>)
    ensures |ks| == |statuses|
    ensures forall i :: 0 <= i < |statuses| ==> ks[i] == Normalize(statuses[i])
  {
    if statuses == [] then [] else [Normalize(statuses[0])] + Keys(statuses[1..])
  }

  /** The three counters the page shows. */
  datatype Stats = Stats(total: nat, inProgress: nat, done: nat, review: nat)

  /** The counting loop of `loadStats`: each task adds to at most one counter,
      chosen by its normalized status. */
  method CountStats(statuses: seq<Option<string>>) returns (st: Stats)
    ensures st.total == |statuses|
    ensures st.inProgress == Occurrences(Keys(statuses), "IN_PROGRESS")
    ensures st.done == Occurrences(Keys(statuses), "DONE")
    ensures st.review == Occurrences(Keys(statuses), "REVIEW")
    ensures st.inProgress + st.done + st.review <= st.total
  {
    st := CountKeysOf(Keys(statuses));
  }

  /** The same loop over statuses already normalized. */
  method CountKeysOf(ks: seq<string>) returns (st: Stats)
    ensures st.total == |ks|
    ensures st.inProgress == Occurrences(ks, "IN_PROGRESS")
    ensures st.done == Occurrences(ks, "DONE")
    ensures st.review == Occurrences(ks, "REVIEW")
    ensures st.inProgress + st.done + st.review <= st.total
  {
    var inProg, done, review := 0, 0, 0;
    var i := 0;
    while i < |ks|
      invariant 0 <= i <= |ks|
      invariant inProg == Occurrences(ks[..i], "IN_PROGRESS")
      invariant done == Occurrences(ks[..i], "DONE")
      invariant review == Occurrences(ks[..i], "REVIEW")
      invariant inProg + done + review <= i
    {
      assert ks[..i + 1] == ks[..i] + [ks[i]];
      var k := ks[i];
      CountSnoc(ks[..i], k, "IN_PROGRESS");
      CountSnoc(ks[..i], k, "DONE");
      CountSnoc(ks[..i], k, "REVIEW");
      if k == "IN_PROGRESS" {
        inProg := inProg + 1;
      } else if k == "DONE" {
        done := done + 1;
      } else if k == "REVIEW" {
        review := review + 1;
      }
      i := i + 1;
    }
    assert ks[..i] == ks;
    st := Stats(|ks|, inProg, done, review);
  }

  lemma CountSnoc(ks: seq<string>, k: string, x: string)
    ensures Occurrences(ks + [k], x) == Occurrences(ks, x) + (if k == x then 1 else 0)
  {
    assert multiset(ks + [k]) == multiset(ks) + multiset{k};
  }

  /** The completion trend on the Completed card: the done share, rounded, and 0
      without tasks. */
  function CompletionTrend(st: Stats): (r: nat)
    ensures st.total == 0 ==> r == 0
    ensures st.total > 0 ==> Reports.RoundsTo(st.done, st.total, r)
    ensures st.done <= st.total ==> r <= 100
  {
    if st.total == 0 then 0 else Reports.RoundPercent(st.done, st.total)
  }

  /** The statuses of a list of fetched tasks. */
  function StatusesOf(list: seq<Reports.ReportTask>): (ss: seq<Option<string>>)
    ensures |ss| == |list|
    ensures forall i :: 0 <= i < |list| ==> ss[i] == list[i].status
  {
    if list == [] then [] else [list[0].status] + StatusesOf(list[1..])
  }

  /** The home page and the reports page count the same tasks as done. */
  lemma {:induction false} DoneCountsAgree(list: seq<Reports.ReportTask>)
    ensures Occurrences(Keys(StatusesOf(list)), "DONE") == Reports.DoneCount(list)
  {
    if list != [] {
      DoneCountsAgree(list[1..]);
      var hs, rs := Keys(StatusesOf(list)), Reports.StatusKeys(list);
      assert Keys(StatusesOf(list))[1..] == Keys(StatusesOf(list[1..]));
      assert Reports.StatusKeys(list)[1..] == Reports.StatusKeys(list[1..]);
      assert hs == [hs[0]] + hs[1..];
      assert rs == [rs[0]] + rs[1..];
      var s := list[0].status;
      if s.Some? && s.value != [] {
        NormalizeMatchesReports(s);
      }
    }
  }

  /** So the trend on the Completed card is the reports page's completion rate as
      corrected, for the same tasks. */
  lemma {:induction false} TrendIsCompletionRate(list: seq<Reports.ReportTask>, st: Stats)
    requires st.total == |list| && st.done == Occurrences(Keys(StatusesOf(list)), "DONE")
    ensures CompletionTrend(st) == Reports.CompletionRate(list)
  {
    DoneCountsAgree(list);
    if list != [] {
      var done := Lookup(Reports.StatusCounts(list), "DONE");
      assert done == Reports.DoneCount(list);
      assert Reports.CompletionRate(list) == Reports.RoundPercent(done, |list|);
    }
  }
}

=== FILE: edit_user_modal.dfy ===
/** The edit-user dialog: the role and status it starts from, the request it
    sends, and the record it hands back to the users screen. */
module EditUserModal {
  import opened Optional
  import opened Text
  import opened ErrorDetail
  import opened AdminLists
  import opened UsersPage

  /** The choices the dialog offers. */
  const RoleOptions: seq<string> := ["Admin", "Manager", "Developer"]
  const StatusOptions: seq<string> := ["active", "inactive"]

  /** The dialog's two fields. */
  datatype UserForm = UserForm(role: string, status: string)

  /** The fields before any user is chosen. */
  const InitialForm := UserForm("Developer", "active")

  /** The fields for a user: the first role unless missing or empty, else
      "Developer"; the status unless empty, else "active". Without a user they
      stay as they are. */
  function Prefill(current: UserForm, user: Option<UserItem>): (f: UserForm)
    ensures user.None? ==> f == current
    ensures user.Some? && user.value.roles.Some? && |user.value.roles.value| > 0 && user.value.roles.value[0] != "" ==>
      f.role == user.value.roles.value[0]
    ensures user.Some? && (user.value.roles.None? || user.value.roles.value == [] || user.value.roles.value[0] == "") ==>
      f.role == "Developer"
    ensures user.Some? ==> f.status != [] && (user.value.status != [] ==> f.status == user.value.status)
  {
    match user
    case None => current
    case Some(u) =>
      var first := if u.roles.Some? && |u.roles.value| > 0 then u.roles.value[0] else "";
      UserForm(if first == "" then "Developer" else first, if u.status == "" then "active" else u.status)
  }

  /** The body sent: one role only. */
  datatype UserPayload = UserPayload(roles: seq<string>, status: string)

  datatype Submission = Rejected(message: string) | Send(path: string, payload: UserPayload)

  function Submit(eId: Option<int>, f: UserForm, show: int -> string): (r: Submission)
    ensures r.Rejected? <==> !IdPresent(eId)
    ensures r.Rejected? ==> r.message == "User id missing"
    ensures r.Send? ==> r.path == "/Users/update?id=" + show(eId.value)
    ensures r.Send? ==> r.payload.roles == [f.role] && r.payload.status == f.status
  {
    if !IdPresent(eId) then Rejected("User id missing")
    else Send("/Users/update?id=" + show(eId.value), UserPayload([f.role], f.status))
  }

  /** How the request ended: a response whose `user` is present or not (and its
      `detail`), or a thrown error. */
  datatype Reply = Answered(user: Option<UserItem>, detail: Option<string>) | Failed(err: Js)

  /** The dialog after the response, and the record handed to the screen. */
  datatype Outcome = Outcome(open: bool, handed: Option<UserItem>, toast: Toast)

  function AfterUpdate(eId: Option<int>, p: UserPayload, reply: Reply, str: Js -> string): (o: Outcome)
    ensures reply.Answered? ==> !o.open && o.handed.Some? && o.toast.title == "Updated"
    ensures reply.Answered? && reply.user.Some? ==> o.handed == reply.user
    ensures reply.Answered? && reply.user.None? ==> o.handed == Some(UserItem(eId, Some(p.roles), p.status))
    ensures reply.Failed? ==> o == Outcome(true, None, Toast("Update Failed", MessageOr(reply.err, "Could not update user", str)))
  {
    match reply
    case Answered(Some(u), _) => Outcome(false, Some(u), Toast("Updated", "User updated successfully"))
    case Answered(None, detail) => Outcome(false, Some(UserItem(eId, Some(p.roles), p.status)), Toast("Updated", detail.GetOr("User updated")))
    case Failed(err) => Outcome(true, None, Toast("Update Failed", MessageOr(err, "Could not update user", str)))
  }

  /** Saving a user unchanged keeps only the first role: the fallback record has
      that single role and the user's status. */
  lemma SaveKeepsFirstRoleOnly(u: UserItem, current: UserForm, detail: Option<string>, show: int -> string, str: Js -> string)
    requires IdPresent(u.eId) && u.roles.Some? && |u.roles.value| > 0 && u.roles.value[0] != [] && u.status != []
    ensures var s := Submit(u.eId, Prefill(current, Some(u)), show);
      s.Send? && AfterUpdate(u.eId, s.payload, Answered(None, detail), str).handed
        == Some(u.(roles := Some([u.roles.value[0]])))
  {
  }

  lemma AdminBadge() ensures BadgeTone("Admin") == Danger
  {
    var r := ToLower("Admin");
    forall i | 0 <= i < |r| ensures r[i] == "admin"[i] {
    }
  }

  lemma ManagerBadge() ensures BadgeTone("Manager") == Warning
  {
    var r := ToLower("Manager");
    forall i | 0 <= i < |r| ensures r[i] == "manager"[i] {
    }
  }

  lemma DeveloperBadge() ensures BadgeTone("Developer") == Success
  {
    var r := ToLower("Developer");
    forall i | 0 <= i < |r| ensures r[i] == "developer"[i] {
    }
  }

  /** Every role the dialog offers gets a coloured badge on the users screen,
      and of the statuses it offers only "active" a green one. */
  lemma OptionsHaveBadges()
    ensures forall i :: 0 <= i < |RoleOptions| ==> BadgeTone(RoleOptions[i]) != Muted
    ensures forall i :: 0 <= i < |StatusOptions| ==> (StatusTone(StatusOptions[i]) == Success <==> i == 0)
  {
    forall i | 0 <= i < |RoleOptions| ensures BadgeTone(RoleOptions[i]) != Muted {
      if i == 0 {
        AdminBadge();
      } else if i == 1 {
        ManagerBadge();
      } else {
        DeveloperBadge();
      }
    }
  }
}

=== FILE: employee_forms.dfy ===
/** The create-employee and edit-employee dialogs: their ordered checks, the
    payload they send, and the record they hand back to the employees screen. */
module EmployeeForms {
  import opened Optional
  import opened Text
  import opened ErrorDetail
  import opened AdminLists
  import opened EmployeesPage

  /** The dialog's four text fields. */
  datatype EmployeeForm = EmployeeForm(name: string, email: string, designation: string, mgrId: string)

  /** The fields after `reset`. */
  const EmptyForm := EmployeeForm("", "", "", "")

  const Domain := "@ust.com"

  predicate AnyBlank(f: EmployeeForm)
  {
    IsBlank(f.name) || IsBlank(f.email) || IsBlank(f.designation) || IsBlank(f.mgrId)
  }

  /** The failures, in the order the dialogs check them. */
  datatype Invalid = IdMissing | FieldsRequired | WrongDomain

  function InvalidMessage(v: Invalid): string
  {
    match v
    case IdMissing => "Employee id is missing"
    case FieldsRequired => "All fields are required"
    case WrongDomain => "Email must end with @ust.com"
  }

  /** The create dialog's checks: every field filled in (after trimming), then
      the untrimmed email in the company domain. */
  function ValidateCreate(f: EmployeeForm): (r: Option<Invalid>)
    ensures r == Some(FieldsRequired) <==> AnyBlank(f)
    ensures r == Some(WrongDomain) <==> !AnyBlank(f) && !EndsWith(f.email, Domain)
    ensures r.None? <==> !AnyBlank(f) && EndsWith(f.email, Domain)
  {
    if AnyBlank(f) then Some(FieldsRequired)
    else if !EndsWith(f.email, Domain) then Some(WrongDomain)
    else None
  }

  /** The edit dialog's checks: the employee must have an id, then every field
      must be filled in. The domain is not checked. */
  function ValidateEdit(eId: Option<int>, f: EmployeeForm): (r: Option<Invalid>)
    ensures r == Some(IdMissing) <==> !IdPresent(eId)
    ensures r == Some(FieldsRequired) <==> IdPresent(eId) && AnyBlank(f)
    ensures r != Some(WrongDomain)
  {
    if !IdPresent(eId) then Some(IdMissing)
    else if AnyBlank(f) then Some(FieldsRequired)
    else None
  }

  /** An email that ends in the domain followed by a space passes the blank check
      but fails the domain check, which looks at the untrimmed text. */
  lemma PaddedEmailFailsCreate(f: EmployeeForm)
    requires !AnyBlank(f) && EndsWith(f.email, Domain)
    ensures ValidateCreate(f.(email := f.email + " ")) == Some(WrongDomain)
  {
    PaddingKeepsText(f.email);
    SpaceEndNotDomain(f.email);
  }

  /** The edit dialog accepts the same form. */
  lemma PaddedEmailPassesEdit(f: EmployeeForm, id: int)
    requires !AnyBlank(f) && EndsWith(f.email, Domain) && id != 0
    ensures ValidateEdit(Some(id), f.(email := f.email + " ")) == None
  {
    PaddingKeepsText(f.email);
  }

  lemma SpaceEndNotDomain(s: string)
    ensures !EndsWith(s + " ", Domain)
  {
    var e := s + " ";
    assert e[|e| - 1] == ' ';
  }

  /** Text that is not blank stays so with a space after it. */
  lemma PaddingKeepsText(s: string)
    requires !IsBlank(s)
    ensures !IsBlank(s + " ")
  {
    var e := s + " ";
    TrimEmptyIff(s);
    TrimEmptyIff(e);
    var i :| 0 <= i < |s| && !IsSpace(s[i]);
    assert e[i] == s[i];
  }

  /** The body both dialogs send: trimmed text and the manager id as a number.
      `number` stands for `Number`. */
  datatype Payload = Payload(name: string, email: string, designation: string, mgrId: int)

  function MakePayload(f: EmployeeForm, number: string -> int): (p: Payload)
    ensures p.name == Trim(f.name) && p.email == Trim(f.email) && p.designation == Trim(f.designation)
    ensures p.mgrId == number(f.mgrId)
  {
    Payload(Trim(f.name), Trim(f.email), Trim(f.designation), number(f.mgrId))
  }

  /** The text of a validated form's payload is non-empty and already trimmed. */
  lemma PayloadTrimmed(f: EmployeeForm, number: string -> int)
    requires !AnyBlank(f)
    ensures var p := MakePayload(f, number);
      p.name != [] && p.email != [] && p.designation != [] &&
      Trim(p.name) == p.name && Trim(p.email) == p.email && Trim(p.designation) == p.designation
  {
    TrimIdempotent(f.name);
    TrimIdempotent(f.email);
    TrimIdempotent(f.designation);
  }

  /** What pressing the submit button leads to before any response. */
  datatype Submission = Rejected(message: string) | Send(path: string, payload: Payload)

  function SubmitCreate(f: EmployeeForm, number: string -> int): (r: Submission)
    ensures r.Rejected? <==> ValidateCreate(f).Some?
    ensures r.Rejected? ==> r.message == InvalidMessage(ValidateCreate(f).value)
    ensures r.Send? ==> r.path == "/Employee/create" && r.payload == MakePayload(f, number)
  {
    match ValidateCreate(f)
    case Some(v) => Rejected(InvalidMessage(v))
    case None => Send("/Employee/create", MakePayload(f, number))
  }

  function SubmitEdit(eId: Option<int>, f: EmployeeForm, number: string -> int, show: int -> string): (r: Submission)
    ensures r.Rejected? <==> ValidateEdit(eId, f).Some?
    ensures r.Rejected? ==> r.message == InvalidMessage(ValidateEdit(eId, f).value)
    ensures r.Send? ==> r.path == "/Employee/update?id=" + show(eId.value) && r.payload == MakePayload(f, number)
  {
    match ValidateEdit(eId, f)
    case Some(v) => Rejected(InvalidMessage(v))
    case None => Send("/Employee/update?id=" + show(eId.value), MakePayload(f, number))
  }

  /** How the request ended: a response whose `employee` is present or not (and
      its `detail`), or a thrown error. */
  datatype Reply = Answered(employee: Option<Employee>, detail: Option<string>) | Failed(err: Js)

  /** The dialog after the response, and the record handed to the screen. */
  datatype Dialog = Dialog(form: EmployeeForm, open: bool, handed: Option<Employee>, toast: Toast)

  /** A record made from a payload: no id and no status. */
  function FromPayload(eId: Option<int>, p: Payload): (e: Employee)
    ensures e.eId == eId && e.status.None?
    ensures e.name == p.name && e.email == p.email && e.designation == Some(p.designation) && e.mgrId == Some(p.mgrId)
  {
    Employee(eId, p.name, p.email, Some(p.designation), Some(p.mgrId), None)
  }

  /** After the create request: any answer hands over the returned employee, or
      the payload when none came back, then resets and closes; a failure keeps
      the dialog as it was. */
  function AfterCreate(f: EmployeeForm, p: Payload, reply: Reply, str: Js -> string): (d: Dialog)
    ensures reply.Answered? ==> d.form == EmptyForm && !d.open && d.handed.Some?
    ensures reply.Answered? && reply.employee.Some? ==> d.handed == reply.employee
    ensures reply.Answered? && reply.employee.None? ==> d.handed == Some(FromPayload(None, p))
    ensures reply.Failed? ==> d == Dialog(f, true, None, Toast("Create Failed", MessageOr(reply.err, "Could not create employee", str)))
  {
    match reply
    case Answered(Some(e), _) => Dialog(EmptyForm, false, Some(e), Toast("Employee Created", "Employee was added successfully"))
    case Answered(None, detail) => Dialog(EmptyForm, false, Some(FromPayload(None, p)), Toast("Created", detail.GetOr("Employee created")))
    case Failed(err) => Dialog(f, true, None, Toast("Create Failed", MessageOr(err, "Could not create employee", str)))
  }

  /** Cancel closes the dialog and clears the fields. */
  function Cancel(f: EmployeeForm): (r: (EmployeeForm, bool))
    ensures r.0 == EmptyForm && !r.1
  {
    (EmptyForm, false)
  }

  /** An employee added from the payload has no id, so the screen refuses to
      delete it until the list is loaded again. */
  lemma PayloadRecordNotDeletable(list: seq<Employee>, f: EmployeeForm, p: Payload, detail: Option<string>,
                                  confirmed: bool, show: int -> string, failure: Option<Js>,
                                  stringify: Js -> string, str: Js -> string)
    ensures var d := AfterCreate(f, p, Answered(None, detail), str);
      HandleDelete(HandleCreated(list, d.handed.value), d.handed.value, confirmed, show, failure, stringify, str).request.None?
  {
  }

  /** The edit dialog's fields for an employee: missing text becomes "", and a
      manager id that is absent or 0 becomes "". Without an employee the fields
      stay as they are. */
  function Prefill(current: EmployeeForm, employee: Option<Employee>, show: int -> string): (f: EmployeeForm)
    ensures employee.None? ==> f == current
    ensures employee.Some? ==> f.name == employee.value.name && f.email == employee.value.email
    ensures employee.Some? ==> f.designation == employee.value.designation.GetOr("")
    ensures employee.Some? ==> (f.mgrId == "" <==> !IdPresent(employee.value.mgrId) || show(employee.value.mgrId.value) == "")
  {
    match employee
    case None => current
    case Some(e) =>
      EmployeeForm(e.name, e.email, e.designation.GetOr(""),
                   if IdPresent(e.mgrId) then show(e.mgrId.value) else "")
  }

  /** An employee whose manager id is 0 cannot be saved without typing one in:
      the prefilled form is refused as incomplete. */
  lemma ZeroManagerBlocksEdit(current: EmployeeForm, e: Employee, number: string -> int, show: int -> string)
    requires IdPresent(e.eId) && e.mgrId == Some(0)
    ensures SubmitEdit(e.eId, Prefill(current, Some(e), show), number, show) == Rejected("All fields are required")
  {
    var f := Prefill(current, Some(e), show);
    assert AnyBlank(f) by {
      assert f.mgrId == [];
      assert IsBlank([]);
    }
    assert ValidateEdit(e.eId, f) == Some(FieldsRequired);
  }

  /** After the update request: the returned employee, or `{e_id, ...payload}`,
      is handed over and the dialog closes; a failure keeps it open. */
  function AfterEdit(f: EmployeeForm, eId: Option<int>, p: Payload, reply: Reply, str: Js -> string): (d: Dialog)
    ensures reply.Answered? ==> !d.open && d.form == f && d.handed.Some?
    ensures reply.Answered? && reply.employee.Some? ==> d.handed == reply.employee
    ensures reply.Answered? && reply.employee.None? ==> d.handed == Some(FromPayload(eId, p))
    ensures reply.Failed? ==> d == Dialog(f, true, None, Toast("Update Failed", MessageOr(reply.err, "Could not update employee", str)))
  {
    match reply
    case Answered(Some(e), _) => Dialog(f, false, Some(e), Toast("Updated", "Employee updated successfully"))
    case Answered(None, detail) => Dialog(f, false, Some(FromPayload(eId, p)), Toast("Updated", detail.GetOr("Employee updated")))
    case Failed(err) => Dialog(f, true, None, Toast("Update Failed", MessageOr(err, "Could not update employee", str)))
  }

  /** The fallback record of an edit replaces exactly the rows with the edited
      id, and they then carry the trimmed fields of the form. */
  lemma EditFallbackLands(list: seq<Employee>, f: EmployeeForm, eId: Option<int>, detail: Option<string>,
                          number: string -> int, str: Js -> string)
    ensures var p := MakePayload(f, number);
      var r := HandleUpdated(list, AfterEdit(f, eId, p, Answered(None, detail), str).handed.value);
      |r| == |list| &&
      forall i :: 0 <= i < |list| ==>
        (list[i].eId == eId ==> r[i].eId == eId && r[i].name == Trim(f.name) && r[i].email == Trim(f.email)) &&
        (list[i].eId != eId ==> r[i] == list[i])
  {
  }
}

=== FILE: employees_page.dfy ===
/** The employees screen: which list it loads, how created, edited and deleted
    employees change it, the delete error text, and the avatar initials. */
module EmployeesPage {
  import opened Optional
  import opened Text
  import opened Seqs
  import opened Session
  import opened ErrorDetail
  import opened AdminLists

  /** An employee row as the screen holds it. */
  datatype Employee = Employee(
    eId: Option<int>,
    name: string,
    email: string,
    designation: Option<string>,
    mgrId: Option<int>,
    status: Option<string>)

  function EId(e: Employee): Option<int> { e.eId }

  const ListPath := "/Employee/getall"

  /** The list request: a manager asks only for their own reports. */
  function FetchPath(user: Option<ClientUser>): (p: string)
    ensures IsPrefix(ListPath, p)
    ensures |p| > |ListPath| <==> user.Some? && user.value.role == "manager"
    ensures |p| > |ListPath| ==> p[|ListPath|..] == "?mgr_id=" + user.value.empId
  {
    if user.Some? && user.value.role == "manager" then ListPath + "?mgr_id=" + user.value.empId
    else ListPath
  }

  /** The employees to show after a load, and whether the error toast shows: the
      shared `AdminLists.Load`, which the users screen uses too. */
  function LoadEmployees(response: Fetched<Employee>, current: seq<Employee>): (r: Loaded<Employee>)
    ensures response.Array? ==> r == Loaded(response.items, false)
    ensures response.NotArray? ==> r == Loaded([], false)
    ensures response.Failed? ==> (r.items == [] <==> response.status == 404 || current == [])
    ensures response.Failed? && response.status == 404 ==> r == Loaded([], false)
    ensures response.Failed? && response.status != 404 ==> r == Loaded(current, true)
  {
    Load(response, current)
  }

  /** `handleCreated`: the new employee goes first. */
  function HandleCreated(list: seq<Employee>, created: Employee): (r: seq<Employee>)
    ensures |r| == |list| + 1 && r[0] == created && r[1..] == list
  {
    Prepend(list, created)
  }

  /** `handleUpdated`: every row with the updated employee's id is replaced. */
  function HandleUpdated(list: seq<Employee>, updated: Employee): (r: seq<Employee>)
    ensures |r| == |list|
    ensures forall i :: 0 <= i < |list| && list[i].eId != updated.eId ==> r[i] == list[i]
    ensures forall i :: 0 <= i < |list| && list[i].eId == updated.eId ==> r[i] == updated
  {
    ReplaceById(list, updated, EId)
  }

  /** The text of a failed delete: the collapsed error detail, or nothing when
      the collapse throws before the toast. */
  function DeleteFailureText(err: Js, stringify: Js -> string, str: Js -> string): (shown: Option<string>)
    ensures shown.None? <==> FormatError(err, stringify, str).Throws?
    ensures shown.Some? ==> shown.value == FormatError(err, stringify, str).text
  {
    match FormatError(err, stringify, str)
    case Message(t) => Some(t)
    case Throws => None
  }

  /** `handleDelete` on the row `emp`. `failure` is the error the request threw,
      if it threw; `show` prints the id into the path. */
  function HandleDelete(list: seq<Employee>, emp: Employee, confirmed: bool, show: int -> string,
                        failure: Option<Js>, stringify: Js -> string, str: Js -> string): (e: DeleteEffect<Employee>)
    ensures e.request.Some? <==> IdPresent(emp.eId) && confirmed
    ensures e.request.Some? ==> e.request.value == "/Employee/delete?id=" + show(emp.eId.value)
    ensures e.items != list ==> e.request.Some? && failure.None?
    ensures e.request.Some? && failure.None? ==> forall x :: x in e.items <==> x in list && x.eId != emp.eId
    ensures e.request.Some? && failure.None? ==>
      IsSubsequence(e.items, list) && forall x :: multiset(e.items)[x] == if x.eId != emp.eId then multiset(list)[x] else 0
    ensures e.request.Some? && failure.Some? ==>
      e.toast == (match FormatError(failure.value, stringify, str)
                  case Message(t) => Some(Toast("Delete Failed", t))
                  case Throws => None)
  {
    var reply := if failure.None? then Removed else Refused(DeleteFailureText(failure.value, stringify, str));
    DeleteById(list, EId, emp.eId, confirmed, "/Employee/delete?id=", show,
               "Employee id missing", "Employee removed", reply)
  }

  /** A server message in `data.detail` is what the failed delete shows. */
  lemma DeleteShowsServerDetail(list: seq<Employee>, emp: Employee, show: int -> string,
                                err: Js, text: string, stringify: Js -> string, str: Js -> string)
    requires IdPresent(emp.eId)
    requires Get(Get(err, "data"), "detail") == JsStr(text) && text != []
    ensures HandleDelete(list, emp, true, show, Some(err), stringify, str)
         == DeleteEffect(list, Some("/Employee/delete?id=" + show(emp.eId.value)), Some(Toast("Delete Failed", text)))
  {
    ServerTextShown(err, text, stringify, str);
  }

  /** The first character of a word, or nothing for an empty word (`n[0]` is
      undefined there and joins as nothing). */
  function Head(w: string): (r: string)
    ensures |r| <= 1 && (w != [] <==> |r| == 1)
    ensures w != [] ==> r[0] == w[0]
  {
    if w == [] then [] else [w[0]]
  }

  function Heads(words: seq<string>): (r: seq<string>)
    ensures |r| == |words|
    ensures forall i :: 0 <= i < |words| ==> r[i] == Head(words[i])
  {
    if words == [] then [] else [Head(words[0])] + Heads(words[1..])
  }

  /** The avatar text: the first character of each space-separated word, empty
      for an empty name. Case is kept. */
  function Initials(name: string): (r: string)
    ensures name == [] ==> r == []
    ensures forall c :: c in r ==> c in name
  {
    if name == [] then []
    else
      var words := Split(name, ' ');
      var r := Join(Heads(words), []);
      forall c | c in r ensures c in name {
        InJoinSomePart(Heads(words), c);
        var k :| 0 <= k < |words| && c in Heads(words)[k];
        JoinSplit(name, ' ');
        JoinContainsParts(words, " ", k);
        ContainedChar(name, words[k], c);
      }
      r
  }

  /** A character of a separator-free join comes from one of the pieces. */
  lemma {:induction false} InJoinSomePart(parts: seq<string>, c: char)
    requires c in Join(parts, [])
    ensures exists k :: 0 <= k < |parts| && c in parts[k]
    decreases |parts|
  {
    if |parts| > 1 && c !in parts[0] {
      assert Join(parts, []) == parts[0] + Join(parts[1..], []);
      InJoinSomePart(parts[1..], c);
      var k :| 0 <= k < |parts| - 1 && c in parts[1..][k];
      assert c in parts[k + 1];
    }
  }

  /** A character of a contained string is a character of the container. */
  lemma ContainedChar(s: string, sub: string, c: char)
    requires Contains(s, sub) && c in sub
    ensures c in s
  {
    var i :| 0 <= i <= |s| - |sub| && OccursAt(s, sub, i);
    var j :| 0 <= j < |sub| && sub[j] == c;
    assert s[i + j] == sub[j];
  }

  /** The first characters of non-empty words, in order. */
  function Firsts(words: seq<string>): (r: string)
    requires forall i :: 0 <= i < |words| ==> words[i] != []
    ensures |r| == |words|
    ensures forall i :: 0 <= i < |words| ==> r[i] == words[i][0]
  {
    if words == [] then [] else [words[0][0]] + Firsts(words[1..])
  }

  /** Joining one-character pieces with no separator spells those characters. */
  lemma {:induction false} JoinHeads(words: seq<string>)
    requires forall i :: 0 <= i < |words| ==> words[i] != []
    ensures Join(Heads(words), []) == Firsts(words)
    decreases |words|
  {
    if |words| > 1 {
      JoinHeads(words[1..]);
      assert Heads(words)[1..] == Heads(words[1..]);
    }
  }

  /** A name made of non-empty words separated by single spaces has one initial
      per word: the word's first character. */
  lemma InitialsOfWords(words: seq<string>)
    requires |words| >= 1
    requires forall i :: 0 <= i < |words| ==> words[i] != [] && ' ' !in words[i]
    ensures Initials(Join(words, " ")) == Firsts(words)
  {
    SplitJoin(words, ' ');
    JoinHeads(words);
  }
}

=== FILE: error_detail.dfy ===
/** How the task and employee screens turn a failed request's error into one
    message: pick the most specific truthy part of the error, then collapse an
    array, an object or anything else to text. */
module ErrorDetail {
  import opened Text

  /** A JavaScript value, as far as the collapse looks into it. Object keys are
      distinct. */
  datatype Js =
    | JsUndefined
    | JsNull
    | JsBool(b: bool)
    | JsNum(n: int)
    | JsStr(s: string)
    | JsArray(items: seq<Js>)
    | JsObject(fields: seq<(string, Js)>)

  /** Optional-chaining property read: absent keys, primitives and nullish values
      all give `undefined`. */
  function Get(v: Js, key: string): (r: Js)
    ensures !v.JsObject? ==> r == JsUndefined
    ensures v.JsObject? && (forall i :: 0 <= i < |v.fields| ==> v.fields[i].0 != key) ==> r == JsUndefined
    ensures v.JsObject? && |v.fields| > 0 && v.fields[0].0 == key ==> r == v.fields[0].1
    ensures v.JsObject? ==>
      forall i :: (0 <= i < |v.fields| && v.fields[i].0 == key &&
                   forall j :: 0 <= j < i ==> v.fields[j].0 != key) ==> r == v.fields[i].1
  {
    if v.JsObject? then Field(v.fields, key) else JsUndefined
  }

  function Field(fields: seq<(string, Js)>, key: string): (r: Js)
    ensures (forall i :: 0 <= i < |fields| ==> fields[i].0 != key) ==> r == JsUndefined
    ensures forall i :: (0 <= i < |fields| && fields[i].0 == key &&
                         forall j :: 0 <= j < i ==> fields[j].0 != key) ==> r == fields[i].1
  {
    if fields == [] then JsUndefined
    else if fields[0].0 == key then fields[0].1
    else Field(fields[1..], key)
  }

  /** JavaScript truthiness. */
  predicate Truthy(v: Js)
  {
    match v
    case JsUndefined => false
    case JsNull => false
    case JsBool(b) => b
    case JsNum(n) => n != 0
    case JsStr(s) => s != []
    case JsArray(_) => true
    case JsObject(_) => true
  }

  /** `err?.data?.detail || err?.data || err?.message || err`. */
  function PickDetail(err: Js): (d: Js)
    ensures Truthy(Get(Get(err, "data"), "detail")) ==> d == Get(Get(err, "data"), "detail")
    ensures !Truthy(Get(Get(err, "data"), "detail")) && Truthy(Get(err, "data")) ==> d == Get(err, "data")
    ensures !Truthy(Get(Get(err, "data"), "detail")) && !Truthy(Get(err, "data")) && Truthy(Get(err, "message")) ==>
      d == Get(err, "message")
    ensures !Truthy(Get(Get(err, "data"), "detail")) && !Truthy(Get(err, "data")) && !Truthy(Get(err, "message")) ==>
      d == err
    ensures d == err || Truthy(d)
    ensures !err.JsObject? ==> d == err
  {
    var detail := Get(Get(err, "data"), "detail");
    if Truthy(detail) then detail
    else if Truthy(Get(err, "data")) then Get(err, "data")
    else if Truthy(Get(err, "message")) then Get(err, "message")
    else err
  }

  /** `String(v)` for a string is the string itself; other values go through the
      given conversion. */
  function ToText(v: Js, str: Js -> string): (t: string)
    ensures v.JsStr? ==> t == v.s
  {
    if v.JsStr? then v.s else str(v)
  }

  /** The collapse either yields a message, or throws: reading `.msg` of a null or
      undefined array entry does. */
  datatype Collapsed = Message(text: string) | Throws

  predicate Nullish(d: Js) { d.JsNull? || d.JsUndefined? }

  /** The text of one array entry: its `msg` when truthy, else the entry itself
      when it is a string, else its JSON. */
  function EntryText(d: Js, stringify: Js -> string, str: Js -> string): (t: string)
    requires !Nullish(d)
    ensures Truthy(Get(d, "msg")) ==> t == ToText(Get(d, "msg"), str)
    ensures !Truthy(Get(d, "msg")) && d.JsStr? ==> t == d.s
  {
    var m := Get(d, "msg");
    if Truthy(m) then ToText(m, str)
    else if d.JsStr? then d.s
    else stringify(d)
  }

  function EntryTexts(items: seq<Js>, stringify: Js -> string, str: Js -> string): (ts: seq<string>)
    requires forall i :: 0 <= i < |items| ==> !Nullish(items[i])
    ensures |ts| == |items|
    ensures forall i :: 0 <= i < |items| ==> ts[i] == EntryText(items[i], stringify, str)
  {
    if items == [] then [] else [EntryText(items[0], stringify, str)] + EntryTexts(items[1..], stringify, str)
  }

  /** The array, object or anything-else collapse. `stringify` stands for
      `JSON.stringify`, which cannot throw on these acyclic values, and `str` for
      `String`. */
  function Collapse(detail: Js, stringify: Js -> string, str: Js -> string): (c: Collapsed)
    ensures c.Throws? <==> detail.JsArray? && exists i :: 0 <= i < |detail.items| && Nullish(detail.items[i])
    ensures detail.JsArray? && c.Message? ==>
      c.text == Join(EntryTexts(detail.items, stringify, str), "; ")
    ensures (detail.JsObject? || detail.JsNull?) ==> c == Message(stringify(detail))
    ensures detail.JsStr? ==> c == Message(detail.s)
  {
    match detail
    case JsArray(items) =>
      if exists i :: 0 <= i < |items| && Nullish(items[i]) then Throws
      else Message(Join(EntryTexts(items, stringify, str), "; "))
    case JsObject(_) => Message(stringify(detail))
    case JsNull => Message(stringify(detail))
    case _ => Message(ToText(detail, str))
  }

  /** The message a failed request shows. */
  function FormatError(err: Js, stringify: Js -> string, str: Js -> string): Collapsed
  {
    Collapse(PickDetail(err), stringify, str)
  }

  /** A validation error list: every entry's message appears in what the user
      sees. */
  lemma EveryEntryShown(err: Js, stringify: Js -> string, str: Js -> string, k: nat)
    requires PickDetail(err).JsArray? && k < |PickDetail(err).items|
    requires forall i :: 0 <= i < |PickDetail(err).items| ==> !Nullish(PickDetail(err).items[i])
    ensures FormatError(err, stringify, str).Message?
    ensures Contains(FormatError(err, stringify, str).text,
                     EntryText(PickDetail(err).items[k], stringify, str))
  {
    var items := PickDetail(err).items;
    JoinContainsParts(EntryTexts(items, stringify, str), "; ", k);
  }

  /** A plain-text detail from the server is shown as it is. */
  lemma ServerTextShown(err: Js, text: string, stringify: Js -> string, str: Js -> string)
    requires Get(Get(err, "data"), "detail") == JsStr(text) && text != []
    ensures FormatError(err, stringify, str) == Message(text)
  {
  }

  /** `err?.message || fallback`: the error's own message when truthy. */
  function MessageOr(err: Js, fallback: string, str: Js -> string): (t: string)
    ensures !Truthy(Get(err, "message")) ==> t == fallback
    ensures Get(err, "message").JsStr? && Truthy(Get(err, "message")) ==> t == Get(err, "message").s
  {
    var m := Get(err, "message");
    if Truthy(m) then ToText(m, str) else fallback
  }
}

=== FILE: kanban.dfy ===
/** The Kanban board: which drags the board permits, what a finished drag does, and
    how tasks are laid out in columns. */
module Kanban {
  import opened Optional
  import opened TaskModel
  import opened Session
  import opened Seqs
  import opened Transitions

  /** The verdict of the drag guard. */
  datatype Decision = Allowed | Denied(reason: string)

  /** The board's ownership test: `String(task.assigned_to) === String(user.emp_id)`. */
  predicate Owns(u: ClientUser, task: Task)
  {
    JsString(task.assignedTo) == u.empId
  }

  /** The drag guard. Admins never move; developers move their own tasks forward up to
      REVIEW; managers move tasks out of REVIEW to TO_DO or DONE; any other role and a
      missing user are refused. */
  function CanMoveToStatus(user: Option<ClientUser>, task: Task, from: Status, target: Status): (d: Decision)
    ensures d.Allowed? <==> (user.Some? &&
      ((user.value.role == "developer" && Owns(user.value, task) && (from, target) in AssigneeMoves) ||
       (user.value.role == "manager" && (from, target) in BoardManagerMoves)))
    ensures user.None? ==> d == Denied("Not authenticated")
    ensures d.Denied? ==> d.reason != []
  {
    if user.None? then Denied("Not authenticated")
    else
      var u := user.value;
      if u.role == "admin" then Denied("Admins cannot change task status by drag and drop")
      else if u.role == "developer" then DeveloperVerdict(u, task, from, target)
      else if u.role == "manager" then ManagerVerdict(from, target)
      else Denied("Permission denied")
  }

  /** The developer branch of the guard: ownership first, then the assignee table. */
  function DeveloperVerdict(u: ClientUser, task: Task, from: Status, target: Status): (d: Decision)
    ensures d.Allowed? <==> Owns(u, task) && (from, target) in AssigneeMoves
    ensures d.Denied? ==> d.reason != []
  {
    AssigneeMovesAre(from, target);
    if !Owns(u, task) then Denied("You can only move tasks assigned to you")
    else if from == ToDo && target == InProgress then Allowed
    else if from == InProgress && target == Review then Allowed
    else Denied("Employees can only move: To Do → In Progress → Review")
  }

  /** The manager branch of the guard: out of REVIEW to TO_DO or DONE. */
  function ManagerVerdict(from: Status, target: Status): (d: Decision)
    ensures d.Allowed? <==> (from, target) in BoardManagerMoves
    ensures d.Denied? ==> d.reason != []
  {
    BoardManagerMovesAre(from, target);
    if from == Review && (target == ToDo || target == Done) then Allowed
    else Denied("Managers can only move tasks from Review to To Do or Done")
  }

  /** An admin is refused every move, whoever holds the task. */
  lemma AdminNeverMoves(u: ClientUser, task: Task, from: Status, target: Status)
    requires u.role == "admin"
    ensures CanMoveToStatus(Some(u), task, from, target) == Denied("Admins cannot change task status by drag and drop")
  {
  }

  /** For a developer the ownership test comes first: a task held by someone else is
      refused with the ownership reason, whatever the move. */
  lemma DeveloperOwnershipFirst(u: ClientUser, task: Task, from: Status, target: Status)
    requires u.role == "developer" && !Owns(u, task)
    ensures CanMoveToStatus(Some(u), task, from, target) == Denied("You can only move tasks assigned to you")
  {
  }

  /** A manager's verdict does not depend on who holds the task. */
  lemma ManagerIgnoresOwnership(u: ClientUser, t1: Task, t2: Task, from: Status, target: Status)
    requires u.role == "manager"
    ensures CanMoveToStatus(Some(u), t1, from, target) == CanMoveToStatus(Some(u), t2, from, target)
  {
  }

  /** Nobody moves a task out of DONE. */
  lemma DoneIsFinal(user: Option<ClientUser>, task: Task, target: Status)
    ensures CanMoveToStatus(user, task, Done, target).Denied?
  {
  }

  /** A role other than the three is refused with "Permission denied". */
  lemma UnknownRoleRefused(u: ClientUser, task: Task, from: Status, target: Status)
    requires u.role != "admin" && u.role != "developer" && u.role != "manager"
    ensures CanMoveToStatus(Some(u), task, from, target) == Denied("Permission denied")
  {
  }

  /** `tasks.find(t => t.t_id === id)`: the first task with that id. */
  function FindTask(tasks: seq<Task>, id: string): (r: Option<Task>)
    ensures r.None? <==> forall i :: 0 <= i < |tasks| ==> tasks[i].tId != id
    ensures r.Some? ==> r.value.tId == id && exists i :: (0 <= i < |tasks| && tasks[i] == r.value &&
      forall j :: 0 <= j < i ==> tasks[j].tId != id)
  {
    FindFirst(tasks, (t: Task) => t.tId == id)
  }

  /** A drop as the drag library reports it: the dragged card, the column it left
      and the column it was dropped on, if any. */
  datatype DropResult = DropResult(draggableId: string, source: Status, destination: Option<Status>)

  /** A user-facing notice raised by the board. */
  datatype Notice = ErrorNotice(text: string) | InfoNotice(text: string) | SuccessNotice(text: string)

  /** The one call the board makes to its owner: `onTaskUpdate(id, status)`. */
  datatype StatusUpdate = StatusUpdate(taskId: string, newStatus: Status)

  /** What a finished drag does: at most one update call, and the notices shown. */
  datatype DragEffect = DragEffect(update: Option<StatusUpdate>, notices: seq<Notice>)

  const RemarkNotice := "Remark is required when moving from Review back to In Progress"

  /** `handleDragEnd`. */
  function HandleDragEnd(user: Option<ClientUser>, tasks: seq<Task>, drop: DropResult): (e: DragEffect)
    ensures e.update.Some? ==>
      && drop.destination.Some?
      && e.update.value == StatusUpdate(drop.draggableId, drop.destination.value)
      && FindTask(tasks, drop.draggableId).Some?
      && FindTask(tasks, drop.draggableId).value.status != StatusName(drop.destination.value)
      && CanMoveToStatus(user, FindTask(tasks, drop.draggableId).value, drop.source, drop.destination.value) == Allowed
    ensures e.update.Some? <==> exists i :: 0 <= i < |e.notices| && e.notices[i].SuccessNotice?
    ensures e.update.None? ==> |e.notices| <= 1 && forall i :: 0 <= i < |e.notices| ==> e.notices[i].ErrorNotice?
  {
    if drop.destination.None? then DragEffect(None, [])
    else
      var newStatus := drop.destination.value;
      match FindTask(tasks, drop.draggableId)
      case None => DragEffect(None, [])
      case Some(task) =>
        if task.status == StatusName(newStatus) then DragEffect(None, [])
        else
          match CanMoveToStatus(user, task, drop.source, newStatus)
          case Denied(reason) =>
            DragEffect(None, [ErrorNotice(if reason == [] then "You cannot move this task" else reason)])
          case Allowed =>
            var info := if task.status == "REVIEW" && newStatus == InProgress then [InfoNotice(RemarkNotice)] else [];
            var done := SuccessNotice("Task \"" + task.title + "\" moved to " + StatusLabel(newStatus) + "!");
            assert (info + [done])[|info|] == done;
            DragEffect(Some(StatusUpdate(drop.draggableId, newStatus)), info + [done])
  }

  /** A refused drag makes no update call and shows the guard's reason. */
  lemma RefusedDragShowsReason(user: Option<ClientUser>, tasks: seq<Task>, drop: DropResult)
    requires drop.destination.Some? && FindTask(tasks, drop.draggableId).Some?
    requires FindTask(tasks, drop.draggableId).value.status != StatusName(drop.destination.value)
    requires CanMoveToStatus(user, FindTask(tasks, drop.draggableId).value, drop.source, drop.destination.value).Denied?
    ensures HandleDragEnd(user, tasks, drop) ==
      DragEffect(None, [ErrorNotice(CanMoveToStatus(user, FindTask(tasks, drop.draggableId).value, drop.source, drop.destination.value).reason)])
  {
  }

  /** Every update the board issues is a move of one of the tables. */
  lemma DragFollowsTables(user: Option<ClientUser>, tasks: seq<Task>, drop: DropResult)
    ensures var e := HandleDragEnd(user, tasks, drop);
      e.update.Some? ==> (drop.source, e.update.value.newStatus) in AssigneeMoves + BoardManagerMoves
  {
  }

  /** When the card leaves the column of its own status, the REVIEW to IN_PROGRESS
      remark notice can never be shown: no role may make that move. */
  lemma RemarkNoticeUnreachable(user: Option<ClientUser>, tasks: seq<Task>, drop: DropResult)
    requires FindTask(tasks, drop.draggableId).Some?
    requires FindTask(tasks, drop.draggableId).value.status == StatusName(drop.source)
    ensures forall i :: 0 <= i < |HandleDragEnd(user, tasks, drop).notices| ==>
      !HandleDragEnd(user, tasks, drop).notices[i].InfoNotice?
  {
    var task := FindTask(tasks, drop.draggableId).value;
    if task.status == "REVIEW" {
      assert drop.source == Review by {
        assert ParseStatusName(StatusName(drop.source)) == Some(drop.source);
      }
      assert (Review, InProgress) !in AssigneeMoves + BoardManagerMoves;
    }
  }

  /** `getTasksByStatus`: the tasks of one column, in list order. */
  function TasksByStatus(tasks: seq<Task>, s: Status): (r: seq<Task>)
    ensures IsSubsequence(r, tasks)
    ensures forall t :: t in r <==> t in tasks && t.status == StatusName(s)
    ensures forall t :: multiset(r)[t] == if t.status == StatusName(s) then multiset(tasks)[t] else 0
  {
    Filter(tasks, (t: Task) => t.status == StatusName(s))
  }

  /** The board: one list per entry of `Columns`. */
  function Board(tasks: seq<Task>): (b: seq<seq<Task>>)
    ensures |b| == |Columns|
    ensures forall c :: 0 <= c < |Columns| ==>
      IsSubsequence(b[c], tasks) && forall t :: t in b[c] <==> t in tasks && t.status == StatusName(Columns[c])
    ensures forall c :: 0 <= c < |Columns| ==>
      forall t :: multiset(b[c])[t] == if t.status == StatusName(Columns[c]) then multiset(tasks)[t] else 0
  {
    seq(|Columns|, c requires 0 <= c < |Columns| => TasksByStatus(tasks, Columns[c]))
  }

  /** A task shows in the column whose status it spells and in no other. Since the
      columns are the four statuses, each once, a task with a canonical status shows in
      exactly one column and a task with any other status in none. */
  lemma ColumnsPartitionTasks(tasks: seq<Task>, t: Task)
    requires t in tasks
    ensures forall c :: 0 <= c < |Columns| ==> (t in Board(tasks)[c] <==> t.status == StatusName(Columns[c]))
  {
    var b := Board(tasks);
    forall c | 0 <= c < |Columns| ensures t in b[c] <==> t.status == StatusName(Columns[c]) {
      assert b[c] == TasksByStatus(tasks, Columns[c]);
    }
  }
}

=== FILE: navbar.dfy ===
/** The navbar's "View As" menu: which roles the user may switch to, the click on
    an entry, and the role label. */
module Navbar {
  import opened Optional
  import opened Text
  import opened Seqs
  import opened Session

  /** An entry of the menu; the icon and colour carry no logic. */
  datatype RoleOption = RoleOption(role: string, caption: string)

  const RoleOptions: seq<RoleOption> := [
    RoleOption("admin", "Admin"),
    RoleOption("manager", "Manager"),
    RoleOption("developer", "Employee")
  ]

  /** The set the menu is built from: the user's roles, lower-cased; manager
      whenever admin is there; and the active role when nothing else is. */
  function RoleSet(u: ClientUser): (s: set<string>)
    ensures Granted(u) ==> forall r :: r in u.roles.value ==> ToLower(r) in s
    ensures Granted(u) && "admin" in LowerEach(u.roles.value) ==> "manager" in s
    ensures Granted(u) ==> forall x :: x in s ==>
      x in LowerEach(u.roles.value) || (x == "manager" && "admin" in LowerEach(u.roles.value))
    ensures !Granted(u) ==> s == if u.role != [] then {u.role} else {}
  {
    var given := if u.roles.Some? && |u.roles.value| > 0 then set r | r in LowerEach(u.roles.value) else {};
    var withManager := if "admin" in given then given + {"manager"} else given;
    assert Granted(u) ==> LowerEach(u.roles.value)[0] in given;
    if withManager == {} && u.role != [] then {u.role} else withManager
  }

  /** The backend granted at least one role. */
  predicate Granted(u: ClientUser) { u.roles.Some? && u.roles.value != [] }

  function LowerEach(items: seq<string>): (r: seq<string>)
    ensures |r| == |items|
    ensures forall i :: 0 <= i < |r| ==> r[i] == ToLower(items[i])
  {
    if items == [] then [] else [ToLower(items[0])] + LowerEach(items[1..])
  }

  /** `availableRoles`: the menu entries, in their fixed order, whose role is in
      the set; unknown roles are dropped and none repeats. */
  function AvailableRoles(u: ClientUser): (r: seq<RoleOption>)
    ensures IsSubsequence(r, RoleOptions)
    ensures forall o :: o in r <==> o in RoleOptions && o.role in RoleSet(u)
    ensures DistinctRoles(r)
  {
    var roles := RoleSet(u);
    var r := Filter(RoleOptions, (o: RoleOption) => o.role in roles);
    OptionsDistinct();
    DistinctSubsequence(r, RoleOptions);
    r
  }

  /** The three entries carry three different roles. */
  lemma OptionsDistinct()
    ensures DistinctRoles(RoleOptions)
  {
    assert RoleOptions[0].role != RoleOptions[1].role && RoleOptions[0].role != RoleOptions[2].role;
    assert RoleOptions[1].role != RoleOptions[2].role;
  }

  /** No two entries share a role. */
  predicate DistinctRoles(s: seq<RoleOption>)
  {
    forall i, j :: 0 <= i < j < |s| ==> s[i].role != s[j].role
  }

  /** The roles of the menu entries never repeat, and so never do those of any
      sublist of them. */
  lemma {:induction false} DistinctSubsequence(a: seq<RoleOption>, b: seq<RoleOption>)
    requires IsSubsequence(a, b) && DistinctRoles(b)
    ensures DistinctRoles(a)
    decreases |b|
  {
    if b != [] {
      var tail := b[1..];
      assert DistinctRoles(tail) by {
        forall i, j | 0 <= i < j < |tail| ensures tail[i].role != tail[j].role {
          assert tail[i] == b[i + 1] && tail[j] == b[j + 1];
        }
      }
      if a != [] && a[0] == b[0] && IsSubsequence(a[1..], tail) {
        DistinctSubsequence(a[1..], tail);
        forall i, j | 0 <= i < j < |a| ensures a[i].role != a[j].role {
          assert a[j] == a[1..][j - 1];
          if i > 0 {
            assert a[i] == a[1..][i - 1];
          } else {
            SubsequenceMembers(a[1..], tail, a[j]);
            var k :| 0 <= k < |tail| && tail[k] == a[j];
            assert b[k + 1] == a[j];
          }
        }
      } else {
        DistinctSubsequence(a, tail);
      }
    }
  }

  /** An admin may always view as manager. */
  lemma AdminViewsManager(u: ClientUser)
    requires u.roles.Some? && "admin" in u.roles.value && u.role == "admin"
    ensures RoleOption("manager", "Manager") in AvailableRoles(u)
  {
    assert "manager" in RoleSet(u) by {
      var i :| 0 <= i < |u.roles.value| && u.roles.value[i] == "admin";
      LowerFixed("admin");
      assert LowerEach(u.roles.value)[i] == "admin";
    }
    assert RoleOptions[1] == RoleOption("manager", "Manager");
  }

  /** An admin never views as developer unless the backend granted that role
      too. */
  lemma AdminNeverDeveloper(u: ClientUser)
    requires u.roles.Some? && "admin" in u.roles.value && u.role == "admin"
    requires forall r :: r in u.roles.value ==> ToLower(r) != "developer"
    ensures RoleOption("developer", "Employee") !in AvailableRoles(u)
  {
    var low := LowerEach(u.roles.value);
    assert "developer" !in low by {
      forall k | 0 <= k < |low| ensures low[k] != "developer" {
        assert u.roles.value[k] in u.roles.value;
      }
    }
    assert "developer" !in RoleSet(u);
  }

  /** The session after a click in the role menu, and the success notice shown. */
  datatype RoleClick = RoleClick(state: AuthState, notice: Option<string>)

  /** A click on the active role does nothing; any other switches to it and
      announces the role now viewed. */
  function HandleRoleClick(st: AuthState, clicked: string): (r: RoleClick)
    ensures st.user.Some? && st.user.value.role == clicked ==> r.state == st
    ensures st.user.Some? && st.user.value.role != clicked ==>
      r.state.user.Some? && r.state.user.value.role == clicked &&
      r.state.user.value.(role := st.user.value.role) == st.user.value
    ensures st.user.None? ==> r.state == st
    ensures r.notice.Some? <==> !(st.user.Some? && st.user.value.role == clicked)
    ensures r.notice.Some? ==> r.notice.value == "Now viewing as " + clicked
  {
    if st.user.Some? && st.user.value.role == clicked then RoleClick(st, None)
    else RoleClick(SwitchRole(st, clicked), Some("Now viewing as " + clicked))
  }

  /** The active role as the navbar shows it. */
  function RoleLabel(role: string): (shown: string)
    ensures role == "developer" ==> shown == "Employee"
    ensures role != "developer" ==> shown == role
  {
    if role == "developer" then "Employee" else role
  }

  /** The label under the avatar, shown with its first letter capitalised, is the
      caption of the menu entry for the same role. */
  lemma RoleLabelMatchesMenu(k: nat)
    requires k < |RoleOptions|
    ensures Capitalize(RoleLabel(RoleOptions[k].role)) == RoleOptions[k].caption
  {
  }
}

=== FILE: navigation.dfy ===
/** The sidebar's navigation configuration and its per-role view. Icons and hrefs
    carry no logic and are left out; an item is known by its title. */
module Navigation {
  import opened Seqs

  datatype NavItem = NavItem(title: string, roles: seq<string>)

  datatype NavSection = NavSection(title: string, items: seq<NavItem>)

  const AllRoles: seq<string> := ["admin", "manager", "developer"]
  const StaffRoles: seq<string> := ["admin", "manager"]

  /** The five sections, in display order. */
  const NavigationConfig: seq<NavSection> := [
    NavSection("Overview", [NavItem("Dashboard", AllRoles)]),
    NavSection("Management", [NavItem("Employees", StaffRoles), NavItem("Users", ["admin"])]),
    NavSection("Tasks", [NavItem("All Tasks", AllRoles)]),
    NavSection("Analytics", [NavItem("Reports", StaffRoles)]),
    NavSection("Account", [NavItem("Profile", AllRoles)])
  ]

  /** A section cut down to the items the role may see. */
  function SectionFor(section: NavSection, role: string): (r: NavSection)
    ensures r.title == section.title
    ensures IsSubsequence(r.items, section.items)
    ensures forall it :: it in r.items <==> it in section.items && role in it.roles
  {
    section.(items := Filter(section.items, (it: NavItem) => role in it.roles))
  }

  function SectionsFor(sections: seq<NavSection>, role: string): (r: seq<NavSection>)
    ensures |r| == |sections|
    ensures forall k :: 0 <= k < |r| ==> r[k] == SectionFor(sections[k], role)
    ensures forall s :: s in r ==> forall it :: it in s.items ==> role in it.roles
  {
    if sections == [] then [] else [SectionFor(sections[0], role)] + SectionsFor(sections[1..], role)
  }

  /** `getNavItemsForRole`: every section keeps, in order, the items listing the
      role, and sections left empty are dropped. */
  function NavItemsForRole(sections: seq<NavSection>, role: string): (r: seq<NavSection>)
    ensures IsSubsequence(r, SectionsFor(sections, role))
    ensures forall s :: s in r <==> s in SectionsFor(sections, role) && s.items != []
    ensures forall s :: multiset(r)[s] == if s.items != [] then multiset(SectionsFor(sections, role))[s] else 0
    ensures forall s :: s in r ==> s.items != [] && forall it :: it in s.items ==> role in it.roles
  {
    var all := SectionsFor(sections, role);
    var nonEmpty := (s: NavSection) => s.items != [];
    var r := Filter(all, nonEmpty);
    assert forall s :: nonEmpty(s) == (s.items != []);
    r
  }

  /** The titles of the items of some sections, top to bottom. */
  function ItemTitles(sections: seq<NavSection>): seq<string>
  {
    if sections == [] then [] else Titles(sections[0].items) + ItemTitles(sections[1..])
  }

  function Titles(items: seq<NavItem>): seq<string>
  {
    if items == [] then [] else [items[0].title] + Titles(items[1..])
  }

  /** Reference reading of the menu: walk the configuration and list the title of
      every item that names the role. */
  function VisibleTitles(sections: seq<NavSection>, role: string): seq<string>
  {
    if sections == [] then [] else VisibleItems(sections[0].items, role) + VisibleTitles(sections[1..], role)
  }

  function VisibleItems(items: seq<NavItem>, role: string): seq<string>
  {
    if items == [] then []
    else (if role in items[0].roles then [items[0].title] else []) + VisibleItems(items[1..], role)
  }

  lemma {:induction false} TitlesOfFilter(items: seq<NavItem>, role: string)
    ensures Titles(Filter(items, (it: NavItem) => role in it.roles)) == VisibleItems(items, role)
  {
    if items != [] {
      var p := (it: NavItem) => role in it.roles;
      assert items == [items[0]] + items[1..];
      FilterCons(items[0], items[1..], p);
      TitlesOfFilter(items[1..], role);
      TitlesAppend(if p(items[0]) then [items[0]] else [], Filter(items[1..], p));
    }
  }

  lemma {:induction false} TitlesAppend(a: seq<NavItem>, b: seq<NavItem>)
    ensures Titles(a + b) == Titles(a) + Titles(b)
  {
    if a == [] {
      assert a + b == b;
    } else {
      assert (a + b)[1..] == a[1..] + b;
      TitlesAppend(a[1..], b);
    }
  }

  /** The menu a role is shown lists exactly the titles the reference walk finds,
      in the same order. */
  lemma {:induction false} MenuMatchesReference(sections: seq<NavSection>, role: string)
    ensures ItemTitles(NavItemsForRole(sections, role)) == VisibleTitles(sections, role)
  {
    if sections != [] {
      var q := (s: NavSection) => s.items != [];
      var head := SectionFor(sections[0], role);
      assert SectionsFor(sections, role) == [head] + SectionsFor(sections[1..], role);
      FilterCons(head, SectionsFor(sections[1..], role), q);
      MenuMatchesReference(sections[1..], role);
      TitlesOfFilter(sections[0].items, role);
      if head.items != [] {
        assert ([head] + NavItemsForRole(sections[1..], role))[1..] == NavItemsForRole(sections[1..], role);
      }
    }
  }

  function Shown(role: string, roles: seq<string>, title: string): seq<string>
  {
    if role in roles then [title] else []
  }

  /** One step of the walk. */
  lemma WalkStep(s: seq<NavSection>, role: string)
    requires s != []
    ensures VisibleTitles(s, role) == VisibleItems(s[0].items, role) + VisibleTitles(s[1..], role)
  {
  }

  /** The walk over five sections is the walk over each, concatenated. */
  lemma {:induction false} WalkFive(s: seq<NavSection>, role: string)
    requires |s| == 5
    ensures VisibleTitles(s, role) ==
      VisibleItems(s[0].items, role) + (VisibleItems(s[1].items, role) + (VisibleItems(s[2].items, role) +
      (VisibleItems(s[3].items, role) + VisibleItems(s[4].items, role))))
  {
    var s1, s2, s3, s4 := s[1..], s[2..], s[3..], s[4..];
    assert s1[1..] == s2 && s2[1..] == s3 && s3[1..] == s4 && s4[1..] == [];
    assert s1[0] == s[1] && s2[0] == s[2] && s3[0] == s[3] && s4[0] == s[4];
    WalkStep(s, role);
    WalkStep(s1, role);
    WalkStep(s2, role);
    WalkStep(s3, role);
    WalkStep(s4, role);
    var A, B, C, D, E := VisibleItems(s[0].items, role), VisibleItems(s[1].items, role),
      VisibleItems(s[2].items, role), VisibleItems(s[3].items, role), VisibleItems(s[4].items, role);
    assert VisibleTitles(s4, role) == E + [] == E;
  }

  /** A section of one item shows that item to the roles it lists. */
  lemma VisibleOne(a: NavItem, role: string)
    ensures VisibleItems([a], role) == Shown(role, a.roles, a.title)
  {
    assert [a][1..] == [];
  }

  /** A section of two items shows each to the roles it lists, in order. */
  lemma VisibleTwo(a: NavItem, b: NavItem, role: string)
    ensures VisibleItems([a, b], role) == Shown(role, a.roles, a.title) + Shown(role, b.roles, b.title)
  {
    assert [a, b][1..] == [b];
    VisibleOne(b, role);
  }

  /** The reference walk over the configuration, section by section. */
  lemma ConfigWalk(role: string)
    ensures VisibleTitles(NavigationConfig, role) ==
      Shown(role, AllRoles, "Dashboard") + ((Shown(role, StaffRoles, "Employees") + Shown(role, ["admin"], "Users")) +
      (Shown(role, AllRoles, "All Tasks") + (Shown(role, StaffRoles, "Reports") + Shown(role, AllRoles, "Profile"))))
  {
    var cfg := NavigationConfig;
    WalkFive(cfg, role);
    VisibleOne(NavItem("Dashboard", AllRoles), role);
    VisibleTwo(NavItem("Employees", StaffRoles), NavItem("Users", ["admin"]), role);
    VisibleOne(NavItem("All Tasks", AllRoles), role);
    VisibleOne(NavItem("Reports", StaffRoles), role);
    VisibleOne(NavItem("Profile", AllRoles), role);
  }

  /** What the configuration grants a role, item by item. */
  function Grants(role: string): seq<string>
  {
    Shown(role, AllRoles, "Dashboard") + ((Shown(role, StaffRoles, "Employees") + Shown(role, ["admin"], "Users")) +
    (Shown(role, AllRoles, "All Tasks") + (Shown(role, StaffRoles, "Reports") + Shown(role, AllRoles, "Profile"))))
  }

  /** The menu a role is shown is what the configuration grants it. */
  lemma MenuForRole(role: string)
    ensures ItemTitles(NavItemsForRole(NavigationConfig, role)) == Grants(role)
  {
    MenuMatchesReference(NavigationConfig, role);
    ConfigWalk(role);
  }

  lemma DeveloperGrants()
    ensures Grants("developer") == ["Dashboard", "All Tasks", "Profile"]
  {
    assert "developer" in AllRoles;
  }

  lemma StaffGrants(role: string)
    ensures "Users" in Grants(role) <==> role == "admin"
    ensures "Employees" in Grants(role) <==> role == "admin" || role == "manager"
    ensures "Reports" in Grants(role) <==> role == "admin" || role == "manager"
  {
    assert role in StaffRoles <==> role == "admin" || role == "manager";
    assert role in ["admin"] <==> role == "admin";
  }

  /** A developer is shown Dashboard, All Tasks and Profile, in that order. */
  lemma DeveloperNavigation()
    ensures ItemTitles(NavItemsForRole(NavigationConfig, "developer")) == ["Dashboard", "All Tasks", "Profile"]
  {
    MenuForRole("developer");
    DeveloperGrants();
  }

  /** Users is shown to admins only; Employees and Reports to admins and managers. */
  lemma StaffOnlyPages(role: string)
    ensures "Users" in ItemTitles(NavItemsForRole(NavigationConfig, role)) <==> role == "admin"
    ensures "Employees" in ItemTitles(NavItemsForRole(NavigationConfig, role)) <==> role == "admin" || role == "manager"
    ensures "Reports" in ItemTitles(NavItemsForRole(NavigationConfig, role)) <==> role == "admin" || role == "manager"
  {
    MenuForRole(role);
    StaffGrants(role);
  }
}

=== FILE: optional.dfy ===
/** Optional values: the `undefined`/`null`/`None` of the modelled code. */
module Optional {

  datatype Option<T> = None | Some(value: T) {

    /** The carried value, or `default` when absent (the `??` operator). */
    function GetOr(default: T): T
    {
      match this
      case Some(v) => v
      case None => default
    }
  }

  /** A response body as seen by a page: a JSON array, some other JSON value,
      or a failed request carrying its HTTP status. */
  datatype Fetched<T> = Array(items: seq<T>) | NotArray | Failed(status: int)
}

=== FILE: profile.dfy ===
/** The profile screen: avatar initials, the role badge, and the profile details
    derived from the active role. */
module Profile {
  import opened Optional
  import opened Text
  import opened Session
  import EmployeesPage
  import UsersPage
  import Navbar

  /** `getInitials`: the first character of each space-separated word,
      upper-cased, at most two. */
  function ProfileInitials(name: string): (r: string)
    ensures |r| <= 2
    ensures forall i :: 0 <= i < |r| ==> !IsLower(r[i])
  {
    var all := ToUpper(Join(EmployeesPage.Heads(Split(name, ' ')), []));
    if |all| <= 2 then all else all[..2]
  }

  /** The profile avatar is the employees screen's avatar upper-cased and cut to
      two characters. */
  lemma ProfileInitialsFromEmployees(name: string)
    ensures var e := ToUpper(EmployeesPage.Initials(name));
      ProfileInitials(name) == if |e| <= 2 then e else e[..2]
  {
    if name == [] {
      assert Split(name, ' ') == [[]];
    }
  }

  /** For a name of non-empty words, the initials are the first letters of the
      first two words, upper-cased. */
  lemma InitialsOfWords(words: seq<string>)
    requires |words| >= 2
    requires forall i :: 0 <= i < |words| ==> words[i] != [] && ' ' !in words[i]
    ensures ProfileInitials(Join(words, " ")) == [UpperChar(words[0][0]), UpperChar(words[1][0])]
  {
    var name := Join(words, " ");
    EmployeesPage.InitialsOfWords(words);
    ProfileInitialsFromEmployees(name);
    CutUpper(EmployeesPage.Firsts(words));
  }

  /** Upper-casing and keeping two characters of text at least two long. */
  lemma CutUpper(e: string)
    requires |e| >= 2
    ensures var u := ToUpper(e);
      (if |u| <= 2 then u else u[..2]) == [UpperChar(e[0]), UpperChar(e[1])]
  {
  }

  /** The badge colour here looks at the role exactly as written. */
  function BadgeTone(role: string): (t: UsersPage.Tone)
    ensures t == UsersPage.Danger <==> role == "admin"
    ensures t == UsersPage.Warning <==> role == "manager"
    ensures t == UsersPage.Success <==> role == "developer"
  {
    match role
    case "admin" => UsersPage.Danger
    case "manager" => UsersPage.Warning
    case "developer" => UsersPage.Success
    case _ => UsersPage.Muted
  }

  /** The two screens colour a role alike when it is written in lower case; the
      session always holds the role so. */
  lemma BadgeAgreesOnLowerCase(role: string)
    requires forall i :: 0 <= i < |role| ==> !IsUpper(role[i])
    ensures BadgeTone(role) == UsersPage.BadgeTone(role)
  {
    LowerFixed(role);
  }

  /** A capitalised role is coloured on the users screen but muted here. */
  lemma BadgeDiffersOnCapitalised()
    ensures BadgeTone("Admin") == UsersPage.Muted
    ensures UsersPage.BadgeTone("Admin") == UsersPage.Danger
  {
    assert ToLower("Admin") == "admin";
  }

  /** The profile details, all derived from the active role and the employee id. */
  datatype ProfileData = ProfileData(
    name: string,
    email: string,
    designation: string,
    department: string,
    managerId: Option<string>)

  function ProfileOf(u: ClientUser): (p: ProfileData)
    ensures p.email == u.empId + "@company.com"
    ensures p.managerId.None? <==> u.role == "admin"
    ensures p.managerId.Some? ==> p.managerId.value == "mgr001"
    ensures p.department == "Engineering"
    ensures u.role != "admin" && u.role != "manager" ==> p.name == "Developer User" && p.designation == "Software Developer"
  {
    if u.role == "admin" then ProfileData("Admin User", u.empId + "@company.com", "System Administrator", "Engineering", None)
    else if u.role == "manager" then ProfileData("Manager User", u.empId + "@company.com", "Project Manager", "Engineering", Some("mgr001"))
    else ProfileData("Developer User", u.empId + "@company.com", "Software Developer", "Engineering", Some("mgr001"))
  }

  /** The profile's badge text is the navbar's label of the active role. */
  function BadgeText(u: ClientUser): (t: string)
    ensures t == Navbar.RoleLabel(u.role)
    ensures u.role != "Employee" ==> (u.role == "developer" <==> t == "Employee")
  {
    if u.role == "developer" then "Employee" else u.role
  }

  /** A role that is none of the three is shown as a developer's profile but
      with its own name on a muted badge. */
  lemma UnknownRoleProfile(u: ClientUser)
    requires u.role != "admin" && u.role != "manager" && u.role != "developer"
    ensures ProfileOf(u).name == "Developer User"
    ensures BadgeText(u) == u.role && BadgeTone(u.role) == UsersPage.Muted
  {
  }
}

=== FILE: remarks_crud.dfy ===
/** The remark service: remarks on a task, each optionally carrying one stored
    file. The remark collection is a map from remark id to remark, and the file
    store a set of file ids; the ids a write creates are given to it. */
module RemarksCrud {
  import opened Optional
  import opened ServerModel

  /** An uploaded file, as far as the service reads it. */
  datatype Upload = Upload(filename: string)

  datatype Remark = Remark(
    taskId: int,
    comment: string,
    eId: int,
    fileId: Option<string>,
    fileName: Option<string>,
    createdAt: Stamp,
    updatedAt: Option<Stamp>)

  datatype Store = Store(remarks: map<string, Remark>, files: set<string>)

  /** `add_remark`: the file, when given, is stored first and referenced by id
      and name; without one both references are empty. */
  function AddRemark(st: Store, taskId: int, comment: string, eId: int, file: Option<Upload>,
                     newId: string, newFileId: string, now: Stamp): (r: (Store, Remark))
    ensures r.1.fileId.None? <==> file.None?
    ensures r.1.fileName.None? <==> file.None?
    ensures file.Some? ==> r.1.fileId == Some(newFileId) && r.1.fileName == Some(file.value.filename)
    ensures r.1.taskId == taskId && r.1.comment == comment && r.1.eId == eId && r.1.createdAt == now && r.1.updatedAt.None?
    ensures r.0.remarks == st.remarks[newId := r.1]
    ensures r.0.files == if file.Some? then st.files + {newFileId} else st.files
  {
    var remark := Remark(taskId, comment, eId,
                         if file.Some? then Some(newFileId) else None,
                         if file.Some? then Some(file.value.filename) else None,
                         now, None);
    (Store(st.remarks[newId := remark], if file.Some? then st.files + {newFileId} else st.files), remark)
  }

  /** Only this exact spelling of the role may edit other people's remarks. */
  const AdminRole := "ADMIN"

  predicate MayEdit(remark: Remark, eId: int, role: string)
  {
    role == AdminRole || remark.eId == eId
  }

  /** Python truthiness of an optional text. */
  predicate Given(v: Option<string>) { v.Some? && v.value != [] }

  /** `update_remark`: the remark must exist and the caller must be an admin or
      its author; a non-empty comment replaces the comment; a file replaces the
      old file, which is deleted; with neither, the request is refused. */
  function UpdateRemark(st: Store, id: string, comment: Option<string>, file: Option<Upload>,
                        eId: int, role: string, newFileId: string, now: Stamp): (r: Result<(Store, Remark)>)
    ensures id !in st.remarks <==> r == Err(HttpError(404, "Remark not found"))
    ensures r == Err(HttpError(403, "Not allowed to update this remark")) <==>
      id in st.remarks && !MayEdit(st.remarks[id], eId, role)
    ensures r == Err(HttpError(400, "Nothing to update")) <==>
      id in st.remarks && MayEdit(st.remarks[id], eId, role) && !Given(comment) && file.None?
    ensures r.Ok? <==> id in st.remarks && MayEdit(st.remarks[id], eId, role) && (Given(comment) || file.Some?)
    ensures r.Ok? ==> id in st.remarks && r.value.0.remarks == st.remarks[id := r.value.1]
    ensures r.Ok? ==> var old_ := st.remarks[id];
      && r.value.1.comment == (if Given(comment) then comment.value else old_.comment)
      && r.value.1.(comment := old_.comment) == old_.(fileId := r.value.1.fileId, fileName := r.value.1.fileName, updatedAt := Some(now))
      && (file.None? ==> r.value.1.fileId == old_.fileId && r.value.1.fileName == old_.fileName && r.value.0.files == st.files)
      && (file.Some? ==> r.value.1.fileId == Some(newFileId) && r.value.1.fileName == Some(file.value.filename))
      && (file.Some? ==> r.value.0.files == (if Given(old_.fileId) then st.files - {old_.fileId.value} else st.files) + {newFileId})
  {
    if id !in st.remarks then Err(HttpError(404, "Remark not found"))
    else
      var remark := st.remarks[id];
      if !MayEdit(remark, eId, role) then Err(HttpError(403, "Not allowed to update this remark"))
      else if !Given(comment) && file.None? then Err(HttpError(400, "Nothing to update"))
      else
        var withComment := if Given(comment) then remark.(comment := comment.value) else remark;
        var files := if file.Some? && Given(remark.fileId) then st.files - {remark.fileId.value} else st.files;
        var withFile := if file.Some? then withComment.(fileId := Some(newFileId), fileName := Some(file.value.filename)) else withComment;
        var files := if file.Some? then files + {newFileId} else files;
        var updated := withFile.(updatedAt := Some(now));
        Ok((Store(st.remarks[id := updated], files), updated))
  }

  /** The role test is exact: "Admin" is not an admin, so it may only edit its
      own remarks. */
  lemma RoleSpellingMatters(st: Store, id: string, eId: int, newFileId: string, now: Stamp)
    requires id in st.remarks && st.remarks[id].eId != eId
    ensures UpdateRemark(st, id, Some("note"), None, eId, "Admin", newFileId, now) ==
      Err(HttpError(403, "Not allowed to update this remark"))
    ensures UpdateRemark(st, id, Some("note"), None, eId, "ADMIN", newFileId, now).Ok?
  {
  }

  /** `delete_remark_by_id`: a missing remark raises a plain exception; otherwise
      its file, when there is one, is deleted with it. */
  function DeleteRemark(st: Store, id: string): (r: Result<(Store, string)>)
    ensures id !in st.remarks <==> r == Err(Crash("Remark not found"))
    ensures r.Ok? ==> r.value.0.remarks == st.remarks - {id} && r.value.1 == id
    ensures r.Ok? ==> r.value.0.files == if Given(st.remarks[id].fileId) then st.files - {st.remarks[id].fileId.value} else st.files
  {
    if id !in st.remarks then Err(Crash("Remark not found"))
    else
      var remark := st.remarks[id];
      var files := if Given(remark.fileId) then st.files - {remark.fileId.value} else st.files;
      Ok((Store(st.remarks - {id}, files), id))
  }

  /** The delete route reports every failure as a 404 carrying the exception's
      text. */
  function DeleteRoute(st: Store, id: string): (r: Result<(Store, string)>)
    ensures id !in st.remarks <==> r == Err(HttpError(404, "Remark not found"))
    ensures r.Ok? ==> r == DeleteRemark(st, id)
  {
    match DeleteRemark(st, id)
    case Ok(v) => Ok(v)
    case Err(f) => Err(HttpError(404, ExceptionText(f)))
  }

  /** `str(e)` of a failure, as far as the model tells it. */
  function ExceptionText(f: Failure): string
  {
    match f
    case Crash(cause) => cause
    case HttpError(_, detail) => detail
  }

  /** Every file a remark refers to is stored, and no two remarks share one. */
  predicate Consistent(st: Store)
  {
    && (forall id :: id in st.remarks && Given(st.remarks[id].fileId) ==> st.remarks[id].fileId.value in st.files)
    && (forall a, b :: a in st.remarks && b in st.remarks && a != b && Given(st.remarks[a].fileId) ==>
          st.remarks[a].fileId != st.remarks[b].fileId)
  }

  /** Adding, updating and deleting keep the file store consistent, given that
      new ids are fresh. */
  lemma AddKeepsConsistent(st: Store, taskId: int, comment: string, eId: int, file: Option<Upload>,
                           newId: string, newFileId: string, now: Stamp)
    requires Consistent(st) && newId !in st.remarks && newFileId != [] && newFileId !in st.files
    ensures Consistent(AddRemark(st, taskId, comment, eId, file, newId, newFileId, now).0)
  {
  }

  lemma UpdateKeepsConsistent(st: Store, id: string, comment: Option<string>, file: Option<Upload>,
                              eId: int, role: string, newFileId: string, now: Stamp)
    requires Consistent(st) && newFileId != [] && newFileId !in st.files
    requires UpdateRemark(st, id, comment, file, eId, role, newFileId, now).Ok?
    ensures Consistent(UpdateRemark(st, id, comment, file, eId, role, newFileId, now).value.0)
  {
    var s := UpdateRemark(st, id, comment, file, eId, role, newFileId, now).value.0;
    forall a | a in s.remarks && Given(s.remarks[a].fileId) ensures s.remarks[a].fileId.value in s.files {
      if a != id {
        assert s.remarks[a] == st.remarks[a];
        if file.Some? && Given(st.remarks[id].fileId) {
          assert st.remarks[a].fileId != st.remarks[id].fileId;
        }
      }
    }
  }

  lemma DeleteKeepsConsistent(st: Store, id: string)
    requires Consistent(st) && DeleteRemark(st, id).Ok?
    ensures Consistent(DeleteRemark(st, id).value.0)
  {
    var s := DeleteRemark(st, id).value.0;
    forall a | a in s.remarks && Given(s.remarks[a].fileId) ensures s.remarks[a].fileId.value in s.files {
      assert s.remarks[a] == st.remarks[a];
    }
  }

  /** Deleting a remark just added restores the store, file included. */
  lemma AddThenDelete(st: Store, taskId: int, comment: string, eId: int, file: Option<Upload>,
                      newId: string, newFileId: string, now: Stamp)
    requires newId !in st.remarks && newFileId != [] && newFileId !in st.files
    ensures var added := AddRemark(st, taskId, comment, eId, file, newId, newFileId, now).0;
      DeleteRemark(added, newId) == Ok((st, newId))
  {
    var added := AddRemark(st, taskId, comment, eId, file, newId, newFileId, now).0;
    assert added.remarks - {newId} == st.remarks;
  }
}

=== FILE: reports.dfy ===
/** The reports page: status and priority normalisation, the two charts' data, and
    the completion rate. */
module Reports {
  import opened Optional
  import opened Text
  import opened Tally
  import opened TaskModel
  import TasksPage

  /** `normalizeStatus`: an absent value is TO_DO; otherwise the first substring
      found among to_do (or exactly "todo"), in_progress, review and done decides;
      text matching none is upper-cased. A present value is its `String(...)`
      text; `null`, `undefined`, `false` and `""` are absent. */
  function NormalizeStatus(s: Option<string>): (r: string)
    ensures s.None? || s.value == [] ==> r == "TO_DO"
    ensures s.Some? && s.value != [] ==> r == StatusFromText(s.value)
  {
    if s.None? || s.value == [] then "TO_DO" else StatusFromText(s.value)
  }

  /** The substring tests on a present value, in the page's order: the first of
      to_do (or exactly "todo"), in_progress, review and done found in the
      lower-cased text decides, and text with none of them is upper-cased. */
  function StatusFromText(v: string): (r: string)
    ensures (Contains(ToLower(v), "to_do") || ToLower(v) == "todo") ==> r == "TO_DO"
    ensures (!HasToDo(v) && Contains(ToLower(v), "in_progress")) ==> r == "IN_PROGRESS"
    ensures (!HasToDo(v) && !Contains(ToLower(v), "in_progress") && Contains(ToLower(v), "review")) ==> r == "REVIEW"
    ensures (!HasToDo(v) && !Contains(ToLower(v), "in_progress") && !Contains(ToLower(v), "review") &&
             Contains(ToLower(v), "done")) ==> r == "DONE"
    ensures (!HasToDo(v) && !Contains(ToLower(v), "in_progress") && !Contains(ToLower(v), "review") &&
             !Contains(ToLower(v), "done")) ==> r == ToUpper(v)
  {
    var low := ToLower(v);
    if HasToDo(v) then "TO_DO"
    else if Contains(low, "in_progress") then "IN_PROGRESS"
    else if Contains(low, "review") then "REVIEW"
    else if Contains(low, "done") then "DONE"
    else ToUpper(v)
  }

  /** The first test: the text names TO_DO. */
  predicate HasToDo(v: string)
  {
    Contains(ToLower(v), "to_do") || ToLower(v) == "todo"
  }

  /** `normalizePriority`: absent is medium, anything else lower-cased. */
  function NormalizePriority(p: Option<string>): (r: string)
    ensures p.None? || p.value == [] ==> r == "medium"
    ensures p.Some? && p.value != [] ==> r == ToLower(p.value)
  {
    if p.None? || p.value == [] then "medium" else ToLower(p.value)
  }

  /** A normalized priority is already lower case. */
  lemma PriorityIsLower(p: Option<string>)
    ensures ToLower(NormalizePriority(p)) == NormalizePriority(p)
  {
    if p.Some? && p.value != [] {
      LowerIdempotent(p.value);
    } else {
      LowerFixed("medium");
    }
  }

  /** The fields of a fetched task the page reads. */
  datatype ReportTask = ReportTask(status: Option<string>, priority: Option<string>)

  function StatusKeys(list: seq<ReportTask>): (ks: seq<string>)
    ensures |ks| == |list|
    ensures forall i :: 0 <= i < |list| ==> ks[i] == NormalizeStatus(list[i].status)
  {
    if list == [] then [] else [NormalizeStatus(list[0].status)] + StatusKeys(list[1..])
  }

  function PriorityKeys(list: seq<ReportTask>): (ks: seq<string>)
    ensures |ks| == |list|
    ensures forall i :: 0 <= i < |list| ==> ks[i] == NormalizePriority(list[i].priority)
  {
    if list == [] then [] else [NormalizePriority(list[0].priority)] + PriorityKeys(list[1..])
  }

  /** The status counts: one entry per normalized status, each the number of tasks
      with it, summing to the number of tasks. */
  function StatusCounts(list: seq<ReportTask>): (t: Counts)
    ensures Total(t) == |list|
    ensures forall k :: Lookup(t, k) == Occurrences(StatusKeys(list), k)
    ensures Distinct(Keys(t))
  {
    CountKeys(StatusKeys(list))
  }

  /** The priority counts, likewise. */
  function PriorityCounts(list: seq<ReportTask>): (t: Counts)
    ensures Total(t) == |list|
    ensures forall k :: Lookup(t, k) == Occurrences(PriorityKeys(list), k)
    ensures Distinct(Keys(t))
  {
    CountKeys(PriorityKeys(list))
  }

  /** The chart label of a status key: the three canonical keys other than DONE
      get their own label, and every other key, DONE included, reads "Done". */
  function ChartLabel(k: string): (name: string)
    ensures k == "TO_DO" <==> name == "To Do"
    ensures k == "IN_PROGRESS" <==> name == "In Progress"
    ensures k == "REVIEW" <==> name == "Review"
    ensures k != "TO_DO" && k != "IN_PROGRESS" && k != "REVIEW" <==> name == "Done"
  {
    if k == "TO_DO" then "To Do"
    else if k == "IN_PROGRESS" then "In Progress"
    else if k == "REVIEW" then "Review"
    else "Done"
  }

  datatype ChartEntry = ChartEntry(name: string, value: nat)

  /** `statusArray`: one chart entry per counted key, in key order. */
  function StatusArray(t: Counts): (a: seq<ChartEntry>)
    ensures |a| == |t|
    ensures forall i :: 0 <= i < |t| ==> a[i] == ChartEntry(ChartLabel(t[i].0), t[i].1)
  {
    if t == [] then [] else [ChartEntry(ChartLabel(t[0].0), t[0].1)] + StatusArray(t[1..])
  }

  /** One bar of the priority chart. */
  datatype Bar = Bar(priority: string, count: nat)

  /** `priorityArray`: one bar per configured priority, in the configured order,
      labelled with the capitalized wire name, with a missing count read as 0. */
  function PriorityArray(t: Counts): (a: seq<Bar>)
    ensures |a| == |Priorities|
    ensures forall i :: 0 <= i < |a| ==>
      a[i] == Bar(Capitalize(PriorityName(Priorities[i])), Lookup(t, PriorityName(Priorities[i])))
  {
    Bars(t, Priorities)
  }

  function Bars(t: Counts, ps: seq<Priority>): (a: seq<Bar>)
    ensures |a| == |ps|
    ensures forall i :: 0 <= i < |a| ==> a[i] == Bar(Capitalize(PriorityName(ps[i])), Lookup(t, PriorityName(ps[i])))
  {
    if ps == [] then [] else [Bar(Capitalize(PriorityName(ps[0])), Lookup(t, PriorityName(ps[0])))] + Bars(t, ps[1..])
  }

  /** Capitalizing a wire name gives the priority's display label. */
  lemma CapitalizedLabel(p: Priority)
    ensures Capitalize(PriorityName(p)) == PriorityLabel(p)
  {
  }

  /** The chart shows high, medium and low in that order, each labelled by its
      display label and counting exactly the tasks whose normalized priority is that
      level. */
  lemma PriorityBarsCount(list: seq<ReportTask>)
    ensures var a := PriorityArray(PriorityCounts(list));
      forall i :: 0 <= i < |a| ==>
        a[i].priority == PriorityLabel(Priorities[i]) &&
        a[i].count == Occurrences(PriorityKeys(list), PriorityName(Priorities[i]))
  {
    var a := PriorityArray(PriorityCounts(list));
    forall i | 0 <= i < |a|
      ensures a[i].priority == PriorityLabel(Priorities[i])
      ensures a[i].count == Occurrences(PriorityKeys(list), PriorityName(Priorities[i]))
    {
      CapitalizedLabel(Priorities[i]);
    }
  }

  /** `r` is `100 * part / total` rounded to the nearest integer, halves up. */
  predicate RoundsTo(part: nat, total: nat, r: nat)
  {
    2 * total * r <= 200 * part + total < 2 * total * (r + 1)
  }

  /** `Math.round(100 * part / total)` on exact rationals: rounding half up. */
  function RoundPercent(part: nat, total: nat): (r: nat)
    requires total > 0
    ensures RoundsTo(part, total, r)
    ensures part <= total ==> r <= 100
  {
    var n, d := 200 * part + total, 2 * total;
    var q := n / d;
    DivBounds(n, d, q);
    PercentCap(part, total, q);
    assert RoundsTo(part, total, q);
    q
  }

  lemma PercentCap(part: nat, total: nat, q: nat)
    requires total > 0 && 2 * total * q <= 200 * part + total
    ensures part <= total ==> q <= 100
  {
    if part <= total && q > 100 {
      MulMono(2 * total, 101, q);
    }
  }

  lemma DivBounds(n: nat, d: nat, q: nat)
    requires d > 0 && q == n / d
    ensures d * q <= n < d * (q + 1)
  {
    assert n == d * q + n % d;
  }

  lemma MulMono(d: nat, a: nat, b: nat)
    requires a <= b
    ensures d * a <= d * b
  {
  }

  /** Rounding has one answer. */
  lemma RoundingUnique(part: nat, total: nat, a: nat, b: nat)
    requires total > 0 && RoundsTo(part, total, a) && RoundsTo(part, total, b)
    ensures a == b
  {
    var d := 2 * total;
    if a < b {
      MulMono(d, a + 1, b);
    } else if b < a {
      MulMono(d, b + 1, a);
    }
  }

  /** The value of the first chart entry named "Done", or 0. */
  function FirstDone(a: seq<ChartEntry>): (v: nat)
    ensures (forall i :: 0 <= i < |a| ==> a[i].name != "Done") ==> v == 0
    ensures a != [] && a[0].name == "Done" ==> v == a[0].value
  {
    if a == [] then 0 else if a[0].name == "Done" then a[0].value else FirstDone(a[1..])
  }

  /** The completion rate as written: the first entry labelled "Done" over the
      number of tasks. That entry may be an unknown status. */
  function CompletionRateAsWritten(list: seq<ReportTask>): (r: nat)
    ensures list == [] ==> r == 0
  {
    if |list| == 0 then 0
    else RoundPercent(FirstDone(StatusArray(StatusCounts(list))), |list|)
  }

  /** As written, when the first task's normalized status is not one of the three
      labelled ones, the rate is that status's share of the tasks: its entry is
      counted first and labelled "Done". */
  lemma {:induction false} FirstStatusDecidesRate(list: seq<ReportTask>)
    requires list != []
    requires ChartLabel(NormalizeStatus(list[0].status)) == "Done"
    ensures CompletionRateAsWritten(list) ==
      RoundPercent(Occurrences(StatusKeys(list), NormalizeStatus(list[0].status)), |list|)
  {
    var ks := StatusKeys(list);
    var t := StatusCounts(list);
    assert t[0].0 == ks[0];
    assert Lookup(t, t[0].0) == t[0].1;
    assert StatusArray(t)[0] == ChartEntry("Done", t[0].1);
  }

  /** Two blocked tasks and one done: the rate as written counts the blocked ones,
      which come first and are labelled "Done", and shows 67 instead of 33. */
  lemma CompletionRateCountsUnknownStatus()
    ensures CompletionRateAsWritten(BlockedExample) == 67 && CompletionRate(BlockedExample) == 33
  {
    ExampleCounts();
    AsWrittenExample();
    CorrectedExample();
  }

  lemma ExampleCounts()
    ensures Occurrences(StatusKeys(BlockedExample), "BLOCKED") == 2
    ensures DoneCount(BlockedExample) == 1
    ensures NormalizeStatus(BlockedExample[0].status) == "BLOCKED"
    ensures ChartLabel(NormalizeStatus(BlockedExample[0].status)) == "Done"
  {
    ExampleKeys();
    BlockedIsUnknown();
    var ks: seq<string> := ["BLOCKED", "BLOCKED", "DONE"];
    assert multiset(ks) == multiset{"BLOCKED", "BLOCKED", "DONE"};
  }

  lemma AsWrittenExample()
    ensures CompletionRateAsWritten(BlockedExample) == 67
  {
    ExampleCounts();
    FirstStatusDecidesRate(BlockedExample);
    TwoThirds();
  }

  lemma TwoThirds()
    ensures RoundPercent(2, 3) == 67
  {
    assert RoundsTo(2, 3, RoundPercent(2, 3));
  }

  lemma CorrectedExample()
    ensures CompletionRate(BlockedExample) == 33
  {
    var r := CompletionRate(BlockedExample);
    assert DoneCount(BlockedExample) == 1 by { ExampleCounts(); }
    assert RoundsTo(1, 3, r);
    assert 6 * r <= 203 < 6 * r + 6;
  }

  const BlockedExample := [ReportTask(Some("blocked"), None), ReportTask(Some("blocked"), None), ReportTask(Some("done"), None)]

  lemma ExampleKeys()
    ensures StatusKeys(BlockedExample) == ["BLOCKED", "BLOCKED", "DONE"]
  {
    BlockedIsUnknown();
    DoneIsDone();
  }

  lemma BlockedIsUnknown()
    ensures NormalizeStatus(Some("blocked")) == "BLOCKED"
  {
    LowerFixed("blocked");
    BlockedWords();
    UpperBlocked();
    ReadLowered("blocked", "blocked");
  }

  /** None of the four status words occurs in "blocked". */
  lemma BlockedWords()
    ensures !Contains("blocked", "to_do") && !Contains("blocked", "in_progress")
    ensures !Contains("blocked", "review") && !Contains("blocked", "done")
  {
    MissingCharNotContained("blocked", "to_do", '_');
    MissingCharNotContained("blocked", "in_progress", '_');
    MissingCharNotContained("blocked", "review", 'v');
    MissingCharNotContained("blocked", "done", 'n');
  }

  lemma UpperBlocked()
    ensures ToUpper("blocked") == "BLOCKED"
  {
  }

  lemma DoneIsDone()
    ensures NormalizeStatus(Some("done")) == "DONE"
  {
    DoneDecides();
  }

  /** The substring tests read through the lower-cased text `low`. */
  lemma ReadLowered(v: string, low: string)
    requires ToLower(v) == low
    ensures StatusFromText(v) ==
      if Contains(low, "to_do") || low == "todo" then "TO_DO"
      else if Contains(low, "in_progress") then "IN_PROGRESS"
      else if Contains(low, "review") then "REVIEW"
      else if Contains(low, "done") then "DONE"
      else ToUpper(v)
  {
  }

  /** The completion rate with DONE counted on its own: the share of tasks whose
      normalized status is DONE, rounded, and 0 without tasks. */
  function CompletionRate(list: seq<ReportTask>): (r: nat)
    ensures list == [] ==> r == 0
    ensures list != [] ==> r <= 100
    ensures list != [] ==> RoundsTo(DoneCount(list), |list|, r)
  {
    if |list| == 0 then 0
    else
      var done := Lookup(StatusCounts(list), "DONE");
      DoneLookup(list);
      OccurrencesBound(StatusKeys(list), "DONE");
      RoundPercent(done, |list|)
  }

  /** The DONE entry of the status counts is the number of DONE tasks. */
  lemma DoneLookup(list: seq<ReportTask>)
    ensures Lookup(StatusCounts(list), "DONE") == DoneCount(list)
  {
  }

  /** The number of tasks whose normalized status is DONE. */
  function DoneCount(list: seq<ReportTask>): nat
  {
    Occurrences(StatusKeys(list), "DONE")
  }

  lemma OccurrencesBound(ks: seq<string>, k: string)
    ensures Occurrences(ks, k) <= |ks|
  {
    assert multiset(ks)[k] <= |multiset(ks)|;
  }

  /** The rate as written is still a percentage: any entry's count is at most the
      number of tasks. */
  lemma CompletionRateAsWrittenBounded(list: seq<ReportTask>)
    ensures CompletionRateAsWritten(list) <= 100
  {
    if list != [] {
      var t := StatusCounts(list);
      FirstDoneBounded(StatusArray(t), t);
    }
  }

  lemma {:induction false} FirstDoneBounded(a: seq<ChartEntry>, t: Counts)
    requires a == StatusArray(t)
    ensures FirstDone(a) <= Total(t)
  {
    if a != [] {
      assert a[1..] == StatusArray(t[1..]);
      FirstDoneBounded(a[1..], t[1..]);
    }
  }

  /** When every status is canonical, the two readings agree. */
  lemma CanonicalKeysAgree(list: seq<ReportTask>)
    requires forall i :: 0 <= i < |list| ==> IsCanonical(NormalizeStatus(list[i].status))
    ensures CompletionRateAsWritten(list) == CompletionRate(list)
  {
    if list != [] {
      var t := StatusCounts(list);
      CountedKeysCanonical(list);
      FirstDoneIsDone(t);
      assert Lookup(t, "DONE") == DoneCount(list);
    }
  }

  predicate IsCanonical(k: string)
  {
    k == "TO_DO" || k == "IN_PROGRESS" || k == "REVIEW" || k == "DONE"
  }

  lemma CountedKeysCanonical(list: seq<ReportTask>)
    requires forall i :: 0 <= i < |list| ==> IsCanonical(NormalizeStatus(list[i].status))
    ensures forall i :: 0 <= i < |StatusCounts(list)| ==> IsCanonical(StatusCounts(list)[i].0)
  {
    var t := StatusCounts(list);
    var ks := StatusKeys(list);
    forall i | 0 <= i < |t| ensures IsCanonical(t[i].0) {
      assert Keys(t)[i] == t[i].0;
      assert t[i].0 in Keys(t);
      assert t[i].0 in ks;
      var j :| 0 <= j < |ks| && ks[j] == t[i].0;
      assert ks[j] == NormalizeStatus(list[j].status);
    }
  }

  lemma {:induction false} FirstDoneIsDone(t: Counts)
    requires forall i :: 0 <= i < |t| ==> IsCanonical(t[i].0)
    ensures FirstDone(StatusArray(t)) == Lookup(t, "DONE")
  {
    if t != [] {
      assert StatusArray(t)[1..] == StatusArray(t[1..]);
      FirstDoneIsDone(t[1..]);
    }
  }

  /** The backend spellings and the canonical names are read as the status they
      name. */
  lemma ReadsKnownSpellings(st: Status)
    ensures NormalizeStatus(Some(TasksPage.WireStatus(st))) == StatusName(st)
    ensures NormalizeStatus(Some(StatusName(st))) == StatusName(st)
  {
    TasksPage.WireIsLowerName(st);
    TasksPage.CaseFixedPoints(st);
    WireDecides(st);
  }

  /** The substring tests pick out each backend spelling as its own status. */
  lemma WireDecides(st: Status)
    ensures StatusFromText(TasksPage.WireStatus(st)) == StatusName(st)
  {
    match st
    case ToDo => ToDoDecides();
    case InProgress => InProgressDecides();
    case Review => ReviewDecides();
    case Done => DoneDecides();
  }

  lemma ToDoDecides()
    ensures StatusFromText("to_do") == "TO_DO"
  {
    LowerFixed("to_do");
    ContainsSelf("to_do");
    ReadLowered("to_do", "to_do");
  }

  lemma InProgressDecides()
    ensures StatusFromText("in_progress") == "IN_PROGRESS"
  {
    LowerFixed("in_progress");
    InProgressWords();
    ReadLowered("in_progress", "in_progress");
  }

  lemma InProgressWords()
    ensures !Contains("in_progress", "to_do") && Contains("in_progress", "in_progress")
  {
    MissingCharNotContained("in_progress", "to_do", 't');
    ContainsSelf("in_progress");
  }

  lemma ReviewDecides()
    ensures StatusFromText("review") == "REVIEW"
  {
    LowerFixed("review");
    ReviewWords();
    ReadLowered("review", "review");
  }

  lemma ReviewWords()
    ensures !Contains("review", "to_do") && !Contains("review", "in_progress") && Contains("review", "review")
  {
    MissingCharNotContained("review", "to_do", '_');
    MissingCharNotContained("review", "in_progress", '_');
    ContainsSelf("review");
  }

  lemma DoneDecides()
    ensures StatusFromText("done") == "DONE"
  {
    LowerFixed("done");
    DoneWords();
    ReadLowered("done", "done");
  }

  lemma DoneWords()
    ensures !Contains("done", "to_do") && !Contains("done", "in_progress") && !Contains("done", "review")
    ensures Contains("done", "done")
  {
    MissingCharNotContained("done", "to_do", '_');
    MissingCharNotContained("done", "in_progress", '_');
    MissingCharNotContained("done", "review", 'v');
    ContainsSelf("done");
  }

  /** On the backend's spellings and the canonical names, the reports page and the
      tasks page read a status alike. */
  lemma AgreesWithTasksPage(st: Status)
    ensures NormalizeStatus(Some(TasksPage.WireStatus(st))) == TasksPage.NormalizeStatusFromBackend(Some(TasksPage.WireStatus(st)))
    ensures NormalizeStatus(Some(StatusName(st))) == TasksPage.NormalizeStatusFromBackend(Some(StatusName(st)))
  {
    ReadsKnownSpellings(st);
    TasksPage.NormalizeWire(st);
    TasksPage.NormalizeCanonical(st);
  }

  /** Elsewhere they differ: the reports page matches substrings, so "undone" is
      counted as DONE while the tasks page shows it as UNDONE. */
  lemma SubstringReadingDiffers()
    ensures NormalizeStatus(Some("undone")) == "DONE"
    ensures TasksPage.NormalizeStatusFromBackend(Some("undone")) == "UNDONE"
  {
    UndoneContainsDone();
    UndoneUpper();
  }

  lemma UndoneContainsDone()
    ensures StatusFromText("undone") == "DONE"
  {
    LowerFixed("undone");
    UndoneWords();
    ReadLowered("undone", "undone");
  }

  lemma UndoneWords()
    ensures !Contains("undone", "to_do") && !Contains("undone", "in_progress") && !Contains("undone", "review")
    ensures Contains("undone", "done")
  {
    assert OccursAt("undone", "done", 2);
    MissingCharNotContained("undone", "to_do", '_');
    MissingCharNotContained("undone", "in_progress", '_');
    MissingCharNotContained("undone", "review", 'v');
  }

  lemma UndoneUpper()
    ensures ToLower("undone") == "undone"
    ensures ToUpper("undone") == "UNDONE"
  {
    LowerFixed("undone");
  }
}

=== FILE: seqs.dfy ===
/** Order-preserving list transforms shared by the pages and the backend: `filter`,
    `find`, and `map` that rewrites only the entries a predicate selects. */
module Seqs {
  import opened Optional

  /** `a` can be obtained from `b` by deleting entries, keeping order. */
  predicate IsSubsequence<T(==)>(a: seq<T>, b: seq<T>)
    decreases |b|
  {
    if b == [] then a == []
    else (a != [] && a[0] == b[0] && IsSubsequence(a[1..], b[1..])) || IsSubsequence(a, b[1..])
  }

  /** `Array.prototype.filter` / a list comprehension with a condition. */
  function Filter<T(==,!new)>(s: seq<T>, p: T -> bool): (r: seq<T>)
    ensures |r| <= |s|
    ensures IsSubsequence(r, s)
    ensures forall x :: x in r <==> x in s && p(x)
    ensures forall x :: multiset(r)[x] == if p(x) then multiset(s)[x] else 0
  {
    if s == [] then []
    else
      assert s == [s[0]] + s[1..];
      if p(s[0]) then [s[0]] + Filter(s[1..], p) else Filter(s[1..], p)
  }

  /** Deleting entries adds no new ones. */
  lemma {:induction false} SubsequenceMembers<T>(a: seq<T>, b: seq<T>, x: T)
    requires IsSubsequence(a, b) && x in a
    ensures x in b
    decreases |b|
  {
    if a[0] == b[0] && IsSubsequence(a[1..], b[1..]) {
      if x != a[0] {
        SubsequenceMembers(a[1..], b[1..], x);
      }
    } else {
      SubsequenceMembers(a, b[1..], x);
    }
  }

  /** Filtering a list with a known head. */
  lemma FilterCons<T(!new)>(x: T, s: seq<T>, p: T -> bool)
    ensures Filter([x] + s, p) == (if p(x) then [x] else []) + Filter(s, p)
  {
    assert ([x] + s)[1..] == s;
  }

  /** Deleting entries twice is deleting entries once. */
  lemma {:induction false} SubsequenceTransitive<T>(a: seq<T>, b: seq<T>, c: seq<T>)
    requires IsSubsequence(a, b) && IsSubsequence(b, c)
    ensures IsSubsequence(a, c)
    decreases |c|
  {
    if c != [] {
      if b != [] && b[0] == c[0] && IsSubsequence(b[1..], c[1..]) {
        if a != [] && a[0] == b[0] && IsSubsequence(a[1..], b[1..]) {
          SubsequenceTransitive(a[1..], b[1..], c[1..]);
        } else {
          SubsequenceTransitive(a, b[1..], c[1..]);
        }
      } else {
        SubsequenceTransitive(a, b, c[1..]);
      }
    }
  }

  /** Filtering a concatenation filters each part. */
  lemma {:induction false} FilterAppend<T(!new)>(a: seq<T>, b: seq<T>, p: T -> bool)
    ensures Filter(a + b, p) == Filter(a, p) + Filter(b, p)
    decreases |a|
  {
    if a == [] {
      assert a + b == b;
    } else {
      var ab := a + b;
      assert ab[0] == a[0];
      assert ab[1..] == a[1..] + b;
      FilterAppend(a[1..], b, p);
      if p(a[0]) {
        calc {
          Filter(ab, p);
          [a[0]] + Filter(a[1..] + b, p);
          [a[0]] + (Filter(a[1..], p) + Filter(b, p));
          ([a[0]] + Filter(a[1..], p)) + Filter(b, p);
        }
      }
    }
  }

  /** Filtering with a condition every entry meets keeps the whole list. */
  lemma {:induction false} FilterAll<T(!new)>(s: seq<T>, p: T -> bool)
    requires forall i :: 0 <= i < |s| ==> p(s[i])
    ensures Filter(s, p) == s
  {
    if s != [] {
      FilterAll(s[1..], p);
    }
  }

  /** `Array.prototype.map` / a list comprehension without a condition. */
  function Map<A, B>(s: seq<A>, f: A -> B): (r: seq<B>)
    ensures |r| == |s|
    ensures forall i :: 0 <= i < |s| ==> r[i] == f(s[i])
  {
    if s == [] then [] else [f(s[0])] + Map(s[1..], f)
  }

  /** `xs.map(x => sel(x) ? f(x) : x)`: selected entries are rewritten in place,
      the others are kept. */
  function MapWhere<T>(s: seq<T>, sel: T -> bool, f: T -> T): (r: seq<T>)
    ensures |r| == |s|
    ensures forall i :: 0 <= i < |s| ==> r[i] == if sel(s[i]) then f(s[i]) else s[i]
  {
    if s == [] then [] else [if sel(s[0]) then f(s[0]) else s[0]] + MapWhere(s[1..], sel, f)
  }

  /** When nothing is selected the list is unchanged. */
  lemma MapWhereNone<T>(s: seq<T>, sel: T -> bool, f: T -> T)
    requires forall i :: 0 <= i < |s| ==> !sel(s[i])
    ensures MapWhere(s, sel, f) == s
  {
  }

  /** The first element satisfying `p`, as `Array.prototype.find` and a query's
      `.first()` return it. */
  function FindFirst<T>(s: seq<T>, p: T -> bool): (r: Option<T>)
    ensures r.None? <==> forall i :: 0 <= i < |s| ==> !p(s[i])
    ensures r.Some? ==> p(r.value) && exists i :: (0 <= i < |s| && s[i] == r.value &&
      forall j :: 0 <= j < i ==> !p(s[j]))
  {
    if s == [] then None
    else if p(s[0]) then Some(s[0])
    else
      var r := FindFirst(s[1..], p);
      if r.None? then r
      else
        ghost var i :| 0 <= i < |s[1..]| && s[1..][i] == r.value &&
          forall j :: 0 <= j < i ==> !p(s[1..][j]);
        assert s[i + 1] == r.value;
        assert forall j :: 0 <= j < i + 1 ==> !p(s[j]) by {
          forall j | 0 < j < i + 1 ensures !p(s[j]) {
            assert s[j] == s[1..][j - 1];
          }
        }
        r
  }
}

=== FILE: server_model.dfy ===
/** The backend's vocabulary: request outcomes, the stored task row, the
    authenticated caller, and Python truthiness. */
module ServerModel {
  import opened Optional

  /** Why a request failed: an `HTTPException` the code raises on purpose, or any
      other exception (an attribute read on `None`, a missing dictionary key). */
  datatype Failure = HttpError(code: int, detail: string) | Crash(cause: string)

  datatype Result<T> = Ok(value: T) | Err(failure: Failure)

  /** Clock readings are opaque. */
  type Stamp = string

  /** A row of the task table. `t_id` is its primary key. */
  datatype StoredTask = StoredTask(
    tId: int,
    title: string,
    description: string,
    assignedTo: Option<int>,
    assignedBy: Option<int>,
    assignedAt: Option<Stamp>,
    updatedBy: Option<int>,
    updatedAt: Option<Stamp>,
    priority: Option<string>,
    status: Option<string>,
    reviewer: Option<int>,
    createdBy: Option<int>,
    expectedClosure: Option<Stamp>,
    actualClosure: Option<Stamp>)

  /** The caller as the token dependency resolves it. */
  datatype ServerUser = ServerUser(eId: int, roles: seq<string>)

  /** A store after a write, with the row that was written. */
  datatype Saved = Saved(store: seq<StoredTask>, task: StoredTask)

  /** Python truthiness of an optional id: `None` and `0` are false. */
  predicate IdTruthy(v: Option<int>) { v.Some? && v.value != 0 }

  /** Python truthiness of an optional text or stamp: `None` and `""` are false. */
  predicate TextTruthy(v: Option<string>) { v.Some? && v.value != [] }

  /** How the routers turn a failure into a response: an `HTTPException` passes
      through, anything else becomes a 500. */
  function Surface(f: Failure): (r: Failure)
    ensures r.HttpError?
    ensures f.HttpError? ==> r == f
    ensures f.Crash? ==> r.code == 500
  {
    match f
    case HttpError(_, _) => f
    case Crash(cause) => HttpError(500, "Internal Server Error: " + cause)
  }
}

=== FILE: session.dfy ===
/** The client session: the logged-in user, its stored copy, login, role switching,
    logout and start-up hydration. The stored copy stands for the "user" entry of the
    browser's local storage. */
module Session {
  import opened Optional
  import opened Text

  /** The logged-in user as the client keeps it. `role` is the active role
      ("view as"); `roles` are all roles the backend granted, lower-cased. */
  datatype ClientUser = ClientUser(
    empId: string,
    role: string,
    roles: Option<seq<string>>,
    name: Option<string>,
    token: string)

  /** The text under the storage key: the serialization of a user, JSON text whose
      value is `null` (such as "null"), or text that does not parse. Serialization
      itself is not interpreted. */
  datatype StoredText = Serialized(user: ClientUser) | ParsesToNull(text: string) | Unparsable(text: string)

  /** The session: the user in memory and the stored copy. */
  datatype AuthState = AuthState(user: Option<ClientUser>, stored: Option<StoredText>)

  /** `role?.toLowerCase() || "developer"`: an absent or empty backend role reads as
      developer. */
  function MapBackendRoleToFrontend(role: Option<string>): (r: string)
    ensures role.Some? && role.value != [] ==> r == ToLower(role.value)
    ensures role.None? || role.value == [] ==> r == "developer"
    ensures r != []
  {
    match role
    case None => "developer"
    case Some(x) => if ToLower(x) == [] then "developer" else ToLower(x)
  }

  /** The `roles` value of a login response: an array whose entries may be null, or
      anything that is not an array. */
  datatype BackendRoles = RolesArray(items: seq<Option<string>>) | RolesNotArray

  /** The parts of a login response the client reads. */
  datatype LoginResponse = LoginResponse(accessToken: string, eId: string, roles: BackendRoles)

  /** Lower-cases each backend role, null becoming ""; a non-array becomes
      ["developer"]. */
  function MapLoginRoles(roles: BackendRoles): (r: seq<string>)
    ensures roles.RolesNotArray? ==> r == ["developer"]
    ensures roles.RolesArray? ==> |r| == |roles.items|
    ensures roles.RolesArray? ==> forall i :: 0 <= i < |r| ==>
      r[i] == ToLower(roles.items[i].GetOr(""))
  {
    match roles
    case RolesNotArray => ["developer"]
    case RolesArray(items) => LowerAll(items)
  }

  function LowerAll(items: seq<Option<string>>): (r: seq<string>)
    ensures |r| == |items|
    ensures forall i :: 0 <= i < |r| ==> r[i] == ToLower(items[i].GetOr(""))
  {
    if items == [] then [] else [ToLower(items[0].GetOr(""))] + LowerAll(items[1..])
  }

  /** A successful login: the user holds the mapped roles, the first of them (or
      "developer" when there are none) is active, and the stored copy is the same
      record. */
  function Login(resp: LoginResponse): (st: AuthState)
    ensures st.user.Some? && st.stored == Some(Serialized(st.user.value))
    ensures st.user.value.empId == resp.eId && st.user.value.token == resp.accessToken
    ensures st.user.value.roles == Some(MapLoginRoles(resp.roles))
    ensures |MapLoginRoles(resp.roles)| > 0 ==> st.user.value.role == MapLoginRoles(resp.roles)[0]
    ensures |MapLoginRoles(resp.roles)| == 0 ==> st.user.value.role == "developer"
    ensures st.user.value.role in MapLoginRoles(resp.roles) || MapLoginRoles(resp.roles) == []
  {
    var mapped := MapLoginRoles(resp.roles);
    var active := if |mapped| > 0 then mapped[0] else "developer";
    var u := ClientUser(resp.eId, active, Some(mapped), None, resp.accessToken);
    AuthState(Some(u), Some(Serialized(u)))
  }

  /** After login the employee record is looked up: `name || full_name`, when
      present and non-empty, is added to the user and to the stored copy. */
  function AttachName(st: AuthState, name: Option<string>, fullName: Option<string>): (r: AuthState)
    requires st.user.Some?
    ensures var n := if name.GetOr("") != [] then name else fullName;
      if n.GetOr("") != [] then
        r.user == Some(st.user.value.(name := n)) && r.stored == Some(Serialized(r.user.value))
      else r == st
  {
    var n := if name.GetOr("") != [] then name else fullName;
    if n.GetOr("") != [] then
      var u := st.user.value.(name := n);
      AuthState(Some(u), Some(Serialized(u)))
    else st
  }

  /** Changes only the active role, without checking it against `roles`, and stores
      the same record. Without a user nothing happens. */
  function SwitchRole(st: AuthState, newRole: string): (r: AuthState)
    ensures st.user.None? ==> r == st
    ensures st.user.Some? ==> r.user.Some? && r.user.value.role == newRole
    ensures st.user.Some? ==> r.user.value.(role := st.user.value.role) == st.user.value
    ensures st.user.Some? ==> r.stored == Some(Serialized(r.user.value))
  {
    match st.user
    case None => st
    case Some(u) =>
      var v := u.(role := newRole);
      AuthState(Some(v), Some(Serialized(v)))
  }

  /** Clears the user and the stored copy. */
  function Logout(st: AuthState): (r: AuthState)
    ensures r.user.None? && r.stored.None?
  {
    AuthState(None, None)
  }

  /** Start-up: a stored copy that parses becomes the user (a parsed `null` leaves
      the user absent and the entry in place); one that does not parse is removed
      and the user stays absent; an absent or empty entry is left alone. */
  function Hydrate(stored: Option<StoredText>): (st: AuthState)
    ensures stored.Some? && stored.value.Serialized? ==> st == AuthState(Some(stored.value.user), stored)
    ensures stored.Some? && stored.value.ParsesToNull? ==> st == AuthState(None, stored)
    ensures stored.Some? && stored.value.Unparsable? && stored.value.text != [] ==> st == AuthState(None, None)
    ensures stored.None? || (stored.value.Unparsable? && stored.value.text == []) ==> st == AuthState(None, stored)
  {
    match stored
    case None => AuthState(None, stored)
    case Some(Serialized(u)) => AuthState(Some(u), stored)
    case Some(ParsesToNull(_)) => AuthState(None, stored)
    case Some(Unparsable(t)) => if t == [] then AuthState(None, stored) else AuthState(None, None)
  }

  /** Whatever was stored, a session after start-up never holds a user without a
      stored copy of it. */
  lemma HydrateConsistent(stored: Option<StoredText>)
    ensures var st := Hydrate(stored); st.user.Some? ==> st.stored == Some(Serialized(st.user.value))
  {
  }

  /** Start-up is stable: hydrating from what a start-up left stored gives the same
      session again. */
  lemma HydrateTwice(stored: Option<StoredText>)
    ensures Hydrate(Hydrate(stored).stored) == Hydrate(stored)
  {
  }

  /** Switching role and switching back restores the session. */
  lemma SwitchRoleBack(st: AuthState, newRole: string)
    requires st.user.Some? && st.stored == Some(Serialized(st.user.value))
    ensures SwitchRole(SwitchRole(st, newRole), st.user.value.role) == st
  {
  }
}

=== FILE: tally.dfy ===
/** Counting into a plain object: `counts[k] = (counts[k] || 0) + 1`, with the keys
    kept in the order they were first counted. */
module Tally {

  /** A counting object as its entries. */
  type Counts = seq<(string, nat)>

  function Keys(t: Counts): (ks: seq<string>)
    ensures |ks| == |t|
    ensures forall i :: 0 <= i < |t| ==> ks[i] == t[i].0
  {
    if t == [] then [] else [t[0].0] + Keys(t[1..])
  }

  predicate Distinct(ks: seq<string>)
  {
    forall i, j :: 0 <= i < j < |ks| ==> ks[i] != ks[j]
  }

  /** `counts[k] || 0`. */
  function Lookup(t: Counts, k: string): nat
  {
    if t == [] then 0 else if t[0].0 == k then t[0].1 else Lookup(t[1..], k)
  }

  /** The sum of the counts. */
  function Total(t: Counts): nat
  {
    if t == [] then 0 else t[0].1 + Total(t[1..])
  }

  /** One increment: an existing key goes up by one in place; a new key is
      appended with count 1. */
  function Bump(t: Counts, k: string): (r: Counts)
    ensures Keys(r) == Keys(t) + (if k in Keys(t) then [] else [k])
  {
    if t == [] then [(k, 1)]
    else if t[0].0 == k then
      assert Keys(t)[1..] == Keys(t[1..]);
      [(k, t[0].1 + 1)] + t[1..]
    else
      assert Keys(t)[1..] == Keys(t[1..]);
      var rest := Bump(t[1..], k);
      var r := [t[0]] + rest;
      assert r[1..] == rest;
      r
  }

  /** An increment keeps the keys distinct. */
  lemma BumpDistinct(t: Counts, k: string)
    requires Distinct(Keys(t))
    ensures Distinct(Keys(Bump(t, k)))
  {
    var ks := Keys(t) + (if k in Keys(t) then [] else [k]);
    assert Keys(Bump(t, k)) == ks;
  }

  /** An increment adds one to `k`'s count and leaves every other count alone. */
  lemma {:induction false} BumpLookup(t: Counts, k: string, x: string)
    requires Distinct(Keys(t))
    ensures Lookup(Bump(t, k), x) == Lookup(t, x) + (if x == k then 1 else 0)
  {
    if t != [] {
      assert Keys(t)[1..] == Keys(t[1..]);
      if t[0].0 == k {
        LookupAbsent(t[1..], k);
        assert Bump(t, k)[1..] == t[1..];
      } else {
        BumpLookup(t[1..], k, x);
        assert Bump(t, k)[1..] == Bump(t[1..], k);
      }
    }
  }

  /** An increment adds one to the total. */
  lemma {:induction false} BumpTotal(t: Counts, k: string)
    ensures Total(Bump(t, k)) == Total(t) + 1
  {
    if t != [] {
      if t[0].0 == k {
        assert Bump(t, k)[1..] == t[1..];
      } else {
        BumpTotal(t[1..], k);
        assert Bump(t, k)[1..] == Bump(t[1..], k);
      }
    }
  }

  /** An increment keeps every count positive. */
  lemma {:induction false} BumpPositive(t: Counts, k: string)
    requires forall i :: 0 <= i < |t| ==> t[i].1 >= 1
    ensures forall i :: 0 <= i < |Bump(t, k)| ==> Bump(t, k)[i].1 >= 1
  {
    if t != [] && t[0].0 != k {
      BumpPositive(t[1..], k);
      assert Bump(t, k)[1..] == Bump(t[1..], k);
    }
  }

  /** A key that is not there counts zero. */
  lemma {:induction false} LookupAbsent(t: Counts, k: string)
    requires k !in Keys(t)
    ensures Lookup(t, k) == 0
  {
    if t != [] {
      assert Keys(t)[1..] == Keys(t[1..]);
      LookupAbsent(t[1..], k);
    }
  }

  /** How often `k` occurs among the counted keys. */
  function Occurrences(keys: seq<string>, k: string): nat
  {
    multiset(keys)[k]
  }

  /** Counting a list of keys, front to back. */
  function CountKeys(keys: seq<string>): (t: Counts)
    ensures Distinct(Keys(t))
    ensures forall k :: Lookup(t, k) == Occurrences(keys, k)
    ensures Total(t) == |keys|
    ensures forall i :: 0 <= i < |t| ==> t[i].1 >= 1
    ensures forall k :: k in Keys(t) <==> k in keys
    ensures keys != [] ==> t != [] && t[0].0 == keys[0]
  {
    if keys == [] then []
    else
      var n := |keys| - 1;
      assert keys == keys[..n] + [keys[n]];
      var t := Bump(CountKeys(keys[..n]), keys[n]);
      var prev := CountKeys(keys[..n]);
      BumpDistinct(prev, keys[n]);
      forall x ensures Lookup(t, x) == Lookup(prev, x) + (if x == keys[n] then 1 else 0) {
        BumpLookup(prev, keys[n], x);
      }
      BumpTotal(prev, keys[n]);
      BumpPositive(prev, keys[n]);
      assert forall k :: k in keys <==> k in keys[..n] || k == keys[n];
      t
  }
}

=== FILE: task_crud.dfy ===
/** The task service: creation, role-scoped listing, field updates, the status
    patch, and deletion. Writes that fail leave the store as it was, since the
    session is not committed. */
module TaskCrud {
  import opened Optional
  import opened Text
  import opened Seqs
  import opened TaskModel
  import opened Transitions
  import opened ServerModel

  /** The row a query by primary key finds. */
  function Lookup(store: seq<StoredTask>, id: int): (r: Option<StoredTask>)
    ensures r.None? <==> forall i :: 0 <= i < |store| ==> store[i].tId != id
    ensures r.Some? ==> r.value.tId == id && r.value in store
  {
    FindFirst(store, (t: StoredTask) => t.tId == id)
  }

  /** Writes `row` back under its key, leaving every other row in place. */
  function Put(store: seq<StoredTask>, row: StoredTask): (r: seq<StoredTask>)
    ensures |r| == |store|
    ensures forall i :: 0 <= i < |store| ==> r[i] == if store[i].tId == row.tId then row else store[i]
  {
    MapWhere(store, (t: StoredTask) => t.tId == row.tId, (t: StoredTask) => row)
  }

  predicate IsCreatorRole(role: string) { role == "Admin" || role == "Manager" }

  const NotAuthorized := "Not Authorized"
  const TaskNotFound := "Task Not Found"

  /** `add_task`: only Admin and Manager may create. The creator is always the
      caller, the key is the one the database assigns, and `assigned_at` is the
      current time exactly when the payload names an assignee. */
  function AddTask(store: seq<StoredTask>, payload: StoredTask, role: string, user: ServerUser,
                   newId: int, now: Stamp): (r: Result<Saved>)
    ensures !IsCreatorRole(role) <==> r == Err(HttpError(400, NotAuthorized))
    ensures IsCreatorRole(role) ==> r.Ok?
    ensures r.Ok? ==>
      && r.value.store == store + [r.value.task]
      && r.value.task.tId == newId
      && r.value.task.createdBy == Some(user.eId)
      && r.value.task.assignedAt == (if IdTruthy(payload.assignedTo) then Some(now) else payload.assignedAt)
      && r.value.task.(tId := payload.tId, createdBy := payload.createdBy, assignedAt := payload.assignedAt) == payload
  {
    if !IsCreatorRole(role) then Err(HttpError(400, NotAuthorized))
    else
      var row := payload.(tId := newId, createdBy := Some(user.eId));
      var row := if IdTruthy(row.assignedTo) then row.(assignedAt := Some(now)) else row;
      Ok(Saved(store + [row], row))
  }

  /** A task is in the caller's own list when it is assigned to them. */
  predicate AssignedTo(t: StoredTask, user: ServerUser) { t.assignedTo == Some(user.eId) }

  /** `get_all_tasks`: a Manager or Admin who holds that role sees every row; any
      other role the caller holds sees only the rows assigned to them; a role the
      caller does not hold is refused. */
  function GetAllTasks(store: seq<StoredTask>, role: string, user: ServerUser): (r: Result<seq<StoredTask>>)
    ensures r.Err? <==> role !in user.roles
    ensures r.Err? ==> r == Err(HttpError(403, NotAuthorized))
    ensures r.Ok? && IsCreatorRole(role) ==> r.value == store
    ensures r.Ok? && !IsCreatorRole(role) ==>
      IsSubsequence(r.value, store) && (forall t :: t in r.value <==> t in store && AssignedTo(t, user)) &&
      forall t :: multiset(r.value)[t] == if AssignedTo(t, user) then multiset(store)[t] else 0
  {
    if role == "Manager" then
      if "Manager" in user.roles then Ok(store) else Err(HttpError(403, NotAuthorized))
    else if role == "Admin" then
      if "Admin" in user.roles then Ok(store) else Err(HttpError(403, NotAuthorized))
    else if role in user.roles then Ok(Filter(store, (t: StoredTask) => AssignedTo(t, user)))
    else Err(HttpError(403, NotAuthorized))
  }

  /** `get_task_by_status`: the caller's list narrowed to one exact status, in
      order; it fails exactly when the list does. */
  function GetTaskByStatus(store: seq<StoredTask>, status: string, role: string, user: ServerUser): (r: Result<seq<StoredTask>>)
    ensures r.Err? <==> GetAllTasks(store, role, user).Err?
    ensures r.Err? ==> r == GetAllTasks(store, role, user)
    ensures r.Ok? ==>
      var all := GetAllTasks(store, role, user).value;
      IsSubsequence(r.value, all) && (forall t :: t in r.value <==> t in all && t.status == Some(status)) &&
      forall t :: multiset(r.value)[t] == if t.status == Some(status) then multiset(all)[t] else 0
  {
    match GetAllTasks(store, role, user)
    case Err(f) => Err(f)
    case Ok(all) => Ok(Filter(all, (t: StoredTask) => t.status == Some(status)))
  }

  /** The keys an update request may carry; an absent key is `None`, and a present
      one carries the value to store, which may itself be null. */
  datatype TaskUpdate = TaskUpdate(
    title: Option<string>,
    description: Option<string>,
    assignedTo: Option<Option<int>>,
    assignedBy: Option<Option<int>>,
    assignedAt: Option<Option<Stamp>>,
    updatedBy: Option<Option<int>>,
    priority: Option<Option<string>>,
    status: Option<Option<string>>,
    reviewer: Option<Option<int>>,
    createdBy: Option<Option<int>>,
    expectedClosure: Option<Option<Stamp>>,
    actualClosure: Option<Option<Stamp>>)

  /** `setattr` for every key the request carries. */
  function ApplyKeys(t: StoredTask, u: TaskUpdate): StoredTask
  {
    t.(title := u.title.GetOr(t.title),
       description := u.description.GetOr(t.description),
       assignedTo := u.assignedTo.GetOr(t.assignedTo),
       assignedBy := u.assignedBy.GetOr(t.assignedBy),
       assignedAt := u.assignedAt.GetOr(t.assignedAt),
       updatedBy := u.updatedBy.GetOr(t.updatedBy),
       priority := u.priority.GetOr(t.priority),
       status := u.status.GetOr(t.status),
       reviewer := u.reviewer.GetOr(t.reviewer),
       createdBy := u.createdBy.GetOr(t.createdBy),
       expectedClosure := u.expectedClosure.GetOr(t.expectedClosure),
       actualClosure := u.actualClosure.GetOr(t.actualClosure))
  }

  /** The request asks for a status change: the key is there and its value is
      truthy. */
  predicate ChangesStatus(u: TaskUpdate) { u.status.Some? && TextTruthy(u.status.value) }

  predicate ClosesTask(u: TaskUpdate) { ChangesStatus(u) && ToUpper(u.status.value.value) == "DONE" }

  /** The stored status, upper-cased, is IN_PROGRESS. */
  predicate InProgressNow(t: StoredTask) { TextTruthy(t.status) && ToUpper(t.status.value) == "IN_PROGRESS" }

  /** A Manager closing a task they do not review is refused. */
  predicate ReviewerRefused(t: StoredTask, u: TaskUpdate, role: string, user: ServerUser)
  {
    ClosesTask(u) && role == "Manager" && t.reviewer != Some(user.eId)
  }

  const ReviewerOnly := "Only the reviewer can mark the task as Done"
  const AssigneeOnly := "Only assigned employee can change the status of a task in progress"

  /** `update_task`: Admin and Manager only; the row must exist; closing as a
      Manager needs the reviewer; a status change on an IN_PROGRESS task is refused.
      Otherwise every key of the request is written, `assigned_at` is stamped when
      an assignee is first set, `actual_closure` when the task is closed, and
      `updated_at` always. */
  function UpdateTask(store: seq<StoredTask>, id: int, u: TaskUpdate, role: string, user: ServerUser,
                      now: Stamp): (r: Result<Saved>)
    ensures !IsCreatorRole(role) ==> r == Err(HttpError(403, NotAuthorized))
    ensures IsCreatorRole(role) && Lookup(store, id).None? ==> r == Err(HttpError(404, TaskNotFound))
    ensures Lookup(store, id).Some? && ChangesStatus(u) && InProgressNow(Lookup(store, id).value) ==> r.Err?
    ensures r.Ok? && ClosesTask(u) && role == "Manager" ==> Lookup(store, id).value.reviewer == Some(user.eId)
    ensures r.Ok? <==> (IsCreatorRole(role) && Lookup(store, id).Some? &&
                        !ReviewerRefused(Lookup(store, id).value, u, role, user) &&
                        !(ChangesStatus(u) && InProgressNow(Lookup(store, id).value)))
    ensures IsCreatorRole(role) && Lookup(store, id).Some? && ReviewerRefused(Lookup(store, id).value, u, role, user) ==>
      r == Err(HttpError(403, ReviewerOnly))
    ensures (IsCreatorRole(role) && Lookup(store, id).Some? &&
             !ReviewerRefused(Lookup(store, id).value, u, role, user) &&
             ChangesStatus(u) && InProgressNow(Lookup(store, id).value)) ==> r == Err(HttpError(403, AssigneeOnly))
    ensures r.Ok? ==>
      var old_ := Lookup(store, id).value;
      var t := r.value.task;
      && r.value.store == Put(store, t)
      && t.tId == id
      && t.updatedAt == Some(now)
      && t.(updatedAt := old_.updatedAt, assignedAt := old_.assignedAt, actualClosure := old_.actualClosure)
         == ApplyKeys(old_, u).(assignedAt := old_.assignedAt, actualClosure := old_.actualClosure)
      && (u.assignedAt.None? ==>
            t.assignedAt == if u.assignedTo.Some? && IdTruthy(u.assignedTo.value) && !TextTruthy(old_.assignedAt)
                            then Some(now) else old_.assignedAt)
      && (u.actualClosure.None? ==> t.actualClosure == if ClosesTask(u) then Some(now) else old_.actualClosure)
      && (u.assignedAt.Some? ==> t.assignedAt == u.assignedAt.value)
      && (u.actualClosure.Some? ==> t.actualClosure == u.actualClosure.value)
  {
    if !IsCreatorRole(role) then Err(HttpError(403, NotAuthorized))
    else match Lookup(store, id)
      case None => Err(HttpError(404, TaskNotFound))
      case Some(t) =>
        var t1 := if u.assignedTo.Some? && IdTruthy(u.assignedTo.value) && !TextTruthy(t.assignedAt)
                  then t.(assignedAt := Some(now)) else t;
        if ReviewerRefused(t, u, role, user) then Err(HttpError(403, ReviewerOnly))
        else if ChangesStatus(u) && InProgressNow(t) then Err(HttpError(403, AssigneeOnly))
        else
          var t2 := if ClosesTask(u) then t1.(actualClosure := Some(now)) else t1;
          var row := ApplyKeys(t2, u).(updatedAt := Some(now));
          Ok(Saved(Put(store, row), row))
  }

  /** A stored status read the way `patch_status` reads it. */
  function UpperStatus(t: StoredTask): Option<Status>
  {
    if t.status.Some? then ParseStatusName(ToUpper(t.status.value)) else None
  }

  const NotReviewer := "Not Reviewer for the task"
  const NotAssigned := "Not assigned for the task"
  const ManagerMoveRefused := "Only change the status to in progress or done from status review"
  const AssigneeMoveRefused := "Only change the status from To Do -> In Progress or In Progress -> Review"

  /** The reviewer's move is refused with 409: the target is neither IN_PROGRESS
      nor DONE, or the stored status is present but not REVIEW. (A target that
      passes over a null stored status crashes instead.) */
  predicate ManagerRefusesText(stored: Option<string>, target: string)
  {
    !(target == "IN_PROGRESS" || target == "DONE") || (stored.Some? && ToUpper(stored.value) != "REVIEW")
  }

  /** The assignee's move is refused with 409: the stored status is present and
      the move is neither TO_DO to IN_PROGRESS nor IN_PROGRESS to REVIEW, or it is
      null and the target is neither IN_PROGRESS nor REVIEW (which would crash
      reading it). */
  predicate AssigneeRefusesText(stored: Option<string>, target: string)
  {
    if stored.Some? then
      !((target == "IN_PROGRESS" && ToUpper(stored.value) == "TO_DO") ||
        (target == "REVIEW" && ToUpper(stored.value) == "IN_PROGRESS"))
    else target != "IN_PROGRESS" && target != "REVIEW"
  }

  /** `patch_status`. A key that matches no row leaves `t` as `None`, and the first
      attribute read fails; so does upper-casing a null stored status when the
      requested status gets that far. The new status is stored as sent. */
  function PatchStatus(store: seq<StoredTask>, id: int, status: string, role: string, user: ServerUser): (r: Result<Saved>)
    ensures Lookup(store, id).None? ==> r.Err? && r.failure.Crash?
    ensures Lookup(store, id).Some? && role == "Manager" && Lookup(store, id).value.reviewer != Some(user.eId) ==>
      r == Err(HttpError(403, NotReviewer))
    ensures Lookup(store, id).Some? && role != "Manager" && Lookup(store, id).value.assignedTo != Some(user.eId) ==>
      r == Err(HttpError(403, NotAssigned))
    ensures (Lookup(store, id).Some? && role == "Manager" && Lookup(store, id).value.reviewer == Some(user.eId) &&
             ManagerRefusesText(Lookup(store, id).value.status, ToUpper(status))) ==>
      r == Err(HttpError(409, ManagerMoveRefused))
    ensures (Lookup(store, id).Some? && role != "Manager" && Lookup(store, id).value.assignedTo == Some(user.eId) &&
             AssigneeRefusesText(Lookup(store, id).value.status, ToUpper(status))) ==>
      r == Err(HttpError(409, AssigneeMoveRefused))
    ensures r.Ok? ==>
      var t := Lookup(store, id).value;
      && r.value.task == t.(status := Some(status))
      && r.value.store == Put(store, r.value.task)
      && (role == "Manager" ==> t.reviewer == Some(user.eId))
      && (role != "Manager" ==> t.assignedTo == Some(user.eId))
  {
    match Lookup(store, id)
    case None => Err(Crash("'NoneType' object has no attribute " + (if role == "Manager" then "'reviewer'" else "'assigned_to'")))
    case Some(t) =>
      var target := ToUpper(status);
      if role == "Manager" then
        if Some(user.eId) != t.reviewer then Err(HttpError(403, NotReviewer))
        else if !(target == "IN_PROGRESS" || target == "DONE") then Err(HttpError(409, ManagerMoveRefused))
        else if t.status.None? then Err(Crash("'NoneType' object has no attribute 'upper'"))
        else if ToUpper(t.status.value) == "REVIEW" then
          var row := t.(status := Some(status));
          Ok(Saved(Put(store, row), row))
        else Err(HttpError(409, ManagerMoveRefused))
      else
        if Some(user.eId) != t.assignedTo then Err(HttpError(403, NotAssigned))
        else if target == "IN_PROGRESS" && t.status.None? then Err(Crash("'NoneType' object has no attribute 'upper'"))
        else if target == "IN_PROGRESS" && ToUpper(t.status.value) == "TO_DO" then
          var row := t.(status := Some(status));
          Ok(Saved(Put(store, row), row))
        else if target == "REVIEW" && t.status.None? then Err(Crash("'NoneType' object has no attribute 'upper'"))
        else if target == "REVIEW" && ToUpper(t.status.value) == "IN_PROGRESS" then
          var row := t.(status := Some(status));
          Ok(Saved(Put(store, row), row))
        else Err(HttpError(409, AssigneeMoveRefused))
  }

  /** The status patch succeeds exactly for the caller the task names (its reviewer
      for a Manager, its assignee for anyone else) and for a move of the matching
      server table, both ends read case-insensitively. */
  lemma PatchStatusFollowsTables(store: seq<StoredTask>, id: int, status: string, role: string, user: ServerUser)
    ensures PatchStatus(store, id, status, role, user).Ok? <==>
      && Lookup(store, id).Some?
      && UpperStatus(Lookup(store, id).value).Some?
      && ParseStatusName(ToUpper(status)).Some?
      && var t := Lookup(store, id).value;
         var move := (UpperStatus(t).value, ParseStatusName(ToUpper(status)).value);
         if role == "Manager" then t.reviewer == Some(user.eId) && move in ServerManagerMoves
         else t.assignedTo == Some(user.eId) && move in AssigneeMoves
  {
    match Lookup(store, id)
    case None =>
    case Some(t) =>
      if t.status.Some? {
        TablesAsText(ToUpper(t.status.value), ToUpper(status));
      }
      if role == "Manager" {
        ManagerPatchAsText(store, id, status, user);
      } else {
        AssigneePatchAsText(store, id, status, role, user);
      }
  }

  /** A Manager's patch succeeds exactly for the reviewer, from REVIEW, to
      IN_PROGRESS or DONE, compared on upper-cased text. */
  lemma ManagerPatchAsText(store: seq<StoredTask>, id: int, status: string, user: ServerUser)
    requires Lookup(store, id).Some?
    ensures var t := Lookup(store, id).value;
      PatchStatus(store, id, status, "Manager", user).Ok? <==>
        t.reviewer == Some(user.eId) && t.status.Some? && ToUpper(t.status.value) == "REVIEW" &&
        (ToUpper(status) == "IN_PROGRESS" || ToUpper(status) == "DONE")
  {
  }

  /** Anyone else's patch succeeds exactly for the assignee, for TO_DO to
      IN_PROGRESS or IN_PROGRESS to REVIEW, compared on upper-cased text. */
  lemma AssigneePatchAsText(store: seq<StoredTask>, id: int, status: string, role: string, user: ServerUser)
    requires Lookup(store, id).Some? && role != "Manager"
    ensures var t := Lookup(store, id).value;
      PatchStatus(store, id, status, role, user).Ok? <==>
        t.assignedTo == Some(user.eId) && t.status.Some? &&
        ((ToUpper(status) == "IN_PROGRESS" && ToUpper(t.status.value) == "TO_DO") ||
         (ToUpper(status) == "REVIEW" && ToUpper(t.status.value) == "IN_PROGRESS"))
  {
  }

  /** The two server tables as conditions on upper-cased text. */
  lemma TablesAsText(from: string, to: string)
    ensures (ParseStatusName(from).Some? && ParseStatusName(to).Some? &&
             (ParseStatusName(from).value, ParseStatusName(to).value) in ServerManagerMoves)
            <==> from == "REVIEW" && (to == "IN_PROGRESS" || to == "DONE")
    ensures (ParseStatusName(from).Some? && ParseStatusName(to).Some? &&
             (ParseStatusName(from).value, ParseStatusName(to).value) in AssigneeMoves)
            <==> (from == "TO_DO" && to == "IN_PROGRESS") || (from == "IN_PROGRESS" && to == "REVIEW")
  {
    StatusNameUpper(from);
    StatusNameUpper(to);
  }

  /** Text is a canonical status name exactly when it parses as one. */
  lemma StatusNameUpper(s: string)
    ensures ParseStatusName(s).Some? <==> s == "TO_DO" || s == "IN_PROGRESS" || s == "REVIEW" || s == "DONE"
    ensures s == "TO_DO" ==> ParseStatusName(s) == Some(ToDo)
    ensures s == "IN_PROGRESS" ==> ParseStatusName(s) == Some(InProgress)
    ensures s == "REVIEW" ==> ParseStatusName(s) == Some(Review)
    ensures s == "DONE" ==> ParseStatusName(s) == Some(Done)
  {
    if ParseStatusName(s).Some? {
      assert s == StatusName(ParseStatusName(s).value);
    }
  }

  /** Only the creator may delete. */
  const NotAuthorizedToDelete := "Not Authorized to delete the task"

  /** `delete_task` as written: after the role check it queries through `session`
      while that is still `None`, so every authorized call fails. */
  function DeleteTaskAsWritten(store: seq<StoredTask>, role: string, user: ServerUser, id: int): (r: Result<seq<StoredTask>>)
    ensures !IsCreatorRole(role) ==> r == Err(HttpError(403, NotAuthorized))
    ensures IsCreatorRole(role) ==> r.Err? && r.failure.Crash?
  {
    if !IsCreatorRole(role) then Err(HttpError(403, NotAuthorized))
    else Err(Crash("'NoneType' object has no attribute 'query'"))
  }

  /** No call of the delete as written removes anything. */
  lemma DeleteAsWrittenNeverSucceeds(store: seq<StoredTask>, role: string, user: ServerUser, id: int)
    ensures DeleteTaskAsWritten(store, role, user, id).Err?
  {
  }

  /** `delete_task` with the session opened before the query and the missing-row
      check before the creator check: Admin and Manager may delete the tasks they
      created, and the row goes with nothing else disturbed. */
  function DeleteTask(store: seq<StoredTask>, role: string, user: ServerUser, id: int): (r: Result<seq<StoredTask>>)
    ensures !IsCreatorRole(role) ==> r == Err(HttpError(403, NotAuthorized))
    ensures IsCreatorRole(role) && Lookup(store, id).None? ==> r == Err(HttpError(404, TaskNotFound))
    ensures r.Ok? <==> IsCreatorRole(role) && Lookup(store, id).Some? && Lookup(store, id).value.createdBy == Some(user.eId)
    ensures r.Ok? ==> IsSubsequence(r.value, store) && forall t :: t in r.value <==> t in store && t.tId != id
    ensures r.Ok? ==> forall t :: multiset(r.value)[t] == if t.tId != id then multiset(store)[t] else 0
  {
    if !IsCreatorRole(role) then Err(HttpError(403, NotAuthorized))
    else match Lookup(store, id)
      case None => Err(HttpError(404, TaskNotFound))
      case Some(t) =>
        if Some(user.eId) != t.createdBy then Err(HttpError(403, NotAuthorizedToDelete))
        else Ok(Filter(store, (s: StoredTask) => s.tId != id))
  }

  /** A task an Admin or Manager creates shows in their task list. */
  lemma CreatedTaskIsListed(store: seq<StoredTask>, payload: StoredTask, role: string, user: ServerUser,
                            newId: int, now: Stamp)
    requires role in user.roles
    requires AddTask(store, payload, role, user, newId, now).Ok?
    ensures var saved := AddTask(store, payload, role, user, newId, now).value;
      GetAllTasks(saved.store, role, user).Ok? && saved.task in GetAllTasks(saved.store, role, user).value
  {
  }

  /** The creator of a task can delete it again under the fresh key the database
      gave it, and then no row with that key is left. */
  lemma CreatorCanDelete(store: seq<StoredTask>, payload: StoredTask, role: string, user: ServerUser,
                         newId: int, now: Stamp)
    requires AddTask(store, payload, role, user, newId, now).Ok?
    requires forall i :: 0 <= i < |store| ==> store[i].tId != newId
    ensures var saved := AddTask(store, payload, role, user, newId, now).value;
      var r := DeleteTask(saved.store, role, user, newId);
      r.Ok? && forall t :: t in r.value ==> t.tId != newId
  {
    var saved := AddTask(store, payload, role, user, newId, now).value;
    assert saved.store[|store|] == saved.task;
  }
}

=== FILE: task_router.dfy ===
/** The task endpoints: the role guards each route applies before calling the
    service, and how failures reach the client. */
module TaskRouter {
  import opened Optional
  import opened Text
  import opened ServerModel
  import opened TaskCrud

  const MissingRole := "The user doesnt have the mentioned role"

  /** A service outcome as the route returns it. */
  function Respond<T>(r: Result<T>): (s: Result<T>)
    ensures s.Ok? <==> r.Ok?
    ensures r.Ok? ==> s == r
    ensures s.Err? ==> s.failure.HttpError?
    ensures r.Err? && r.failure.HttpError? ==> s == r
  {
    match r
    case Ok(_) => r
    case Err(f) => Err(Surface(f))
  }

  /** `/getall`: the caller's list, where an empty one is a 404. */
  function GetAll(store: seq<StoredTask>, role: string, user: ServerUser): (r: Result<seq<StoredTask>>)
    ensures r.Ok? ==> r.value != [] && r == GetAllTasks(store, role, user)
    ensures GetAllTasks(store, role, user) == Ok([]) <==> r == Err(HttpError(404, "No tasks found"))
    ensures r.Err? ==> r.failure.HttpError?
  {
    match GetAllTasks(store, role, user)
    case Err(f) => Respond(Err(f))
    case Ok(tasks) => if tasks == [] then Err(HttpError(404, "No tasks found")) else Ok(tasks)
  }

  /** `/getbystatus`: a role the caller does not hold is a 409. */
  function GetByStatus(store: seq<StoredTask>, status: string, role: string, user: ServerUser): (r: Result<seq<StoredTask>>)
    ensures role !in user.roles <==> r == Err(HttpError(409, MissingRole))
    ensures role in user.roles ==> r == GetTaskByStatus(store, status, role, user)
  {
    if role !in user.roles then Err(HttpError(409, MissingRole))
    else Respond(GetTaskByStatus(store, status, role, user))
  }

  /** `/create`: only Manager and Admin get past the route. */
  function AddNewTask(store: seq<StoredTask>, payload: StoredTask, role: string, user: ServerUser,
                      newId: int, now: Stamp): (r: Result<Saved>)
    ensures !IsCreatorRole(role) <==> r == Err(HttpError(409, MissingRole))
    ensures IsCreatorRole(role) ==> r == AddTask(store, payload, role, user, newId, now) && r.Ok?
  {
    if role != "Manager" && role != "Admin" then Err(HttpError(409, MissingRole))
    else Respond(AddTask(store, payload, role, user, newId, now))
  }

  const AdminStatusRefused := "Admin cannout update the status of task"

  /** `/update` as written: for an Admin it reads `new_data["status"]`, so a request
      without a status key fails with a 500 instead of reaching the service. */
  function UpdateTaskDataAsWritten(store: seq<StoredTask>, id: int, u: TaskUpdate, role: string,
                                   user: ServerUser, now: Stamp): (r: Result<Saved>)
    ensures role !in user.roles ==> r == Err(HttpError(409, MissingRole))
    ensures role in user.roles && role == "Admin" && u.status.None? ==> r.Err? && r.failure == HttpError(500, "Internal Server Error: 'status'")
  {
    if role !in user.roles then Err(HttpError(409, MissingRole))
    else if role == "Admin" && u.status.None? then Respond<Saved>(Err(Crash("'status'")))
    else if role == "Admin" && TextTruthy(u.status.value) then Err(HttpError(409, AdminStatusRefused))
    else Respond(UpdateTask(store, id, u, role, user, now))
  }

  /** An Admin who holds the role cannot edit a task's title without also sending
      a status key. */
  lemma AdminTitleEditFails(store: seq<StoredTask>, id: int, title: string, user: ServerUser, now: Stamp)
    requires "Admin" in user.roles
    ensures var u := TaskUpdate(Some(title), None, None, None, None, None, None, None, None, None, None, None);
      UpdateTaskDataAsWritten(store, id, u, "Admin", user, now) == Err(HttpError(500, "Internal Server Error: 'status'"))
  {
  }

  /** `/update` with the status read as `new_data.get("status")`: a role the caller
      does not hold is a 409, an Admin may not change the status, and everything
      else is the service's answer. */
  function UpdateTaskData(store: seq<StoredTask>, id: int, u: TaskUpdate, role: string,
                          user: ServerUser, now: Stamp): (r: Result<Saved>)
    ensures role !in user.roles ==> r == Err(HttpError(409, MissingRole))
    ensures role in user.roles && role == "Admin" && ChangesStatus(u) ==> r == Err(HttpError(409, AdminStatusRefused))
    ensures role in user.roles && !(role == "Admin" && ChangesStatus(u)) ==>
      r == Respond(UpdateTask(store, id, u, role, user, now))
  {
    if role !in user.roles then Err(HttpError(409, MissingRole))
    else if role == "Admin" && ChangesStatus(u) then Err(HttpError(409, AdminStatusRefused))
    else Respond(UpdateTask(store, id, u, role, user, now))
  }

  /** Only status changes by an Admin are affected by the correction: with a status
      key present, both readings give the same answer. */
  lemma UpdateCorrectionIsLocal(store: seq<StoredTask>, id: int, u: TaskUpdate, role: string,
                                user: ServerUser, now: Stamp)
    requires u.status.Some? || role != "Admin"
    ensures UpdateTaskDataAsWritten(store, id, u, role, user, now) == UpdateTaskData(store, id, u, role, user, now)
  {
  }

  /** An Admin who holds the role can edit a title without a status key. */
  lemma AdminTitleEditReachesService(store: seq<StoredTask>, id: int, title: string, user: ServerUser, now: Stamp)
    requires "Admin" in user.roles
    ensures var u := TaskUpdate(Some(title), None, None, None, None, None, None, None, None, None, None, None);
      UpdateTaskData(store, id, u, "Admin", user, now) == Respond(UpdateTask(store, id, u, "Admin", user, now))
  {
  }

  /** `/patch`: the caller must hold the role, unless the role is Admin in any
      case. */
  function PatchStat(store: seq<StoredTask>, id: int, status: string, role: string, user: ServerUser): (r: Result<Saved>)
    ensures (role !in user.roles && ToUpper(role) != "ADMIN") <==> r == Err(HttpError(409, MissingRole))
    ensures (role in user.roles || ToUpper(role) == "ADMIN") ==> r == Respond(PatchStatus(store, id, status, role, user))
  {
    if role !in user.roles && ToUpper(role) != "ADMIN" then Err(HttpError(409, MissingRole))
    else Respond(PatchStatus(store, id, status, role, user))
  }

  /** An Admin reaches the status patch without holding the role, and is then
      treated as an assignee. */
  lemma AdminPatchesAsAssignee(store: seq<StoredTask>, id: int, status: string, user: ServerUser)
    ensures PatchStat(store, id, status, "Admin", user) == Respond(PatchStatus(store, id, status, "Admin", user))
    ensures PatchStat(store, id, status, "Admin", user).Ok? ==>
      Lookup(store, id).value.assignedTo == Some(user.eId)
  {
    assert ToUpper("Admin") == "ADMIN";
  }

  const OnlyAdminDeletes := "Only the Admin can delete the task"

  /** `/delete`: an Admin role in any case, or a held role, passes the route. */
  function DeleteTaskById(store: seq<StoredTask>, id: int, role: string, user: ServerUser): (r: Result<seq<StoredTask>>)
    ensures (ToUpper(role) != "ADMIN" && role !in user.roles) <==> r == Err(HttpError(409, OnlyAdminDeletes))
    ensures (ToUpper(role) == "ADMIN" || role in user.roles) ==> r == DeleteTask(store, role, user, id)
  {
    if ToUpper(role) != "ADMIN" && role !in user.roles then Err(HttpError(409, OnlyAdminDeletes))
    else Respond(DeleteTask(store, role, user, id))
  }
}

=== FILE: task_types.dfy ===
/** The task vocabulary shared by the client: canonical statuses and priorities, their
    display configuration, and the client-side task record. */
module TaskModel {
  import opened Optional

  /** The four canonical statuses of a task. */
  datatype Status = ToDo | InProgress | Review | Done

  /** The three priorities of a task. */
  datatype Priority = High | Medium | Low

  /** The Kanban columns, left to right. */
  const Columns: seq<Status> := [ToDo, InProgress, Review, Done]

  /** The column a status is shown in. */
  function ColumnIndex(s: Status): (i: nat)
    ensures i < |Columns| && Columns[i] == s
  {
    match s
    case ToDo => 0
    case InProgress => 1
    case Review => 2
    case Done => 3
  }

  /** The priorities in the order the reports list them. */
  const Priorities: seq<Priority> := [High, Medium, Low]

  /** The canonical spelling of a status, as the client stores it. */
  function StatusName(s: Status): string
  {
    match s
    case ToDo => "TO_DO"
    case InProgress => "IN_PROGRESS"
    case Review => "REVIEW"
    case Done => "DONE"
  }

  /** Recognises a canonical spelling; exactly the four names are recognised. */
  function ParseStatusName(t: string): (r: Option<Status>)
    ensures r.Some? ==> StatusName(r.value) == t
    ensures forall s: Status :: StatusName(s) == t ==> r == Some(s)
  {
    if t == "TO_DO" then Some(ToDo)
    else if t == "IN_PROGRESS" then Some(InProgress)
    else if t == "REVIEW" then Some(Review)
    else if t == "DONE" then Some(Done)
    else None
  }

  /** The column title of a status. */
  function StatusLabel(s: Status): string
  {
    match s
    case ToDo => "To Do"
    case InProgress => "In Progress"
    case Review => "Review"
    case Done => "Done"
  }

  /** The wire spelling of a priority. */
  function PriorityName(p: Priority): string
  {
    match p
    case High => "high"
    case Medium => "medium"
    case Low => "low"
  }

  /** The display label of a priority. */
  function PriorityLabel(p: Priority): string
  {
    match p
    case High => "High"
    case Medium => "Medium"
    case Low => "Low"
  }

  /** Every status is a column, exactly once, and the status configuration gives
      each one its own name and label. */
  lemma StatusConfigTotal(s: Status)
    ensures multiset(Columns)[s] == 1
    ensures forall t: Status :: t != s ==> StatusName(t) != StatusName(s) && StatusLabel(t) != StatusLabel(s)
  {
  }

  /** Every priority is listed once, with its own wire name and label. */
  lemma PriorityConfigTotal(p: Priority)
    ensures multiset(Priorities)[p] == 1
    ensures forall q: Priority :: q != p ==> PriorityName(q) != PriorityName(p) && PriorityLabel(q) != PriorityLabel(p)
  {
  }

  /** A task as the client holds it. The optional fields are absent when the backend
      did not send them. `status` and `priority` are kept as text: the client's
      normalizers can produce values outside the canonical sets. */
  datatype Task = Task(
    tId: string,
    title: string,
    description: string,
    createdBy: string,
    assignedTo: Option<string>,
    assignedBy: Option<string>,
    assignedAt: Option<string>,
    updatedBy: Option<string>,
    updatedAt: Option<string>,
    priority: string,
    status: string,
    reviewer: Option<string>,
    expectedClosure: string,
    actualClosure: Option<string>)

  /** JavaScript `String(x)` of an optional field: an absent value prints as
      "undefined". */
  function JsString(o: Option<string>): string
  {
    match o
    case Some(v) => v
    case None => "undefined"
  }
}

=== FILE: tasks_page.dfy ===
/** The tasks page: role and status mapping to the backend's vocabulary, the status
    update after a drag, normalisation of fetched tasks, and the visible-task filter. */
module TasksPage {
  import opened Optional
  import opened Text
  import opened TaskModel
  import opened Session
  import opened Seqs
  import Kanban

  /** The backend's role names. Anything but admin or manager, including no role,
      goes to the backend as "Developer". The home page keeps its own copy of this
      mapping, `DashboardHome.MapRoleToBackend`, proved equal to it. */
  function MapRoleToBackend(role: Option<string>): (r: string)
    ensures r == "Admin" <==> role == Some("admin")
    ensures r == "Manager" <==> role == Some("manager")
    ensures r == "Admin" || r == "Manager" || r == "Developer"
  {
    if role.None? || role.value == [] then "Developer"
    else if role.value == "admin" then "Admin"
    else if role.value == "manager" then "Manager"
    else "Developer"
  }

  /** The role parameter sent for the current user. */
  function UserRoleParam(user: Option<ClientUser>): string
  {
    MapRoleToBackend(if user.Some? then Some(user.value.role) else None)
  }

  /** The backend's spelling of a canonical status. */
  function WireStatus(s: Status): string
  {
    match s
    case ToDo => "to_do"
    case InProgress => "in_progress"
    case Review => "review"
    case Done => "done"
  }

  /** `mapStatusToBackend`: the four canonical names get their backend spelling, any
      other text is lower-cased. */
  function MapStatusToBackend(s: string): (r: string)
    ensures ParseStatusName(s).Some? ==> r == WireStatus(ParseStatusName(s).value)
    ensures ParseStatusName(s).None? ==> r == ToLower(s)
  {
    match ParseStatusName(s)
    case Some(st) => WireStatus(st)
    case None => ToLower(s)
  }

  lemma LowerToDo() ensures ToLower("TO_DO") == "to_do" {}
  lemma LowerInProgress() ensures ToLower("IN_PROGRESS") == "in_progress" {}
  lemma LowerReview() ensures ToLower("REVIEW") == "review" {}
  lemma LowerDone() ensures ToLower("DONE") == "done" {}

  /** The backend spelling of a status is its lower-cased canonical name. */
  lemma WireIsLowerName(st: Status)
    ensures ToLower(StatusName(st)) == WireStatus(st)
  {
    match st
    case ToDo => LowerToDo();
    case InProgress => LowerInProgress();
    case Review => LowerReview();
    case Done => LowerDone();
  }

  /** Canonical names and backend spellings are fixed points of upper- and
      lower-casing respectively. */
  lemma CaseFixedPoints(st: Status)
    ensures ToUpper(StatusName(st)) == StatusName(st)
    ensures ToLower(WireStatus(st)) == WireStatus(st)
  {
    UpperFixed(StatusName(st));
    LowerFixed(WireStatus(st));
  }

  /** Since each backend spelling is the lower-cased name, the mapping is
      lower-casing throughout. */
  lemma MapStatusToBackendIsLower(s: string)
    ensures MapStatusToBackend(s) == ToLower(s)
  {
    if ParseStatusName(s).Some? {
      WireIsLowerName(ParseStatusName(s).value);
    }
  }

  /** `normalizeStatusFromBackend`: absent or empty is TO_DO; the backend spellings
      (and "todo") match whatever their case; anything else is upper-cased. */
  function NormalizeStatusFromBackend(s: Option<string>): (r: string)
    ensures s.None? || s.value == [] ==> r == "TO_DO"
    ensures s.Some? && s.value != [] ==>
      var low := ToLower(s.value);
      r == (if low == "to_do" || low == "todo" then "TO_DO"
            else if low == "in_progress" then "IN_PROGRESS"
            else if low == "review" then "REVIEW"
            else if low == "done" then "DONE"
            else ToUpper(s.value))
  {
    if s.None? || s.value == [] then "TO_DO"
    else
      var low := ToLower(s.value);
      if low == "to_do" || low == "todo" then "TO_DO"
      else if low == "in_progress" then "IN_PROGRESS"
      else if low == "review" then "REVIEW"
      else if low == "done" then "DONE"
      else ToUpper(s.value)
  }

  /** The status each backend spelling normalizes to. */
  lemma NormalizeWire(st: Status)
    ensures NormalizeStatusFromBackend(Some(WireStatus(st))) == StatusName(st)
  {
    CaseFixedPoints(st);
  }

  /** Sending a canonical status to the backend and reading it back is lossless. */
  lemma StatusRoundTrip(st: Status)
    ensures NormalizeStatusFromBackend(Some(MapStatusToBackend(StatusName(st)))) == StatusName(st)
  {
    NormalizeWire(st);
  }

  /** A canonical name read back from the backend is unchanged. */
  lemma NormalizeCanonical(st: Status)
    ensures NormalizeStatusFromBackend(Some(StatusName(st))) == StatusName(st)
  {
    WireIsLowerName(st);
    NormalizeWire(st);
  }

  /** A normalized status is upper case: either a canonical name or upper-cased
      text. */
  lemma NormalizedIsUpper(s: Option<string>)
    ensures ToUpper(NormalizeStatusFromBackend(s)) == NormalizeStatusFromBackend(s)
  {
    var r := NormalizeStatusFromBackend(s);
    if r == "TO_DO" { CaseFixedPoints(ToDo); }
    else if r == "IN_PROGRESS" { CaseFixedPoints(InProgress); }
    else if r == "REVIEW" { CaseFixedPoints(Review); }
    else if r == "DONE" { CaseFixedPoints(Done); }
    else { UpperIdempotent(s.value); }
  }

  /** Normalizing twice is normalizing once. */
  lemma NormalizeIdempotent(s: Option<string>)
    ensures NormalizeStatusFromBackend(Some(NormalizeStatusFromBackend(s))) == NormalizeStatusFromBackend(s)
  {
    var r := NormalizeStatusFromBackend(s);
    if r == "TO_DO" { NormalizeCanonical(ToDo); }
    else if r == "IN_PROGRESS" { NormalizeCanonical(InProgress); }
    else if r == "REVIEW" { NormalizeCanonical(Review); }
    else if r == "DONE" { NormalizeCanonical(Done); }
    else {
      LowerOfUpper(s.value);
      UpperIdempotent(s.value);
    }
  }

  /** The status patch the page sends: the task id, the canonical status name as it
      is (not the backend spelling) and the mapped role. */
  datatype PatchRequest = PatchRequest(id: string, status: string, role: string)

  function PatchRequestFor(user: Option<ClientUser>, taskId: string, newStatus: Status): (r: PatchRequest)
    ensures r.id == taskId && r.role == UserRoleParam(user)
    ensures ParseStatusName(r.status) == Some(newStatus)
  {
    PatchRequest(taskId, StatusName(newStatus), UserRoleParam(user))
  }

  /** `handleTaskUpdate` once the patch has settled: on success every task with that
      id takes the new status and update time; on failure nothing changes. */
  function ApplyStatusUpdate(tasks: seq<Task>, taskId: string, newStatus: Status,
                             patchSucceeded: bool, now: string): (r: seq<Task>)
    ensures |r| == |tasks|
    ensures !patchSucceeded ==> r == tasks
    ensures patchSucceeded ==> forall i :: 0 <= i < |tasks| ==>
      r[i] == if tasks[i].tId == taskId then tasks[i].(status := StatusName(newStatus), updatedAt := Some(now))
              else tasks[i]
  {
    if !patchSucceeded then tasks
    else MapWhere(tasks, (t: Task) => t.tId == taskId,
                  (t: Task) => t.(status := StatusName(newStatus), updatedAt := Some(now)))
  }

  /** After a successful update the task shows in its new column, and only tasks with
      that id moved. */
  lemma UpdatedTaskInNewColumn(tasks: seq<Task>, taskId: string, newStatus: Status, now: string, i: nat)
    requires i < |tasks|
    ensures var r := ApplyStatusUpdate(tasks, taskId, newStatus, true, now);
      (tasks[i].tId == taskId ==> r[i].status == StatusName(newStatus) && ParseStatusName(r[i].status) == Some(newStatus)) &&
      (r[i].status != tasks[i].status ==> tasks[i].tId == taskId)
  {
  }

  /** A drag the board accepts, followed by a successful patch, leaves the dragged
      task in the column it was dropped on. */
  lemma AcceptedDropLands(user: Option<ClientUser>, tasks: seq<Task>, drop: Kanban.DropResult, now: string)
    requires Kanban.HandleDragEnd(user, tasks, drop).update.Some?
    ensures var u := Kanban.HandleDragEnd(user, tasks, drop).update.value;
      var after := ApplyStatusUpdate(tasks, u.taskId, u.newStatus, true, now);
      Kanban.FindTask(after, u.taskId).Some? &&
      Kanban.FindTask(after, u.taskId).value.status == StatusName(u.newStatus) &&
      Kanban.FindTask(after, u.taskId).value in Kanban.Board(after)[ColumnIndex(u.newStatus)]
  {
    var u := Kanban.HandleDragEnd(user, tasks, drop).update.value;
    assert u.taskId == drop.draggableId && Kanban.FindTask(tasks, u.taskId).Some?;
    UpdateLands(tasks, u.taskId, u.newStatus, now);
  }

  /** A successful update of a task that is on the board leaves it in the column
      of its new status. */
  lemma UpdateLands(tasks: seq<Task>, taskId: string, newStatus: Status, now: string)
    requires Kanban.FindTask(tasks, taskId).Some?
    ensures var after := ApplyStatusUpdate(tasks, taskId, newStatus, true, now);
      Kanban.FindTask(after, taskId).Some? &&
      Kanban.FindTask(after, taskId).value.status == StatusName(newStatus) &&
      Kanban.FindTask(after, taskId).value in Kanban.Board(after)[ColumnIndex(newStatus)]
  {
    var after := ApplyStatusUpdate(tasks, taskId, newStatus, true, now);
    UpdatedStillFound(tasks, taskId, newStatus, now);
    var t := Kanban.FindTask(after, taskId).value;
    assert t in after by {
      var k :| 0 <= k < |after| && after[k] == t;
    }
    Kanban.ColumnsPartitionTasks(after, t);
  }

  /** After a successful update the task is still found by its id, with the new
      status. */
  lemma UpdatedStillFound(tasks: seq<Task>, taskId: string, newStatus: Status, now: string)
    requires Kanban.FindTask(tasks, taskId).Some?
    ensures var after := ApplyStatusUpdate(tasks, taskId, newStatus, true, now);
      Kanban.FindTask(after, taskId).Some? &&
      Kanban.FindTask(after, taskId).value.status == StatusName(newStatus)
  {
    var after := ApplyStatusUpdate(tasks, taskId, newStatus, true, now);
    assert Kanban.FindTask(after, taskId).Some? by {
      var found := Kanban.FindTask(tasks, taskId).value;
      var i :| 0 <= i < |tasks| && tasks[i] == found;
      assert after[i].tId == taskId;
    }
    var t := Kanban.FindTask(after, taskId).value;
    var k :| 0 <= k < |after| && after[k] == t;
    assert tasks[k].tId == taskId;
  }

  /** A task record as the backend sends it; each present value is shown as its
      `String(...)` text. */
  datatype RawTask = RawTask(
    tId: Option<string>,
    id: Option<string>,
    title: string,
    description: string,
    createdBy: Option<string>,
    assignedTo: Option<string>,
    assignedBy: Option<string>,
    priority: Option<string>,
    status: Option<string>,
    reviewer: Option<string>,
    expectedClosure: string,
    actualClosure: Option<string>,
    updatedAt: Option<string>)

  /** The per-record normalisation of `fetchTasks`. */
  function NormalizeTask(t: RawTask): (r: Task)
    ensures r.tId == t.tId.GetOr(t.id.GetOr(""))
    ensures r.priority == t.priority.GetOr("medium")
    ensures r.status == NormalizeStatusFromBackend(t.status)
    ensures r.assignedTo == t.assignedTo && r.reviewer == t.reviewer
  {
    Task(t.tId.GetOr(t.id.GetOr("")), t.title, t.description, t.createdBy.GetOr(""),
         t.assignedTo, t.assignedBy, None, None, t.updatedAt,
         t.priority.GetOr("medium"), NormalizeStatusFromBackend(t.status), t.reviewer,
         t.expectedClosure, t.actualClosure)
  }

  /** `fetchTasks`: without a user or on a failed request the list stays; a non-array
      body empties it; an array replaces it wholesale, record by record. Every status
      in a fetched list is upper case. */
  function FetchTasks(user: Option<ClientUser>, response: Fetched<RawTask>, current: seq<Task>): (r: seq<Task>)
    ensures user.None? || response.Failed? ==> r == current
    ensures user.Some? && response.NotArray? ==> r == []
    ensures user.Some? && response.Array? ==> |r| == |response.items|
    ensures user.Some? && response.Array? ==>
      forall i :: 0 <= i < |r| ==> r[i] == NormalizeTask(response.items[i]) && ToUpper(r[i].status) == r[i].status
  {
    if user.None? then current
    else match response
      case Failed(_) => current
      case NotArray => []
      case Array(items) => NormalizeAll(items)
  }

  function NormalizeAll(items: seq<RawTask>): (r: seq<Task>)
    ensures |r| == |items|
    ensures forall i :: 0 <= i < |r| ==> r[i] == NormalizeTask(items[i]) && ToUpper(r[i].status) == r[i].status
  {
    if items == [] then []
    else
      NormalizedIsUpper(items[0].status);
      [NormalizeTask(items[0])] + NormalizeAll(items[1..])
  }

  /** The search box: the lower-cased query occurs in the lower-cased title,
      description or id. */
  predicate MatchesSearch(t: Task, query: string)
  {
    var q := ToLower(query);
    Contains(ToLower(t.title), q) || Contains(ToLower(t.description), q) || Contains(ToLower(t.tId), q)
  }

  /** The priority filter; "all" lets everything through. */
  predicate MatchesPriority(t: Task, priorityFilter: string)
  {
    priorityFilter == "all" || t.priority == priorityFilter
  }

  /** The assignee scope: an explicit `assignedTo` parameter wins; otherwise a
      developer sees only their own tasks and admins and managers see all. */
  predicate InScope(t: Task, assignedToParam: Option<string>, user: Option<ClientUser>)
  {
    if assignedToParam.Some? && assignedToParam.value != [] then JsString(t.assignedTo) == assignedToParam.value
    else if user.Some? && user.value.role == "developer" then JsString(t.assignedTo) == user.value.empId
    else true
  }

  /** `filteredTasks`: an order-preserving sublist holding exactly the tasks that
      pass search, priority and scope. */
  function FilteredTasks(tasks: seq<Task>, query: string, priorityFilter: string,
                         assignedToParam: Option<string>, user: Option<ClientUser>): (r: seq<Task>)
    ensures IsSubsequence(r, tasks)
    ensures forall t :: t in r <==>
      t in tasks && MatchesSearch(t, query) && MatchesPriority(t, priorityFilter) && InScope(t, assignedToParam, user)
    ensures forall t :: multiset(r)[t] == (if MatchesSearch(t, query) && MatchesPriority(t, priorityFilter) &&
      InScope(t, assignedToParam, user) then multiset(tasks)[t] else 0)
  {
    var first := Filter(tasks, (t: Task) => MatchesSearch(t, query) && MatchesPriority(t, priorityFilter));
    if (assignedToParam.Some? && assignedToParam.value != []) || (user.Some? && user.value.role == "developer") then
      var r := Filter(first, (t: Task) => InScope(t, assignedToParam, user));
      SubsequenceTransitive(r, first, tasks);
      r
    else first
  }

  /** With an empty query, "all" priorities and no assignee parameter, an admin or a
      manager sees every task, in order. */
  lemma UnfilteredForManagers(tasks: seq<Task>, user: ClientUser)
    requires user.role == "admin" || user.role == "manager"
    ensures FilteredTasks(tasks, "", "all", None, Some(user)) == tasks
  {
    forall i | 0 <= i < |tasks| ensures MatchesSearch(tasks[i], "") {
      ContainsEmpty(ToLower(tasks[i].title));
    }
    FilterAll(tasks, (t: Task) => MatchesSearch(t, "") && MatchesPriority(t, "all"));
  }

  /** The create button shows for admins and managers only. */
  function CanCreate(user: Option<ClientUser>): (b: bool)
    ensures b <==> user.Some? && (user.value.role == "admin" || user.value.role == "manager")
  {
    user.Some? && (user.value.role == "admin" || user.value.role == "manager")
  }
}

=== FILE: text.dfy ===
/** ASCII string helpers: case mapping, trimming, substring search, split and join.
    JavaScript and Python apply full Unicode case mapping and whitespace tables; this
    model uses the ASCII subset. */
module Text {

  predicate IsUpper(c: char) { 'A' <= c <= 'Z' }
  predicate IsLower(c: char) { 'a' <= c <= 'z' }

  function LowerChar(c: char): char
  {
    if IsUpper(c) then (c as int + 32) as char else c
  }

  function UpperChar(c: char): char
  {
    if IsLower(c) then (c as int - 32) as char else c
  }

  /** `String.prototype.toLowerCase` / `str.lower` on ASCII. */
  function ToLower(s: string): (r: string)
    ensures |r| == |s|
    ensures forall i :: 0 <= i < |s| ==> r[i] == LowerChar(s[i])
  {
    seq(|s|, i requires 0 <= i < |s| => LowerChar(s[i]))
  }

  /** `String.prototype.toUpperCase` / `str.upper` on ASCII. */
  function ToUpper(s: string): (r: string)
    ensures |r| == |s|
    ensures forall i :: 0 <= i < |s| ==> r[i] == UpperChar(s[i])
  {
    seq(|s|, i requires 0 <= i < |s| => UpperChar(s[i]))
  }

  /** Lower-casing forgets any earlier upper-casing. */
  lemma LowerOfUpper(s: string)
    ensures ToLower(ToUpper(s)) == ToLower(s)
  {
    var a, b := ToLower(ToUpper(s)), ToLower(s);
    assert |a| == |b|;
    forall i | 0 <= i < |a| ensures a[i] == b[i] {
      assert ToUpper(s)[i] == UpperChar(s[i]);
    }
  }

  /** Upper-casing twice is upper-casing once. */
  lemma UpperIdempotent(s: string)
    ensures ToUpper(ToUpper(s)) == ToUpper(s)
  {
    var a, b := ToUpper(ToUpper(s)), ToUpper(s);
    forall i | 0 <= i < |a| ensures a[i] == b[i] {
      assert ToUpper(s)[i] == UpperChar(s[i]);
    }
  }

  /** Lower-casing twice is lower-casing once. */
  lemma LowerIdempotent(s: string)
    ensures ToLower(ToLower(s)) == ToLower(s)
  {
    var a := ToLower(s);
    forall i | 0 <= i < |a| ensures ToLower(a)[i] == a[i] {
    }
  }

  /** Text with no lower-case letter is its own upper-casing. */
  lemma UpperFixed(s: string)
    requires forall i :: 0 <= i < |s| ==> !IsLower(s[i])
    ensures ToUpper(s) == s
  {
  }

  /** Text with no upper-case letter is its own lower-casing. */
  lemma LowerFixed(s: string)
    requires forall i :: 0 <= i < |s| ==> !IsUpper(s[i])
    ensures ToLower(s) == s
  {
  }

  /** The first character upper-cased and the rest untouched: the client's
      `capitalize` and `charAt(0).toUpperCase() + slice(1)`. */
  function Capitalize(s: string): (r: string)
    ensures |r| == |s|
    ensures s != [] ==> r[0] == UpperChar(s[0]) && r[1..] == s[1..]
  {
    if s == [] then s else [UpperChar(s[0])] + s[1..]
  }

  /** The ASCII characters that both `String.prototype.trim` and `str.strip` treat as
      whitespace. `str.strip` also removes the separators U+001C to U+001F, which
      JavaScript keeps; this model keeps them on both sides. */
  predicate IsSpace(c: char)
  {
    c == ' ' || c == '\t' || c == '\n' || c == '\r' || c == '\U{B}' || c == '\U{C}'
  }

  /** Drops leading whitespace; what is dropped is all whitespace and what is left
      starts with a non-space. */
  function TrimStart(s: string): (r: string)
    ensures |r| <= |s| && r == s[|s| - |r|..]
    ensures r == [] || !IsSpace(r[0])
    ensures forall i :: 0 <= i < |s| - |r| ==> IsSpace(s[i])
  {
    if s != [] && IsSpace(s[0]) then
      var r := TrimStart(s[1..]);
      assert s[1..][|s| - 1 - |r|..] == s[|s| - |r|..];
      assert forall i :: 1 <= i < |s| - |r| ==> s[i] == s[1..][i - 1];
      r
    else s
  }

  /** Drops trailing whitespace. */
  function TrimEnd(s: string): (r: string)
    ensures |r| <= |s| && r == s[..|r|]
    ensures r == [] || !IsSpace(r[|r| - 1])
    ensures forall i :: |r| <= i < |s| ==> IsSpace(s[i])
  {
    if s != [] && IsSpace(s[|s| - 1]) then TrimEnd(s[..|s| - 1]) else s
  }

  /** `trim()` / `strip()`. */
  function Trim(s: string): string
  {
    TrimEnd(TrimStart(s))
  }

  /** A string trims to nothing exactly when every character is whitespace. */
  lemma TrimEmptyIff(s: string)
    ensures Trim(s) == [] <==> forall i :: 0 <= i < |s| ==> IsSpace(s[i])
  {
    var a := TrimStart(s);
    if a != [] {
      assert a[0] == s[|s| - |a|];
      assert !IsSpace(a[0]);
    }
  }

  /** Trimming is idempotent. */
  lemma TrimIdempotent(s: string)
    ensures Trim(Trim(s)) == Trim(s)
  {
    var t := Trim(s);
    if t != [] {
      assert t == TrimStart(s)[..|t|];
      assert !IsSpace(t[0]);
      assert TrimStart(t) == t;
    }
  }

  /** True when the (trimmed) text is empty: the `!x.trim()` test. */
  predicate IsBlank(s: string)
  {
    Trim(s) == []
  }

  predicate IsPrefix(p: string, s: string)
  {
    |p| <= |s| && s[..|p|] == p
  }

  /** `endsWith`. */
  predicate EndsWith(s: string, suffix: string)
  {
    |suffix| <= |s| && s[|s| - |suffix|..] == suffix
  }

  /** `includes`: `sub` occurs somewhere in `s`. */
  predicate Contains(s: string, sub: string)
  {
    exists i :: 0 <= i <= |s| - |sub| && OccursAt(s, sub, i)
  }

  /** `sub` occurs in `s` starting at position `i`. */
  predicate OccursAt(s: string, sub: string, i: int)
  {
    0 <= i <= |s| - |sub| && s[i..i + |sub|] == sub
  }

  /** A string cannot contain anything longer than itself. */
  lemma ContainsShorter(s: string, sub: string)
    requires Contains(s, sub)
    ensures |sub| <= |s|
  {
  }

  /** Every string contains the empty string. */
  lemma ContainsEmpty(s: string)
    ensures Contains(s, [])
  {
    assert OccursAt(s, [], 0);
  }

  /** A string contains itself. */
  lemma ContainsSelf(s: string)
    ensures Contains(s, s)
  {
    assert OccursAt(s, s, 0);
  }

  /** A string lacking one of the characters of `sub` does not contain `sub`. */
  lemma MissingCharNotContained(s: string, sub: string, c: char)
    requires c in sub && c !in s
    ensures !Contains(s, sub)
  {
  }

  /** The first position of `c` in `s`. */
  function IndexOf(s: string, c: char): (i: nat)
    requires c in s
    ensures i < |s| && s[i] == c && c !in s[..i]
  {
    if s[0] == c then 0 else 1 + IndexOf(s[1..], c)
  }

  /** `str.split(c)` / `String.prototype.split(c)` on a one-character separator:
      the pieces between separators, empty pieces included. */
  function Split(s: string, c: char): (parts: seq<string>)
    ensures |parts| >= 1
    ensures forall k :: 0 <= k < |parts| ==> c !in parts[k]
    decreases |s|
  {
    if c !in s then [s]
    else
      var i := IndexOf(s, c);
      [s[..i]] + Split(s[i + 1..], c)
  }

  /** `parts.join(sep)`. */
  function Join(parts: seq<string>, sep: string): string
  {
    if parts == [] then []
    else if |parts| == 1 then parts[0]
    else parts[0] + sep + Join(parts[1..], sep)
  }

  /** Joining the pieces of a split with the separator gives back the input. */
  lemma {:induction false} JoinSplit(s: string, c: char)
    ensures Join(Split(s, c), [c]) == s
    decreases |s|
  {
    if c in s {
      var i := IndexOf(s, c);
      JoinSplit(s[i + 1..], c);
      var rest := Split(s[i + 1..], c);
      assert Split(s, c) == [s[..i]] + rest;
      assert ([s[..i]] + rest)[1..] == rest;
      assert s == s[..i] + [c] + s[i + 1..];
    }
  }

  /** Splitting text joined from separator-free pieces gives back the pieces. */
  lemma {:induction false} SplitJoin(parts: seq<string>, c: char)
    requires |parts| >= 1
    requires forall k :: 0 <= k < |parts| ==> c !in parts[k]
    ensures Split(Join(parts, [c]), c) == parts
    decreases |parts|
  {
    if |parts| > 1 {
      var rest := Join(parts[1..], [c]);
      var s := parts[0] + [c] + rest;
      assert Join(parts, [c]) == s;
      IndexOfAfterFree(parts[0], c, rest);
      assert Split(s, c) == [parts[0]] + Split(rest, c) by {
        assert s[..|parts[0]|] == parts[0];
        assert s[|parts[0]| + 1..] == rest;
      }
      SplitJoin(parts[1..], c);
      assert parts == [parts[0]] + parts[1..];
    }
  }

  /** The first separator of `p + [c] + rest` is the one right after `p`. */
  lemma IndexOfAfterFree(p: string, c: char, rest: string)
    requires c !in p
    ensures c in p + [c] + rest && IndexOf(p + [c] + rest, c) == |p|
  {
    var s := p + [c] + rest;
    assert s[|p|] == c;
    assert s[..|p|] == p;
  }

  /** Each of the pieces occurs inside their join. */
  lemma {:induction false} JoinContainsParts(parts: seq<string>, sep: string, k: nat)
    requires k < |parts|
    ensures Contains(Join(parts, sep), parts[k])
    decreases |parts|
  {
    var j := Join(parts, sep);
    if |parts| == 1 {
      ContainsSelf(parts[0]);
    } else if k == 0 {
      assert j[0..|parts[0]|] == parts[0];
      assert OccursAt(j, parts[0], 0);
    } else {
      JoinContainsParts(parts[1..], sep, k - 1);
      var tail := Join(parts[1..], sep);
      var off := |parts[0]| + |sep|;
      assert j == parts[0] + sep + tail;
      var i :| 0 <= i <= |tail| - |parts[k]| && OccursAt(tail, parts[k], i);
      assert j[off + i..off + i + |parts[k]|] == tail[i..i + |parts[k]|];
      assert OccursAt(j, parts[k], off + i);
    }
  }
}

=== FILE: transitions.dfy ===
/** The status transition tables as plain relations: the reference against which the
    board's drag guard and the backend's status patch are both checked. */
module Transitions {
  import opened TaskModel

  /** Moves an assignee may make, on the board and on the backend alike. */
  const AssigneeMoves: set<(Status, Status)> := {(ToDo, InProgress), (InProgress, Review)}

  /** Moves the board lets a manager make. */
  const BoardManagerMoves: set<(Status, Status)> := {(Review, ToDo), (Review, Done)}

  /** Moves the backend lets the task's reviewer make as a manager. */
  const ServerManagerMoves: set<(Status, Status)> := {(Review, InProgress), (Review, Done)}

  /** No table has a move out of DONE, and none has a move that stays put. */
  lemma TablesShape(from: Status, to: Status)
    ensures (from, to) in AssigneeMoves + BoardManagerMoves + ServerManagerMoves ==> from != Done && from != to
  {
  }

  /** The two manager tables share exactly one move: REVIEW to DONE. */
  lemma ManagerTablesMeet()
    ensures BoardManagerMoves * ServerManagerMoves == {(Review, Done)}
    ensures (Review, ToDo) in BoardManagerMoves - ServerManagerMoves
    ensures (Review, InProgress) in ServerManagerMoves - BoardManagerMoves
  {
  }

  /** The assignee table, spelled out. */
  lemma AssigneeMovesAre(from: Status, to: Status)
    ensures (from, to) in AssigneeMoves <==> (from == ToDo && to == InProgress) || (from == InProgress && to == Review)
  {
  }

  /** The board's manager table, spelled out. */
  lemma BoardManagerMovesAre(from: Status, to: Status)
    ensures (from, to) in BoardManagerMoves <==> from == Review && (to == ToDo || to == Done)
  {
  }

  /** The backend's manager table, spelled out. */
  lemma ServerManagerMovesAre(from: Status, to: Status)
    ensures (from, to) in ServerManagerMoves <==> from == Review && (to == InProgress || to == Done)
  {
  }
}

=== FILE: users_crud.dfy ===
/** The user service: reading a stored `roles` value back as a list, creating a
    user with a default password, partial updates, lookups and deletion. The
    user table is keyed by `e_id`. */
module UsersCrud {
  import opened Optional
  import opened Text
  import opened Seqs
  import opened ServerModel

  /** A `roles` value as the column may hold it: nothing, a list, text (a JSON
      list or comma-separated names), or some other iterable of names. */
  datatype RolesValue = NoRoles | RoleList(items: seq<string>) | RoleText(text: string) | RoleIterable(elements: seq<string>)

  /** The comma-separated reading: each piece stripped, empty pieces dropped. */
  function KeepStripped(parts: seq<string>): (r: seq<string>)
    ensures IsSubsequence(r, Map(parts, Trim))
    ensures forall x :: x in r <==> x in Map(parts, Trim) && x != []
    ensures forall x :: multiset(r)[x] == if x != [] then multiset(Map(parts, Trim))[x] else 0
  {
    Filter(Map(parts, Trim), (x: string) => x != [])
  }

  /** Every name the comma-separated reading keeps is non-empty and already
      stripped. */
  lemma KeptAreStripped(parts: seq<string>, x: string)
    requires x in KeepStripped(parts)
    ensures x != [] && Trim(x) == x
  {
    var t := Map(parts, Trim);
    assert x in t;
    var j :| 0 <= j < |t| && t[j] == x;
    TrimIdempotent(parts[j]);
  }

  /** `_ensure_roles_list`. `jsonList` stands for `json.loads` followed by the
      list test: it yields the list when the text parses as one. */
  function EnsureRolesList(roles: RolesValue, jsonList: string -> Option<seq<string>>): (r: seq<string>)
    ensures roles.NoRoles? ==> r == []
    ensures roles.RoleList? ==> r == roles.items
    ensures roles.RoleIterable? ==> r == roles.elements
    ensures roles.RoleText? && jsonList(roles.text).Some? ==> r == jsonList(roles.text).value
    ensures roles.RoleText? && jsonList(roles.text).None? ==>
      r == KeepStripped(Split(roles.text, ',')) &&
      forall x :: x in r <==> x in Map(Split(roles.text, ','), Trim) && x != []
  {
    match roles
    case NoRoles => []
    case RoleList(items) => items
    case RoleText(t) => if jsonList(t).Some? then jsonList(t).value else KeepStripped(Split(t, ','))
    case RoleIterable(es) => es
  }

  /** A list of names read back as a list is unchanged, so reading a read value
      again changes nothing. */
  lemma EnsureRolesIdempotent(roles: RolesValue, jsonList: string -> Option<seq<string>>)
    ensures EnsureRolesList(RoleList(EnsureRolesList(roles, jsonList)), jsonList) == EnsureRolesList(roles, jsonList)
  {
  }

  /** Stripping pieces that are already stripped and non-empty keeps them all. */
  lemma {:induction false} KeepStrippedAll(parts: seq<string>)
    requires forall k :: 0 <= k < |parts| ==> parts[k] != [] && Trim(parts[k]) == parts[k]
    ensures KeepStripped(parts) == parts
  {
    var t := Map(parts, Trim);
    assert t == parts;
    FilterAll(t, (x: string) => x != []);
  }

  /** Names that are non-empty, stripped and comma-free survive being stored as
      comma-separated text and read back, unless the text happens to parse as a
      JSON list. */
  lemma CommaTextRoundTrip(names: seq<string>, jsonList: string -> Option<seq<string>>)
    requires |names| >= 1
    requires forall k :: 0 <= k < |names| ==> names[k] != [] && Trim(names[k]) == names[k] && ',' !in names[k]
    requires jsonList(Join(names, ",")).None?
    ensures EnsureRolesList(RoleText(Join(names, ",")), jsonList) == names
  {
    SplitJoin(names, ',');
    KeepStrippedAll(names);
  }

  /** A row of the user table. */
  datatype UserRow = UserRow(eId: int, password: string, roles: RolesValue, status: string)

  /** A user as the service returns it: the roles always a list. */
  datatype UserOut = UserOut(eId: int, password: string, roles: seq<string>, status: string)

  function Present(u: UserRow, jsonList: string -> Option<seq<string>>): (o: UserOut)
    ensures o.eId == u.eId && o.password == u.password && o.status == u.status
    ensures o.roles == EnsureRolesList(u.roles, jsonList)
  {
    UserOut(u.eId, u.password, EnsureRolesList(u.roles, jsonList), u.status)
  }

  /** The row a query by primary key finds. */
  function Lookup(store: seq<UserRow>, id: int): (r: Option<UserRow>)
    ensures r.None? <==> forall i :: 0 <= i < |store| ==> store[i].eId != id
    ensures r.Some? ==> r.value.eId == id && r.value in store
  {
    FindFirst(store, (u: UserRow) => u.eId == id)
  }

  /** `e_id` is the table's primary key: no two rows share one. */
  predicate KeysUnique(store: seq<UserRow>)
  {
    forall i, j :: 0 <= i < j < |store| ==> store[i].eId != store[j].eId
  }

  /** The request body of a creation. */
  datatype NewUser = NewUser(eId: int, password: Option<string>, roles: RolesValue, status: string)

  const DefaultPassword := "password123"

  /** `add_user`: a missing or empty password becomes the default. A key already
      in the table makes the insert fail with the database's message. */
  function AddUser(store: seq<UserRow>, u: NewUser, dbMessage: string,
                   jsonList: string -> Option<seq<string>>): (r: Result<(seq<UserRow>, UserOut)>)
    ensures r.Err? <==> Lookup(store, u.eId).Some?
    ensures r.Err? ==> r.failure == HttpError(500, "Database error: " + dbMessage)
    ensures r.Ok? ==> |r.value.0| == |store| + 1 && r.value.0[..|store|] == store
    ensures r.Ok? ==> var row := r.value.0[|store|];
      row.eId == u.eId && row.roles == u.roles && row.status == u.status &&
      (row.password == DefaultPassword <==> u.password.None? || u.password.value == [] || u.password.value == DefaultPassword) &&
      (u.password.Some? && u.password.value != [] ==> row.password == u.password.value) &&
      r.value.1 == Present(row, jsonList)
  {
    if Lookup(store, u.eId).Some? then Err(HttpError(500, "Database error: " + dbMessage))
    else
      var pw := if u.password.None? || u.password.value == [] then DefaultPassword else u.password.value;
      var row := UserRow(u.eId, pw, u.roles, u.status);
      assert (store + [row])[..|store|] == store;
      Ok((store + [row], Present(row, jsonList)))
  }

  const UserNotFound := "User Not Found"

  /** `get_user_by_id`. */
  function GetUser(store: seq<UserRow>, id: int, jsonList: string -> Option<seq<string>>): (r: Result<UserOut>)
    ensures r.Err? <==> Lookup(store, id).None?
    ensures r.Err? ==> r.failure == HttpError(404, UserNotFound)
    ensures r.Ok? ==> r.value == Present(Lookup(store, id).value, jsonList)
  {
    match Lookup(store, id)
    case None => Err(HttpError(404, UserNotFound))
    case Some(u) => Ok(Present(u, jsonList))
  }

  /** The keys of an update body the model follows: each absent, or present with
      its value; `roles` may be present as null. */
  datatype UserUpdate = UserUpdate(password: Option<string>, roles: Option<Option<RolesValue>>, status: Option<string>)

  /** Setting the keys of an update on a row; `roles: null` keeps the roles. */
  function ApplyUpdate(u: UserRow, up: UserUpdate): (r: UserRow)
    ensures r.eId == u.eId
    ensures r.password == up.password.GetOr(u.password)
    ensures r.status == up.status.GetOr(u.status)
    ensures r.roles == (if up.roles.Some? && up.roles.value.Some? then up.roles.value.value else u.roles)
  {
    var roles := if up.roles.Some? && up.roles.value.Some? then up.roles.value.value else u.roles;
    UserRow(u.eId, up.password.GetOr(u.password), roles, up.status.GetOr(u.status))
  }

  /** `update_user`. */
  function UpdateUser(store: seq<UserRow>, id: int, up: UserUpdate,
                      jsonList: string -> Option<seq<string>>): (r: Result<(seq<UserRow>, UserOut)>)
    ensures r.Err? <==> Lookup(store, id).None?
    ensures r.Err? ==> r.failure == HttpError(404, UserNotFound)
    ensures r.Ok? ==> |r.value.0| == |store|
    ensures r.Ok? ==> forall i :: 0 <= i < |store| && store[i].eId != id ==> r.value.0[i] == store[i]
    ensures r.Ok? ==> r.value.1 == Present(ApplyUpdate(Lookup(store, id).value, up), jsonList)
  {
    match Lookup(store, id)
    case None => Err(HttpError(404, UserNotFound))
    case Some(u) =>
      var row := ApplyUpdate(u, up);
      Ok((MapWhere(store, (x: UserRow) => x.eId == id, (x: UserRow) => row), Present(row, jsonList)))
  }

  /** An explicit `roles: null` is the same as leaving `roles` out. */
  lemma NullRolesKeepRoles(store: seq<UserRow>, id: int, up: UserUpdate, jsonList: string -> Option<seq<string>>)
    ensures UpdateUser(store, id, up.(roles := Some(None)), jsonList) == UpdateUser(store, id, up.(roles := None), jsonList)
  {
  }

  /** Reading a user back after an update gives what the update returned. */
  lemma UpdateThenGet(store: seq<UserRow>, id: int, up: UserUpdate, jsonList: string -> Option<seq<string>>)
    requires UpdateUser(store, id, up, jsonList).Ok?
    ensures GetUser(UpdateUser(store, id, up, jsonList).value.0, id, jsonList) == Ok(UpdateUser(store, id, up, jsonList).value.1)
  {
    var s := UpdateUser(store, id, up, jsonList).value.0;
    var row := ApplyUpdate(Lookup(store, id).value, up);
    var k :| 0 <= k < |store| && store[k] == Lookup(store, id).value;
    assert s[k] == row;
    var found := Lookup(s, id).value;
    var j :| 0 <= j < |s| && s[j] == found;
    assert s[j] == row;
  }

  /** `delete_user`: the row with that key is removed. */
  function DeleteUser(store: seq<UserRow>, id: int): (r: Result<(seq<UserRow>, string)>)
    ensures r.Err? <==> Lookup(store, id).None?
    ensures r.Err? ==> r.failure == HttpError(404, UserNotFound)
    ensures r.Ok? ==> r.value.1 == "User Deleted Successfully"
    ensures r.Ok? ==> IsSubsequence(r.value.0, store) && forall u :: u in r.value.0 <==> u in store && u.eId != id
    ensures r.Ok? ==> forall u :: multiset(r.value.0)[u] == if u.eId != id then multiset(store)[u] else 0
  {
    match Lookup(store, id)
    case None => Err(HttpError(404, UserNotFound))
    case Some(_) => Ok((Filter(store, (u: UserRow) => u.eId != id), "User Deleted Successfully"))
  }

  /** A deleted user is gone: reading or deleting it again is a 404. */
  lemma DeleteThenGet(store: seq<UserRow>, id: int, jsonList: string -> Option<seq<string>>)
    requires DeleteUser(store, id).Ok?
    ensures GetUser(DeleteUser(store, id).value.0, id, jsonList) == Err(HttpError(404, UserNotFound))
    ensures DeleteUser(DeleteUser(store, id).value.0, id).Err?
  {
    var s := DeleteUser(store, id).value.0;
    forall i | 0 <= i < |s| ensures s[i].eId != id {
      assert s[i] in s;
    }
  }

  /** Adding a user keeps the key unique: the insert fails on a taken key. */
  lemma AddKeepsKeysUnique(store: seq<UserRow>, u: NewUser, dbMessage: string,
                           jsonList: string -> Option<seq<string>>)
    requires KeysUnique(store)
    ensures AddUser(store, u, dbMessage, jsonList).Ok? ==> KeysUnique(AddUser(store, u, dbMessage, jsonList).value.0)
  {
    var r := AddUser(store, u, dbMessage, jsonList);
    if r.Ok? {
      var s := r.value.0;
      forall i, j | 0 <= i < j < |s| ensures s[i].eId != s[j].eId {
        if j == |store| {
          assert s[i] == store[i];
        } else {
          assert s[i] == store[i] && s[j] == store[j];
        }
      }
    }
  }

  /** Updating a user keeps the key unique: the key itself is never rewritten. */
  lemma UpdateKeepsKeysUnique(store: seq<UserRow>, id: int, up: UserUpdate,
                              jsonList: string -> Option<seq<string>>)
    requires KeysUnique(store)
    ensures UpdateUser(store, id, up, jsonList).Ok? ==> KeysUnique(UpdateUser(store, id, up, jsonList).value.0)
  {
    var r := UpdateUser(store, id, up, jsonList);
    if r.Ok? {
      var s := r.value.0;
      forall i | 0 <= i < |s| ensures s[i].eId == store[i].eId {
        if store[i].eId != id {
          assert s[i] == store[i];
        }
      }
    }
  }

  /** Deleting a user keeps the key unique. */
  lemma DeleteKeepsKeysUnique(store: seq<UserRow>, id: int)
    requires KeysUnique(store)
    ensures DeleteUser(store, id).Ok? ==> KeysUnique(DeleteUser(store, id).value.0)
  {
    if DeleteUser(store, id).Ok? {
      FilterKeepsKeysUnique(store, id);
    }
  }

  lemma FilterKeepsKeysUnique(store: seq<UserRow>, id: int)
    requires KeysUnique(store)
    ensures KeysUnique(Filter(store, (u: UserRow) => u.eId != id))
  {
    SubsequenceKeepsKeysUnique(Filter(store, (u: UserRow) => u.eId != id), store);
  }

  /** Removing rows cannot make two keys equal. */
  lemma {:induction false} SubsequenceKeepsKeysUnique(a: seq<UserRow>, b: seq<UserRow>)
    requires IsSubsequence(a, b) && KeysUnique(b)
    ensures KeysUnique(a)
    decreases |b|
  {
    if b != [] {
      var tail := b[1..];
      assert KeysUnique(tail) by {
        forall i, j | 0 <= i < j < |tail| ensures tail[i].eId != tail[j].eId {
          assert tail[i] == b[i + 1] && tail[j] == b[j + 1];
        }
      }
      if a != [] && a[0] == b[0] && IsSubsequence(a[1..], tail) {
        SubsequenceKeepsKeysUnique(a[1..], tail);
        forall i, j | 0 <= i < j < |a| ensures a[i].eId != a[j].eId {
          assert a[j] == a[1..][j - 1];
          if i > 0 {
            assert a[i] == a[1..][i - 1];
          } else {
            SubsequenceMembers(a[1..], tail, a[j]);
            var k :| 0 <= k < |tail| && tail[k] == a[j];
            assert b[k + 1] == a[j];
          }
        }
      } else {
        SubsequenceKeepsKeysUnique(a, tail);
      }
    }
  }

  /** `/Users/getall`: an empty table is a 404. */
  function GetAllUsers(store: seq<UserRow>, jsonList: string -> Option<seq<string>>): (r: Result<seq<UserOut>>)
    ensures r.Err? <==> store == []
    ensures r.Err? ==> r.failure == HttpError(404, "No users found")
    ensures r.Ok? ==> |r.value| == |store| && forall i :: 0 <= i < |store| ==> r.value[i] == Present(store[i], jsonList)
  {
    if store == [] then Err(HttpError(404, "No users found")) else Ok(PresentAll(store, jsonList))
  }

  function PresentAll(store: seq<UserRow>, jsonList: string -> Option<seq<string>>): (r: seq<UserOut>)
    ensures |r| == |store|
    ensures forall i :: 0 <= i < |store| ==> r[i] == Present(store[i], jsonList)
  {
    if store == [] then [] else [Present(store[0], jsonList)] + PresentAll(store[1..], jsonList)
  }
}

=== FILE: users_page.dfy ===
/** The users screen: loading the list, applying an edit, deleting a user, and how
    a user's first role and status are shown. */
module UsersPage {
  import opened Optional
  import opened Text
  import opened Seqs
  import opened ErrorDetail
  import opened AdminLists

  /** A user row as the screen holds it. The password is never shown and is left
      out. */
  datatype UserItem = UserItem(eId: Option<int>, roles: Option<seq<string>>, status: string)

  function UId(u: UserItem): Option<int> { u.eId }

  /** The colour family of a badge. */
  datatype Tone = Danger | Warning | Success | Muted

  /** The role badge colour, whatever the case of the role. */
  function BadgeTone(role: string): (t: Tone)
    ensures t == Danger <==> ToLower(role) == "admin"
    ensures t == Warning <==> ToLower(role) == "manager"
    ensures t == Success <==> ToLower(role) == "developer"
  {
    match ToLower(role)
    case "admin" => Danger
    case "manager" => Warning
    case "developer" => Success
    case _ => Muted
  }

  /** Two spellings that differ only in case get the same badge. */
  lemma BadgeIgnoresCase(a: string, b: string)
    requires ToLower(a) == ToLower(b)
    ensures BadgeTone(a) == BadgeTone(b)
  {
  }

  /** The role column: the first role, or "-" when there is none. */
  function RoleCell(roles: Option<seq<string>>): (c: string)
    ensures roles.Some? && |roles.value| > 0 ==> c == roles.value[0]
    ensures roles.None? || roles.value == [] ==> c == "-"
  {
    if roles.Some? && |roles.value| > 0 then roles.value[0] else "-"
  }

  /** The colour of the role column, from the same first role ("" when none). */
  function RoleCellTone(roles: Option<seq<string>>): (t: Tone)
    ensures roles.None? || roles.value == [] ==> t == Muted
    ensures roles.Some? && |roles.value| > 0 ==> t == BadgeTone(RoleCell(roles))
  {
    BadgeTone(if roles.Some? && |roles.value| > 0 then roles.value[0] else "")
  }

  /** The status badge is green only for exactly "active". */
  function StatusTone(status: string): (t: Tone)
    ensures t == Success <==> status == "active"
    ensures t != Success ==> t == Muted
  {
    if status == "active" then Success else Muted
  }

  /** The users to show after a load, and whether the error toast shows: the
      shared `AdminLists.Load`, which the employees screen uses too. */
  function LoadUsers(response: Fetched<UserItem>, current: seq<UserItem>): (r: Loaded<UserItem>)
    ensures response.Array? ==> r == Loaded(response.items, false)
    ensures response.NotArray? ==> r == Loaded([], false)
    ensures response.Failed? ==> (r.items == [] <==> response.status == 404 || current == [])
    ensures response.Failed? && response.status == 404 ==> r == Loaded([], false)
    ensures response.Failed? && response.status != 404 ==> r == Loaded(current, true)
  {
    Load(response, current)
  }

  /** `handleUpdated`: every row with the edited user's id is replaced. */
  function HandleUpdated(list: seq<UserItem>, updated: UserItem): (r: seq<UserItem>)
    ensures |r| == |list|
    ensures forall i :: 0 <= i < |list| && list[i].eId != updated.eId ==> r[i] == list[i]
    ensures forall i :: 0 <= i < |list| && list[i].eId == updated.eId ==> r[i] == updated
  {
    ReplaceById(list, updated, UId)
  }

  /** `handleDelete` on the row `u`. `failure` is the error the request threw, if
      it threw. */
  function HandleDelete(list: seq<UserItem>, u: UserItem, confirmed: bool, show: int -> string,
                        failure: Option<Js>, str: Js -> string): (e: DeleteEffect<UserItem>)
    ensures e.request.Some? <==> IdPresent(u.eId) && confirmed
    ensures e.request.Some? ==> e.request.value == "/Users/delete?id=" + show(u.eId.value)
    ensures !IdPresent(u.eId) ==> e.toast == Some(Toast("Delete Failed", "User id missing"))
    ensures e.items != list ==> e.request.Some? && failure.None?
    ensures e.request.Some? && failure.None? ==> forall x :: x in e.items <==> x in list && x.eId != u.eId
    ensures e.request.Some? && failure.None? ==>
      IsSubsequence(e.items, list) && forall x :: multiset(e.items)[x] == if x.eId != u.eId then multiset(list)[x] else 0
    ensures e.request.Some? && failure.Some? ==>
      e.toast == Some(Toast("Delete Failed", MessageOr(failure.value, "Could not delete user", str)))
  {
    var reply := if failure.None? then Removed else Refused(Some(MessageOr(failure.value, "Could not delete user", str)));
    DeleteById(list, UId, u.eId, confirmed, "/Users/delete?id=", show, "User id missing", "User removed", reply)
  }
}
